=== FILE: README.md ===
# ALPHA-OS core in Dafny

A model of the core of ALPHA-OS, a small i386 teaching kernel. The model covers:

- the in-memory filesystem (a 256-entry table keyed by full path and a 4 MiB append-only byte arena);
- its path functions (normalise, absolute, parent, filename, directory);
- the shell's history ring, tokeniser, dispatcher and `calc`;
- the kernel-mode first-fit heap allocator;
- the kernel-mode keyboard ring buffer and line editor;
- the libc pieces these rely on: string primitives, `atoi`/`itoa`/`rand`, and the `vsprintf`/`snprintf` formatter.

Every piece of state is an immutable datatype, and every operation is a function or method that returns the new state together with the C return value. The target is ILP32, so `int`, `long`, `size_t` and `uint32_t` are all 32 bits wide. Where the C code wraps, the model wraps explicitly (`% UINT_MOD`). Where C behaviour would be undefined, a precondition usually excludes it: signed overflow, or a write past a fixed buffer. The exception is path normalisation, whose output buffer the model does not bound (see "## Left out"). The heap's `free` and `realloc` also require a pointer that is NULL or the payload of a current block; "## Left out" says what that leaves unmodelled.

Modules, one per source file:

| module | file |
|---|---|
| `Common` | shared helpers: `Option`, `Clip`, truncating division |
| `CString` | `libc/string.c` |
| `Stdlib` | `libc/stdlib.c` |
| `Stdio` | `libc/stdio.c` |
| `Keyboard` | `kernel/keyboard.c`, kernel half |
| `Heap` | `kernel/memory.c`, kernel half |
| `Paths` | the path functions of `kernel/fs.c` |
| `FileSystem` | the table and arena of `kernel/fs.c` |
| `Shell` | `kernel/shell.c` |

The code is modelled as written, including its quirks:

- **create:** a full table (-1) is reported before a duplicate (-2).
- **write:**
  - The arena-space check (-2) also applies when a write overwrites an existing file.
  - An overwrite reuses the file's old offset and never moves `data_used`.
- **touch:** an empty file records `data_used` as its offset without reserving anything. The next new file is stored at the same offset (`FileSystem.TouchedFileSharesOffset`).
- **Trailing slashes:**
  - The seeded directories are stored without a trailing slash.
  - `cd` looks names up with one, so `cd home` fails on the booted system (`FileSystem.SeededDirectoryUnreachable`).
  - `mkdir` stores "x/". Such a name can be entered with `cd` (`Shell.MkdirThenCd`) but never appears in a listing (`Shell.MkdirHidden`).
- **Permission string:** it shows the type and only eight permission bits; bit 0001 never appears (`FileSystem.OtherExecuteHidden`).
- **Name length:** the duplicate check compares the whole name, but the stored name is cut to 127 characters.

## Model

| member | source | states |
|---|---|---|
| Common.Clip | libc/string.c:87-96 | keeps the first min(n, length) elements, a prefix of the input: what every `strncpy(dst, src, n-1)` into a fixed buffer leaves |
| Common.TDiv | kernel/shell.c:731-734 | C's `/` on int: the remainder a - q*b is smaller than b in magnitude and has the sign of a (rounding toward zero), and the quotient is no larger than a in magnitude |
| CString.Strlen | libc/string.c:69-75 | the index of the first NUL: everything before it is NUL-free |
| CString.Content | libc/string.c:69-75 | the characters before the terminator, a NUL-free prefix of the buffer |
| CString.ContentOfTerminated | libc/string.c:69-75 | a NUL-free text followed by NUL reads back as exactly that text, whatever follows |
| CString.Strcmp | libc/string.c:123-129 | zero iff the two contents are equal, negative iff the first is lexicographically smaller by unsigned byte, positive iff larger |
| CString.Strncmp | libc/string.c:131-141 | the same three-way comparison, restricted to the first n characters of each content |
| CString.Strchr | libc/string.c:143-156 | searching for NUL finds the terminator; otherwise the result exists iff c occurs in the content, and it is the first occurrence |
| CString.Strrchr | libc/string.c:158-173 | searching for NUL finds the terminator; otherwise the result exists iff c occurs, no later occurrence precedes the terminator, and it agrees with LastIndex on the string's content |
| CString.Strstr | libc/string.c:175-197 | an empty needle matches at 0; otherwise the result is the first position where the needle occurs in the content, and no earlier position matches |
| CString.Memmove | libc/string.c:15-30 | the destination range holds the original source bytes even when the ranges overlap, and nothing else changes |
| CString.Memcmp | libc/string.c:42-55 | zero iff the first n bytes are equal, negative iff the first range is lexicographically smaller |
| CString.Strncpy | libc/string.c:87-96 | exactly n bytes are written: the source, then zero padding; with no terminator when the source is at least n long; bytes past n untouched |
| CString.Strcat | libc/string.c:98-109 | the result's content is the concatenation of the two contents; bytes past the new terminator are untouched |
| CString.Trim | libc/string.c:246-267 | the kept range starts and ends at non-space characters, and everything cut off on either side is a space, tab, newline or return |
| CString.SplitString | libc/string.c:269-279 | exactly min(max_tokens, number of strtok tokens) tokens, a prefix of all strtok tokens, and all of them when max_tokens is large enough |
| CString.Tokens | libc/string.c:199-235 | every strtok token is non-empty and free of delimiters |
| CString.TokensAreNonEmptyFields | libc/string.c:199-235 | strtok's tokens equal the non-empty fields of the string cut at every delimiter (an independent definition) |
| Stdlib.Atoi | libc/stdlib.c:8-29 | skips blanks, takes one optional sign and the following digit run; the result is the signed value of that run, 0 when there are no digits |
| Stdlib.Atol | libc/stdlib.c:31-52 | the same grammar and value as atoi, over the 32-bit long |
| Stdlib.Itoa | libc/stdlib.c:126-153 | lowercase digits most-significant first with a '-' for negatives in every base; the empty string for a base outside 2..36 |
| Stdlib.Ltoa | libc/stdlib.c:155-182 | the same rendering as itoa over the 32-bit long |
| Stdlib.ReadFormatted | libc/stdlib.c:8-29 | atoi reads back what itoa writes in base 10, for every int but INT_MIN |
| Stdlib.Abs | libc/stdlib.c:118-120 | a non-negative int equal to j or -j |
| Stdlib.Labs | libc/stdlib.c:122-124 | a non-negative long equal to j or -j |
| Stdlib.AbsIsMagnitude | libc/stdlib.c:118-120 | abs is the magnitude and is symmetric |
| Stdlib.Rand | libc/stdlib.c:87-90 | the state steps by the 32-bit linear congruence and the value is bits 16..30 of the new state, always in 0..32767 |
| Stdlib.Srand | libc/stdlib.c:92-94 | the seed becomes the generator state |
| Stdlib.Draws | libc/stdlib.c:87-90 | n successive rand calls give n values, each in 0..32767, the first being rand's value on the starting state |
| Stdlib.UnseededIsSeedOne | libc/stdlib.c:6 | before any srand the state is 1, so the draws equal those after srand(1) |
| Stdlib.StepInvertible | libc/stdlib.c:87-90 | one rand step can be undone, so distinct seeds give distinct next states |
| Stdlib.StepInjective | libc/stdlib.c:87-90 | two states that step to the same state are equal |
| Stdio.Vsprintf | libc/stdio.c:87-182 | the output is the full rendering cut at 1023 characters, and exactly the rendering when that fits |
| Stdio.Emit | libc/stdio.c:90-180 | after text already written, the formatter appends the rendering of the rest and the whole is cut at 1023 |
| Stdio.Snprintf | libc/stdio.c:70-85 | for size > 0 the text is the rendering cut at min(1023, size-1) and the return value is its length; with size 0 nothing is truncated |
| Stdio.SingleConversion | libc/stdio.c:99-178 | one directive renders its conversion; `%s` of NULL gives "(null)"; `%%` gives '%'; any other character echoes '%' and itself and consumes no argument |
| Stdio.SignedConversion | libc/stdio.c:112-131 | `%d` renders like itoa in base 10: a '-' then the magnitude's digits, and atoi reads it back |
| Stdio.UnsignedConversion | libc/stdio.c:132-146 | `%u` renders the 32-bit unsigned value's decimal digits, most significant first, "0" for zero |
| Stdio.HexConversion | libc/stdio.c:147-163 | `%x` renders the unsigned value in lowercase hex, most significant first, and `%X` is the same digits upper-cased |
| Stdio.PlainText | libc/stdio.c:90-95 | a format without '%' renders as itself |
| Stdio.LeftAlignedWidthIsLiteral | libc/stdio.c:168-174 | "%-12s" has no width support and comes out literally |
| Keyboard.Init | kernel/keyboard.c:115-118 | the buffer starts empty |
| Keyboard.Read | kernel/keyboard.c:120-128 | an empty buffer yields NUL and changes nothing; otherwise the oldest character is returned and removed |
| Keyboard.Available | kernel/keyboard.c:130-132 | true iff characters are queued |
| Keyboard.ClearBuffer | kernel/keyboard.c:167-169 | the queue becomes empty |
| Keyboard.Enqueue | kernel/keyboard.c:182-186 | a character is appended unless 255 are already held, in which case nothing changes |
| Keyboard.Poll | kernel/keyboard.c:171-190 | a release scancode, no scancode, or one mapping to 0 enqueues nothing; any other is enqueued when there is room |
| Keyboard.FirstInFirstOut | kernel/keyboard.c:120-128 | after a character is stored, the next read returns the oldest waiting character (the new one only when none was waiting), and the rest stay queued with the new one last |
| Keyboard.GetLine | kernel/keyboard.c:134-165 | the line is the edit of the keys up to CR/LF or a full buffer: printable characters kept, backspace removes the last, others ignored; length at most size-1 |
| Keyboard.BackspaceUndoes | kernel/keyboard.c:148-159 | typing a printable character then backspace leaves the line unchanged |
| Keyboard.BackspaceAtStart | kernel/keyboard.c:148-156 | backspace on an empty line does nothing |
| Heap.Init | kernel/memory.c:32-41 | one free block spanning the heap, with free_memory equal to its size |
| Heap.FindFreeBlock | kernel/memory.c:43-59 | the first intact block that is free and big enough; no earlier block fits; none at all when nothing fits |
| Heap.SplitBlock | kernel/memory.c:61-72 | splits only when the block exceeds the request by more than a header plus 16, giving the tail block size - request - header; the span is preserved |
| Heap.MergeFreeBlocks | kernel/memory.c:74-89 | preserves span and used bytes, and leaves no two adjacent free blocks |
| Heap.MergeKeepsInUse | kernel/memory.c:74-89 | the merge walk never absorbs a block in use: it stays in the list, unchanged, at its payload address |
| Heap.InUseSurvivesMerge | kernel/memory.c:74-89 | after merge_free_blocks, the payload address of a block in use still names that same block |
| Heap.Align | kernel/memory.c:97 | a multiple of 8 below 2^32 |
| Heap.AlignRoundsUp | kernel/memory.c:97 | rounds up by less than 8, or wraps to 0 for sizes above 2^32-8 |
| Heap.Malloc | kernel/memory.c:91-109 | size 0 gives NULL; success iff a block fits the aligned size; the pointer is that block's payload, now used; free_memory falls by the block's size |
| Heap.Free | kernel/memory.c:111-126 | NULL and bad magic change nothing; otherwise the block is marked free, free_memory rises by its size, and free neighbours are merged |
| Heap.FreeKeepsLive | kernel/memory.c:111-126 | freeing one block leaves every other block in use valid: its payload address still names the same block |
| Heap.Realloc | kernel/memory.c:128-157 | NULL acts as malloc, size 0 as free; a block already big enough keeps its pointer; otherwise the heap is malloc's heap with the old block then freed, the pointer is malloc's and block-size bytes are copied, or the heap is left as it was if the allocation fails; for a live pointer, a returned pointer names a block in use with room for the request |
| Heap.ReallocMoves | kernel/memory.c:148-156 | when realloc moves a live block, the new pointer still names a block in use, large enough, after the old block is freed |
| Heap.MallocThenFree | kernel/memory.c:91-126 | freeing what malloc returned restores free_memory and used bytes and leaves the heap coalesced |
| Heap.OldBlockSurvives | kernel/memory.c:61-72 | splitting and taking a fitting block, as malloc does, leaves every existing payload address valid, naming the same block unless it is the one taken |
| Heap.GetStats | kernel/memory.c:168-172 | total is the heap size, free is free_memory, and used is the used payload plus one header |
| Heap.CheckIntegrity | kernel/memory.c:174-185 | true iff every block header carries the magic number |
| Paths.Normalize | kernel/fs.c:55-90 | starts with '/', never ends in '/' unless it is "/", has no empty segment, and holds at most 32 plain components |
| Paths.Components | kernel/fs.c:55-90 | the normalised path is the rendering of its plain component list |
| Paths.NormalizeIdempotent | kernel/fs.c:55-90 | normalising a normalised path changes nothing |
| Paths.ShortPathIdempotent | kernel/fs.c:55-90 | for every path under 127 characters, normalising twice equals normalising once |
| Paths.NormalizeLength | kernel/fs.c:55-90 | the normalised path is at most one longer than the (127-clipped) input |
| Paths.DotDotAtRoot | kernel/fs.c:55-90 | ".." at the root stays at the root |
| Paths.TokensOfJoin | kernel/fs.c:55-90 | splitting a joined path on '/' gives back its components |
| Paths.Absolute | kernel/fs.c:92-102 | an absolute path is normalised as is; the result always starts with '/' and has no empty segment |
| Paths.AbsoluteChild | kernel/fs.c:92-102 | a plain name relative to a normalised directory lands one level below it |
| Paths.Parent | kernel/fs.c:104-134 | at "/" the parent is "/" (the root clamp); otherwise the result fits the caller's buffer or is "/" |
| Paths.ParentDropsLast | kernel/fs.c:104-134 | the parent of a normalised path, with or without a trailing '/', drops its last component, and agrees with normalising path + "/.." |
| CString.LastIndex | libc/string.c:158-173 | the last occurrence of a character, or none when it does not occur |
| Paths.Filename | kernel/fs.c:136-142 | the part after the last '/', which holds no '/'; the whole path when there is no '/' |
| Paths.Directory | kernel/fs.c:144-156 | "." for a path without '/', "/" when the last slash is the first character, and otherwise the text before the last slash cut to size - 1 characters |
| Paths.DirectoryAndFilename | kernel/fs.c:136-156 | directory + "/" + filename rebuilds the path |
| FileSystem.Find | kernel/fs.c:261-268 | the first entry whose stored name equals the whole given name, or none if no entry has it |
| FileSystem.FindUnique | kernel/fs.c:261-268 | with unique names, the entry holding a name is the one found |
| FileSystem.Create | kernel/fs.c:158-180 | -1 on a full table (checked first), -2 on a duplicate, each leaving the state unchanged; otherwise one entry appended with the name cut to 127, size 0, offset data_used, permissions 0755 and created = modified = the next tick |
| FileSystem.Write | kernel/fs.c:182-219 | -1 too large, -2 no arena space (even for an overwrite), -3 directory, -4 create failure, each leaving the state unchanged; an overwrite changes only the entry's size and modified time and keeps data_used; a new file is appended at data_used, which rises by the size; the bytes stored are exactly the data, and every arena byte outside the written range is unchanged |
| FileSystem.Overwrite | kernel/fs.c:197-202 | only the written entry changes: new size and modified time, the same offset, and its bytes are the data; arena bytes outside the written range are unchanged |
| FileSystem.WriteKeepsOthers | kernel/fs.c:182-219 | a successful write keeps every other entry, and its bytes too unless they overlap the written range |
| FileSystem.Append | kernel/fs.c:210-216 | the created entry gets offset data_used and the data, data_used rises by the size, and every other arena byte is unchanged |
| FileSystem.Read | kernel/fs.c:221-239 | -2 missing, -1 directory; otherwise the first min(size, buffer_size) bytes of the file and their count |
| FileSystem.WriteThenRead | kernel/fs.c:182-239 | after a successful write of b under a name shorter than 128, a read returns min(length of b, buffer size) and that prefix of b |
| FileSystem.Delete | kernel/fs.c:241-259 | -1 missing, -2 for "/" once found; otherwise the last entry moves into the freed slot, the count drops by one, and the arena and data_used are untouched |
| FileSystem.DeleteRemoves | kernel/fs.c:241-259 | with unique names, a deleted name no longer exists |
| FileSystem.DeleteKeepsOthers | kernel/fs.c:241-259 | deleting one name keeps every other name's existence and entry |
| FileSystem.DeleteKeepsUnique | kernel/fs.c:241-259 | moving the last row into the freed slot keeps the names in the table distinct |
| FileSystem.CreateKeepsUnique | kernel/fs.c:158-180 | creating a name under 128 characters keeps names unique |
| FileSystem.WriteKeepsUnique | kernel/fs.c:182-219 | writing a name under 128 characters keeps names unique |
| FileSystem.TouchedFileSharesOffset | kernel/fs.c:166-171 | after touch f, writing a new file g, and writing f, reading g returns f's bytes: both entries share one offset |
| FileSystem.FileSize | kernel/fs.c:270-277 | the size of the named entry, 0 when missing |
| FileSystem.WriteThenSize | kernel/fs.c:182-239 | after a successful write of b under a name shorter than 128, the file size is the length of b |
| FileSystem.GetStats | kernel/fs.c:376-380 | entry count, data_used, and the remaining arena, which sum to the arena size |
| FileSystem.TypeString | kernel/fs.c:382-389 | "unknown" iff the name is missing, "directory" iff it names a directory, "file" iff it names a file |
| FileSystem.CreateThenType | kernel/fs.c:158-180 | a name under 128 characters, once created, is reported as "directory" or "file" according to the kind it was created as |
| FileSystem.DefaultPermissionText | kernel/fs.c:175 | the 0755 every new entry gets shows as "drwxr-xr-" for a directory and "-rwxr-xr-" for a file |
| FileSystem.PermissionText | kernel/fs.c:395-404 | nine characters: 'd' iff a directory, then at position 9-k the letter r, w or x that bit k stands for when it is set and '-' otherwise, for bits 8 down to 1 |
| FileSystem.PermissionString | kernel/fs.c:391-410 | "---------" for a missing name, otherwise the permission text cut to the caller's buffer |
| FileSystem.OtherExecuteHidden | kernel/fs.c:395-404 | bit 0001 never shows: permissions differing only there render alike |
| FileSystem.Children | kernel/fs.c:299-312 | every listed candidate is a direct child: it extends the prefix, is not the directory itself, and the remainder is non-empty and slash-free |
| FileSystem.Listed | kernel/fs.c:299-330 | the listed entries are a prefix of the direct children in table order whose lines fit the buffer; each passed the name-plus-two check in the room left before it, and the first child not listed fails that check |
| FileSystem.ListedAll | kernel/fs.c:314-318 | when the buffer covers every child's name plus two bytes, every direct child is listed |
| FileSystem.ListDirectory | kernel/fs.c:279-338 | the text is the listed lines with the last newline dropped; the count includes it, is never negative, and never exceeds the buffer |
| FileSystem.DirectoryPrefix | kernel/fs.c:283-294 | the prefix children are matched against starts with '/' |
| FileSystem.SlashNamesHidden | kernel/fs.c:309 | a name ending in '/' is never a direct child of any directory |
| FileSystem.ChangeDirectory | kernel/fs.c:340-374 | ".." goes to the parent, "." changes nothing; any other target succeeds only if absolute(target)+"/" exists, and on failure the cwd is unchanged |
| FileSystem.DirectoryName | kernel/fs.c:355-361 | the path or the path with '/' appended; it ends in '/' unless the path is 127 or more characters long |
| FileSystem.Boot | kernel/fs.c:14-53 | the booted table holds the eleven seeded directories and then the six seeded files, in order; the first eleven rows are directories and each of the six file rows is a file holding the text it was written with |
| FileSystem.BootReadsBack | kernel/fs.c:35-52 | each seeded file reads back, whole, as the text it was written with |
| FileSystem.BootFileKinds | kernel/fs.c:35-52 | each seeded file is reported as a file |
| FileSystem.BootDirectories | kernel/fs.c:18-33 | each seeded directory is reported as a directory |
| FileSystem.BootLookups | kernel/fs.c:14-53 | the booted names are unique, and a lookup succeeds exactly for them |
| FileSystem.HomeSeeded | kernel/fs.c:22 | "/home" exists after boot |
| FileSystem.SeededDirectoryUnreachable | kernel/fs.c:340-365 | on the booted system, `cd` to any single plain name from "/" fails, because the seeded names carry no trailing slash |
| FileSystem.CreateDirectoriesAppends | kernel/fs.c:18-33 | creating fresh, distinct, short names appends them in order |
| FileSystem.WriteFilesAppends | kernel/fs.c:35-52 | writing fresh, distinct, short names appends them in order |
| FileSystem.WriteFilesStore | kernel/fs.c:35-52 | writing fresh, distinct, short names keeps the earlier rows and arena bytes, and adds one file row per name holding its contents |
| FileSystem.CreateDirectoriesKeeps | kernel/fs.c:18-33 | creating directories keeps the earlier rows, the arena and its cursor, and every added row is a directory |
| Shell.AddToHistory | kernel/shell.c:147-155 | an empty command is not recorded; otherwise it goes, cut to 511 characters, into slot count mod 50, the count rises by one, and other slots are unchanged |
| Shell.GetHistory | kernel/shell.c:157-162 | a slot exists iff 0 <= index < 50 and index < count |
| Shell.HistoryCount | kernel/shell.c:164-166 | min(count, 50) |
| Shell.AddThenGet | kernel/shell.c:147-166 | the recorded command is returned at index count mod 50; every other index answers as before; the visible count grows by one up to 50 |
| Shell.RecordThenGet | kernel/shell.c:147-166 | from an empty history, up to fifty non-empty commands come back in order at indices 0.., each cut to 511, and no other index answers |
| Shell.Register | kernel/shell.c:84-95 | a command is appended unless 64 exist, in which case the table is unchanged |
| Shell.Lookup | kernel/shell.c:191-197 | the first command whose name equals the given name exactly |
| Shell.RegisterThenLookup | kernel/shell.c:84-95 | a command registered under a new name while fewer than 64 exist is the one its name looks up, and earlier names are found where they were |
| Shell.Arguments | kernel/shell.c:172-185 | exactly min(32, number of tokens) non-empty, blank-free tokens, a prefix of the strtok tokens of the first 511 characters |
| Shell.ProcessCommand | kernel/shell.c:168-197 | the line is recorded; no tokens runs nothing; otherwise the first command named by the first token runs with all tokens, or none is found |
| Shell.BlankLineRunsNothing | kernel/shell.c:183-185 | a line made only of spaces, tabs and newlines dispatches nothing |
| Shell.WordsAreArguments | kernel/shell.c:172-181 | single-space-separated words under 512 characters come back as exactly those arguments |
| Shell.Calc | kernel/shell.c:703-752 | fewer than 2 arguments prints usage; 2 or 3 is an invalid expression; otherwise a result carries the atoi values of the first and third arguments and the second's first character, and is their sum, difference or product, or the quotient truncated toward zero; division by zero and unknown operators give no result |
| Shell.CalcOfFormatted | kernel/shell.c:714-737 | `calc x op y` on the decimal renderings of x and y computes x op y |
| Shell.ShortDir | kernel/shell.c:99-103 | a cwd of more than 20 characters is shown as its last 17; a shorter one is shown whole |
| Shell.Cd | kernel/shell.c:438-454 | no argument goes to "/root" or "/home/user"; otherwise the filesystem's change of directory with a 512-byte buffer |
| Shell.Mkdir | kernel/shell.c:493-520 | creates a directory named by the absolute path plus a trailing '/' when one fits |
| Shell.Touch | kernel/shell.c:522-540 | creates an empty file at the absolute path |
| Shell.Rm | kernel/shell.c:542-560 | deletes the absolute path |
| Shell.MkdirThenCd | kernel/shell.c:438-520 | a directory made with mkdir can be entered with cd, and the new cwd is its slash-terminated name |
| Shell.MkdirHidden | kernel/shell.c:503-511 | a directory made with mkdir is never a direct child in any listing |

## Left out

- Console output: `kernel/console.c`, VGA colours, and the text the shell handlers print.
- Shell handlers that only print or ask for a password: help, banner, info, whoami, hostname, uptime, date, tree, stat, mem, history, echo, clear, pwd, su, root, exit.
- Printing in `cat` and `ls`: they print through the filesystem's read and list operations, which are modelled.
- Port I/O and the TEST_MODE host branches of the keyboard and memory code: a scancode is a parameter of `Keyboard.Poll` instead.
- `putchar`, `puts`, `printf`, `vprintf` and `fgets`: these are console I/O.
- `atof`, and the float percentages in the statistics commands: floating point.
- `exit` and `abort`: they halt the machine.
- `calloc`: it is malloc of the wrapped product followed by zeroing payload bytes, which are not modelled.
- `strdup`, `memcpy`, `memset`, `memchr`, `strcpy`, `strncat`: these are not used by the modelled paths beyond what `Memmove`, `Strncpy` and `Strcat` already state.
- Heap payload bytes: `Heap.Realloc` reports how many bytes the copy moves but does not model their contents.
- Heap.Realloc: the new pointer is claimed to differ from the old one only for a live block. When the rounded request wraps to 0 and the old block is free, malloc may hand back that same block.
- Heap.Realloc: the returned pointer is claimed to name a block in use with room for the request only for requests up to 2^32-8 and a live old pointer. A larger request rounds to 0 and may get a smaller block, and a block that is already free is handed back as it is.
- The entry field parent_index is always 0 and is dropped. `fs_get_instance` and the filesystem's own current_path are not used by the modelled code.
- `fs_create_directory_tree` is declared but has no definition.
- Stdio.Vsprintf: requires the format's conversions to match the arguments given, because a missing variadic argument is undefined.
- Stdio.Snprintf: requires the full output to fit the caller's buffer, because vsprintf writes the untruncated text first.
- Paths.Absolute: requires cwd + "/" + relative to fit the 128-byte buffer that "%s/%s" is formatted into.
- Paths.Normalize: the result is returned whole, with no output buffer. In C it is built with `strcat` into the caller's buffer, 128 bytes at every call site. A 127-character input that does not start with '/' normalises to 128 characters, and C then writes 129 bytes (fs.c:84-87), for example into `normalized_dirname` in fs_list_directory (fs.c:281). The model does not exclude that overflow; it keeps the full string.
- Paths.NormalizeIdempotent: requires the normalised path to be under 128 characters. The C output buffer is 128 bytes, but a 127-character input can normalise to 128.
- Stdlib.Atoi: excludes digit runs above INT_MAX, and so INT_MIN, because the accumulator would overflow.
- Stdlib.Abs: excludes INT_MIN, because negating it overflows.
- Shell.Calc: requires the int arithmetic not to overflow, because signed overflow is undefined.
- Shell.AddToHistory: requires the counter to stay below INT_MAX, because incrementing a signed int past it is undefined.
- Heap.Free, Heap.Realloc: a non-NULL pointer must be the payload address of a current block. Pointers that memory.c:116-120 and 138-142 reject by the magic check are not modelled, nor is a second free of a block a merge absorbed: merge_free_blocks never clears the absorbed header, so C accepts that stale pointer and adds its size to free_memory again. The block-list abstraction has no stale headers to model this with.
- FileSystem.WriteThenSize: holds for names under 128 characters, for the same reason as WriteThenRead.
- FileSystem.WriteThenRead: holds for names under 128 characters. A longer name is stored cut to 127 and is not found again under its full name.
- The filesystem's time counter and the shell's cwd, user and root flag are explicit parameters rather than globals.
- FileSystem.Boot: the six seeded files' texts are a parameter rather than the literals in `fs_init`, so the model states that each file holds the text written, not what that text is.
- A C `char` is modelled as Dafny's `char`, which is not bounded to a byte. Nothing in the model depends on its width.
- Paths and command lines are taken to contain no NUL character. No contract requires this, and C would stop reading at the first NUL.
- Stdio.WellFormed: excludes a format that ends in a lone '%'. There the C engine reads the terminator as a conversion character and then reads past it.

=== FILE: common.dfy ===
/** Small shared vocabulary: an optional value, C's "at most n" prefix, and
    the fixed-width integer bounds of the i386 target (int, long and size_t
    are all 32 bits wide there). */
module Common {

  datatype Option<+T> = None | Some(value: T)

  const INT_MIN: int := -0x8000_0000
  const INT_MAX: int := 0x7FFF_FFFF
  /** 2^32: the modulus of unsigned int and size_t arithmetic. */
  const UINT_MOD: int := 0x1_0000_0000

  predicate IsInt32(v: int) { INT_MIN <= v <= INT_MAX }

  function Min(a: int, b: int): int { if a < b then a else b }

  /** The first `n` elements of `s`, or all of `s` when it is shorter. */
  function Clip<T>(s: seq<T>, n: nat): (r: seq<T>)
    ensures |r| == Min(|s|, n)
    ensures r <= s
  {
    if |s| <= n then s else s[..n]
  }

  /** A prefix grows by one element at a time (stated on its own so that
      callers with richer contexts need not rediscover it). */
  lemma PrefixStep<T>(u: seq<T>, k: nat)
    requires k < |u|
    ensures u[..k + 1] == u[..k] + [u[k]]
  {
  }

  lemma SplitLast<T>(s: seq<T>)
    requires s != []
    ensures s == s[..|s| - 1] + [s[|s| - 1]]
  {
  }

  lemma ConsAppend<T>(a: seq<T>, b: seq<T>)
    requires a != []
    ensures (a + b)[0] == a[0] && (a + b)[1..] == a[1..] + b
  {
  }

  lemma ShiftFirst<T>(stack: seq<T>, a: seq<T>)
    requires a != []
    ensures stack + [a[0]] + a[1..] == stack + a
  {
  }

  lemma SplitAround<T>(s: seq<T>, k: nat)
    requires k < |s|
    ensures s == s[..k] + [s[k]] + s[k + 1..]
  {
  }

  /** Overwriting the element right after `a + b` extends `b` by one. */
  lemma OverwriteAt<T>(a: seq<T>, b: seq<T>, s: seq<T>, k: nat, x: T)
    requires |a| + |b| == k < |s|
    ensures (a + b + s[k..])[k := x] == a + (b + [x]) + s[k + 1..]
    ensures (a + b + s[k..])[k := x] == a + b + [x] + s[k + 1..]
  {
  }

  lemma PrefixOfSlice<T>(s: seq<T>, a: nat, n: nat, m: nat)
    requires n <= m && a + m <= |s|
    ensures s[a..a + n] == s[a..a + m][..n]
  {
  }

  lemma SliceOfPrefix<T>(s: seq<T>, n: nat, i: nat, j: nat)
    requires i <= j <= n <= |s|
    ensures s[..n][i..j] == s[i..j]
  {
  }

  function Magnitude(x: int): nat { if x < 0 then -x else x }

  /** C's `/` on int: the quotient rounded toward zero (Dafny's own `/` is
      Euclidean, so it differs for negative operands). */
  function TDiv(a: int, b: int): (q: int)
    requires b != 0
    ensures Magnitude(a - q * b) < Magnitude(b)
    ensures a - q * b == 0 || (a - q * b < 0) == (a < 0)
    ensures Magnitude(q) <= Magnitude(a)
  {
    var m := Magnitude(a) / Magnitude(b);
    var q := if (a < 0) == (b < 0) then m else -m;
    TruncatedRemainder(a, b, m, q);
    q
  }

  lemma TruncatedRemainder(a: int, b: int, m: int, q: int)
    requires b != 0 && m == Magnitude(a) / Magnitude(b)
    requires q == if (a < 0) == (b < 0) then m else -m
    ensures a - q * b == (if a < 0 then -(Magnitude(a) % Magnitude(b)) else Magnitude(a) % Magnitude(b))
    ensures Magnitude(q) <= Magnitude(a)
  {
    var A, B, r := Magnitude(a), Magnitude(b), Magnitude(a) % Magnitude(b);
    assert A == m * B + r && 0 <= r < B;
    QuotientBound(A, B, m, r);
    SignedProduct(a, b, m, q);
  }

  lemma QuotientBound(A: nat, B: nat, m: int, r: int)
    requires B > 0 && 0 <= r < B && A == m * B + r
    ensures 0 <= m <= A
  {
  }

  lemma SignedProduct(a: int, b: int, m: int, q: int)
    requires b != 0
    requires q == if (a < 0) == (b < 0) then m else -m
    ensures q * b == (if a < 0 then -(m * Magnitude(b)) else m * Magnitude(b))
  {
    if b < 0 {
      assert m * b == -(m * Magnitude(b));
    }
  }

  /** C's `%` on int: the remainder that goes with `TDiv`, carrying the sign of `a`. */
  function TRem(a: int, b: int): int
    requires b != 0
  {
    a - TDiv(a, b) * b
  }
}

=== FILE: cstring.dfy ===
/** The byte and string primitives of the kernel's libc (libc/string.c).

    A C buffer is a `seq<char>`; each `char` stands for one byte. A C string
    is a buffer that holds a NUL somewhere, and its content is everything
    before the first NUL. Functions that return a pointer into their argument
    return an index into it instead (`None` for NULL). */
module CString {
  import opened Common

  const NUL: char := '\0'

  predicate IsCString(s: seq<char>) { NUL in s }

  predicate NulFree(s: seq<char>) { NUL !in s }

  /** `strlen`: walks the buffer up to its first NUL. */
  function Strlen(s: seq<char>): (n: nat)
    requires IsCString(s)
    ensures n < |s| && s[n] == NUL
    ensures NulFree(s[..n])
  {
    if s[0] == NUL then 0
    else
      TailHoldsNul(s);
      var m := Strlen(s[1..]);
      assert s[..1 + m] == [s[0]] + s[1..][..m];
      1 + m
  }

  lemma TailHoldsNul(s: seq<char>)
    requires IsCString(s) && s[0] != NUL
    ensures IsCString(s[1..])
  {
    var k :| 0 <= k < |s| && s[k] == NUL;
    assert s[1..][k - 1] == NUL;
  }

  /** The string a buffer holds: its characters before the first NUL. */
  function Content(s: seq<char>): (t: string)
    requires IsCString(s)
    ensures NulFree(t) && t <= s
  {
    s[..Strlen(s)]
  }

  /** A NUL-free string followed by a NUL and anything at all holds exactly that string. */
  lemma {:induction false} ContentOfTerminated(t: string, rest: seq<char>)
    requires NulFree(t)
    ensures IsCString(t + [NUL] + rest)
    ensures Content(t + [NUL] + rest) == t
  {
    var s := t + [NUL] + rest;
    assert s[|t|] == NUL;
    if |t| > 0 {
      assert s[1..] == t[1..] + [NUL] + rest;
      ContentOfTerminated(t[1..], rest);
      ContentTail(s);
    }
  }

  lemma ContentTail(s: seq<char>)
    requires IsCString(s) && s[0] != NUL
    ensures IsCString(s[1..])
    ensures Content(s) == [s[0]] + Content(s[1..])
  {
    TailHoldsNul(s);
  }

  lemma ContentFirst(s: seq<char>)
    requires IsCString(s)
    ensures s[0] == NUL <==> Content(s) == []
    ensures s[0] != NUL ==> Content(s)[0] == s[0]
  {
  }

  lemma ContentEmpty(s: seq<char>)
    requires IsCString(s) && s[0] == NUL
    ensures Content(s) == []
  {
  }

  /** Lexicographic order on strings with characters compared by code, as
      C compares `unsigned char`s; a proper prefix comes first. */
  predicate LexLess(x: string, y: string)
  {
    if |x| == 0 then |y| > 0
    else if |y| == 0 then false
    else if x[0] != y[0] then x[0] < y[0]
    else LexLess(x[1..], y[1..])
  }

  /** `strcmp`: advances while both strings agree and the first has not
      ended, then returns the difference of the two bytes it stopped at. */
  function Strcmp(a: seq<char>, b: seq<char>): (r: int)
    requires IsCString(a) && IsCString(b)
    ensures r == 0 <==> Content(a) == Content(b)
    ensures r < 0 <==> LexLess(Content(a), Content(b))
    ensures r > 0 <==> LexLess(Content(b), Content(a))
  {
    if a[0] != NUL && a[0] == b[0] then
      ContentTail(a);
      ContentTail(b);
      Strcmp(a[1..], b[1..])
    else
      ContentFirst(a);
      ContentFirst(b);
      a[0] as int - b[0] as int
  }

  /** `strncmp`: like `strcmp` but looks at no more than `n` positions. */
  function Strncmp(a: seq<char>, b: seq<char>, n: nat): (r: int)
    requires IsCString(a) && IsCString(b)
    ensures r == 0 <==> Clip(Content(a), n) == Clip(Content(b), n)
    ensures r < 0 <==> LexLess(Clip(Content(a), n), Clip(Content(b), n))
    ensures r > 0 <==> LexLess(Clip(Content(b), n), Clip(Content(a), n))
  {
    if n == 0 then 0
    else if a[0] != b[0] then
      ClippedHeads(a, b, n);
      a[0] as int - b[0] as int
    else if a[0] == NUL then
      ContentEmpty(a);
      ContentEmpty(b);
      0
    else
      ClippedTails(a, b, n);
      Strncmp(a[1..], b[1..], n - 1)
  }

  /** Clipped contents whose first bytes differ are ordered by those bytes. */
  lemma ClippedHeads(a: seq<char>, b: seq<char>, n: nat)
    requires IsCString(a) && IsCString(b) && n > 0 && a[0] != b[0]
    ensures Clip(Content(a), n) != Clip(Content(b), n)
    ensures a[0] < b[0] <==> LexLess(Clip(Content(a), n), Clip(Content(b), n))
    ensures b[0] < a[0] <==> LexLess(Clip(Content(b), n), Clip(Content(a), n))
  {
    ContentFirst(a);
    ContentFirst(b);
    var x, y := Clip(Content(a), n), Clip(Content(b), n);
    assert |x| == 0 <==> a[0] == NUL;
    assert |y| == 0 <==> b[0] == NUL;
    assert |x| > 0 ==> x[0] == a[0];
    assert |y| > 0 ==> y[0] == b[0];
  }

  /** Equal first bytes drop out of the clipped comparison. */
  lemma ClippedTails(a: seq<char>, b: seq<char>, n: nat)
    requires IsCString(a) && IsCString(b) && n > 0 && a[0] == b[0] != NUL
    ensures IsCString(a[1..]) && IsCString(b[1..])
    ensures var x, y := Clip(Content(a[1..]), n - 1), Clip(Content(b[1..]), n - 1);
      && (Clip(Content(a), n) == Clip(Content(b), n) <==> x == y)
      && (LexLess(Clip(Content(a), n), Clip(Content(b), n)) <==> LexLess(x, y))
      && (LexLess(Clip(Content(b), n), Clip(Content(a), n)) <==> LexLess(y, x))
  {
    ContentTail(a);
    ContentTail(b);
    var x, y := Clip(Content(a[1..]), n - 1), Clip(Content(b[1..]), n - 1);
    ClipCons(a[0], Content(a[1..]), n);
    ClipCons(b[0], Content(b[1..]), n);
    LexLessCons(a[0], x, y);
    LexLessCons(a[0], y, x);
    assert ([a[0]] + x)[1..] == x && ([a[0]] + y)[1..] == y;
  }

  lemma LexLessCons(c: char, x: string, y: string)
    ensures LexLess([c] + x, [c] + y) == LexLess(x, y)
  {
    assert ([c] + x)[1..] == x && ([c] + y)[1..] == y;
  }

  lemma ClipCons<T>(x: T, s: seq<T>, n: nat)
    requires n > 0
    ensures Clip([x] + s, n) == [x] + Clip(s, n - 1)
  {
  }

  /** `strchr`: the first position holding `c`; searching for NUL finds the terminator. */
  function Strchr(s: seq<char>, c: char): (r: Option<nat>)
    requires IsCString(s)
    ensures c == NUL ==> r == Some(Strlen(s))
    ensures c != NUL ==> (r.Some? <==> c in Content(s))
    ensures c != NUL && r.Some? ==> r.value < Strlen(s) && s[r.value] == c && c !in s[..r.value]
  {
    if s[0] == NUL then
      if c == NUL then Some(0) else None
    else if s[0] == c then
      Some(0)
    else
      ContentTail(s);
      match Strchr(s[1..], c)
      case None => None
      case Some(k) =>
        assert s[..k + 1] == [s[0]] + s[1..][..k];
        Some(k + 1)
  }

  /** The last position of `c` in a NUL-free string: what `strrchr`
      finds, stated as a function. */
  function LastIndex(s: string, c: char): (r: Option<nat>)
    ensures r.Some? ==> r.value < |s| && s[r.value] == c && c !in s[r.value + 1..]
    ensures r.None? ==> c !in s
  {
    if s == [] then None
    else if s[|s| - 1] == c then Some(|s| - 1)
    else
      var r := LastIndex(s[..|s| - 1], c);
      assert s == s[..|s| - 1] + [s[|s| - 1]];
      if r.Some? then
        assert s[r.value + 1..] == s[..|s| - 1][r.value + 1..] + [s[|s| - 1]];
        r
      else r
  }

  /** Only the last occurrence has no `c` after it. */
  lemma LastIndexIs(s: string, c: char, k: nat)
    requires k < |s| && s[k] == c && c !in s[k + 1..]
    ensures LastIndex(s, c) == Some(k)
  {
  }

  /** `strrchr`: remembers the last position holding `c` while walking to
      the terminator; searching for NUL finds the terminator. */
  method Strrchr(s: seq<char>, c: char) returns (r: Option<nat>)
    requires IsCString(s)
    ensures c == NUL ==> r == Some(Strlen(s))
    ensures c != NUL ==> (r.Some? <==> c in Content(s))
    ensures c != NUL && r.Some? ==> r.value < Strlen(s) && s[r.value] == c && c !in s[r.value + 1..Strlen(s)]
    ensures c != NUL ==> r == LastIndex(Content(s), c)
  {
    var last: Option<nat> := None;
    var i := 0;
    while s[i] != NUL
      invariant i <= Strlen(s)
      invariant last.Some? ==> last.value < i && s[last.value] == c && c !in s[last.value + 1..i]
      invariant last.None? ==> c !in s[..i]
      decreases Strlen(s) - i
    {
      if s[i] == c {
        last := Some(i);
      }
      i := i + 1;
    }
    if c == NUL {
      return Some(i);
    }
    if last.Some? {
      assert c in Content(s) by { assert Content(s)[last.value] == c; }
      assert Content(s)[last.value + 1..] == s[last.value + 1..i];
      LastIndexIs(Content(s), c, last.value);
    } else {
      assert Content(s) == s[..i];
    }
    return last;
  }

  /** The inner comparison loop of `strstr`: does the needle's content start `h`? */
  predicate NeedleAt(h: seq<char>, nd: seq<char>)
    requires IsCString(nd)
    ensures NeedleAt(h, nd) <==> Content(nd) <= h
  {
    if nd[0] == NUL then
      ContentEmpty(nd);
      true
    else if |h| == 0 || h[0] != nd[0] then
      ContentTail(nd);
      false
    else
      ContentTail(nd);
      NeedleAt(h[1..], nd[1..])
  }

  /** `strstr`: an empty needle matches at once; otherwise the first position
      before the haystack's terminator where the needle begins. */
  function Strstr(h: seq<char>, nd: seq<char>): (r: Option<nat>)
    requires IsCString(h) && IsCString(nd)
    ensures Content(nd) == [] ==> r == Some(0)
    ensures Content(nd) != [] && r.Some? ==>
              r.value < Strlen(h) && Content(nd) <= Content(h)[r.value..]
    ensures Content(nd) != [] ==> forall k :: 0 <= k <= Strlen(h) && (r.None? || k < r.value) ==>
              !(Content(nd) <= Content(h)[k..])
  {
    if nd[0] == NUL then
      ContentEmpty(nd);
      Some(0)
    else
      ContentTail(nd);
      Scan(h, nd)
  }

  /** The outer loop of `strstr` for a non-empty needle. */
  function Scan(h: seq<char>, nd: seq<char>): (r: Option<nat>)
    requires IsCString(h) && IsCString(nd) && Content(nd) != []
    ensures r.Some? ==> r.value < Strlen(h) && Content(nd) <= Content(h)[r.value..]
    ensures forall k :: 0 <= k <= Strlen(h) && (r.None? || k < r.value) ==>
              !(Content(nd) <= Content(h)[k..])
  {
    if h[0] == NUL then
      ContentEmpty(h);
      None
    else
      ContentTail(h);
      if NeedleAt(h, nd) then
        NeedleInContent(h, Content(nd));
        Some(0)
      else
        NotAtStart(h, nd);
        var r := Scan(h[1..], nd);
        ContentShift(h);
        match r
        case None => None
        case Some(k) => Some(k + 1)
  }

  lemma NotAtStart(h: seq<char>, nd: seq<char>)
    requires IsCString(h) && IsCString(nd) && !NeedleAt(h, nd)
    ensures !(Content(nd) <= Content(h)[0..])
  {
    assert Content(h)[0..] == Content(h);
    assert Content(h) <= h;
  }

  /** The suffixes of a content from position 1 on are the suffixes of
      the tail's content. */
  lemma ContentShift(h: seq<char>)
    requires IsCString(h) && h[0] != NUL
    ensures IsCString(h[1..]) && Strlen(h) == Strlen(h[1..]) + 1
    ensures forall k :: 1 <= k <= Strlen(h) ==> Content(h)[k..] == Content(h[1..])[k - 1..]
  {
    ContentTail(h);
  }

  /** A NUL-free needle found at the start of a buffer lies inside its content. */
  lemma NeedleInContent(h: seq<char>, t: string)
    requires IsCString(h) && NulFree(t) && t <= h
    ensures t <= Content(h)
  {
  }

  /** `memmove` on one memory image: copies `n` bytes from offset `src` to
      offset `dst`, front to back when the destination is lower and back to
      front when it is higher, so overlapping ranges are handled. */
  method Memmove(mem: seq<char>, dst: nat, src: nat, n: nat) returns (m: seq<char>)
    requires dst + n <= |mem| && src + n <= |mem|
    ensures |m| == |mem|
    ensures m[dst..dst + n] == mem[src..src + n]
    ensures forall j :: 0 <= j < |mem| && !(dst <= j < dst + n) ==> m[j] == mem[j]
  {
    m := mem;
    if dst < src {
      var i := 0;
      while i < n
        invariant i <= n && |m| == |mem|
        invariant forall j :: dst <= j < dst + i ==> m[j] == mem[j - dst + src]
        invariant forall j :: 0 <= j < |mem| && !(dst <= j < dst + i) ==> m[j] == mem[j]
      {
        m := m[dst + i := m[src + i]];
        i := i + 1;
      }
    } else if dst > src {
      var i: nat := n;
      while i > 0
        invariant i <= n && |m| == |mem|
        invariant forall j :: dst + i <= j < dst + n ==> m[j] == mem[j - dst + src]
        invariant forall j :: 0 <= j < |mem| && !(dst + i <= j < dst + n) ==> m[j] == mem[j]
      {
        m := m[dst + i - 1 := m[src + i - 1]];
        i := i - 1;
      }
    }
    assert forall j :: dst <= j < dst + n ==> m[j] == mem[j - dst + src];
  }

  /** `memcmp`: -1, 0 or 1 by the first differing byte of the first `n`. */
  function Memcmp(a: seq<char>, b: seq<char>, n: nat): (r: int)
    requires n <= |a| && n <= |b|
    ensures r in {-1, 0, 1}
    ensures r == 0 <==> a[..n] == b[..n]
    ensures r < 0 <==> LexLess(a[..n], b[..n])
  {
    if n == 0 then 0
    else if a[0] < b[0] then -1
    else if a[0] > b[0] then 1
    else
      assert a[..n] == [a[0]] + a[1..][..n - 1];
      assert b[..n] == [b[0]] + b[1..][..n - 1];
      Memcmp(a[1..], b[1..], n - 1)
  }

  /** `strncpy`: copies the source up to its NUL but no more than `n` bytes,
      then pads with NUL up to `n`; nothing at or after `n` is touched. */
  method Strncpy(dest: seq<char>, src: seq<char>, n: nat) returns (d: seq<char>)
    requires n <= |dest| && IsCString(src)
    ensures |d| == |dest| && d[n..] == dest[n..]
    ensures forall i :: 0 <= i < n ==> d[i] == if i < Strlen(src) then src[i] else NUL
    ensures Strlen(src) >= n ==> NulFree(d[..n])
    ensures Strlen(src) < n ==> IsCString(d) && Content(d) == Content(src)
  {
    d := dest;
    var i := 0;
    while i < n && src[i] != NUL
      invariant i <= n && i <= Strlen(src) && |d| == |dest| && d[n..] == dest[n..]
      invariant forall k :: 0 <= k < i ==> d[k] == src[k]
    {
      d := d[i := src[i]];
      i := i + 1;
    }
    ghost var copied := i;
    while i < n
      invariant copied <= i <= n && |d| == |dest| && d[n..] == dest[n..]
      invariant forall k :: 0 <= k < copied ==> d[k] == src[k]
      invariant forall k :: copied <= k < i ==> d[k] == NUL
    {
      d := d[i := NUL];
      i := i + 1;
    }
    PaddedCopy(d, src, n);
  }

  /** What the two loops of strncpy leave behind, read as a string. */
  lemma PaddedCopy(d: seq<char>, src: seq<char>, n: nat)
    requires IsCString(src) && n <= |d|
    requires forall i :: 0 <= i < n ==> d[i] == if i < Strlen(src) then src[i] else NUL
    ensures Strlen(src) >= n ==> NulFree(d[..n])
    ensures Strlen(src) < n ==> IsCString(d) && Content(d) == Content(src)
  {
    var len := Strlen(src);
    if len >= n {
      assert forall k :: 0 <= k < n ==> d[..n][k] == src[..len][k];
    } else {
      var t := d[..len];
      assert t == src[..len];
      ContentOfTerminated(t, d[len + 1..]);
      assert d == t + [NUL] + d[len + 1..];
    }
  }

  /** `strcat`: appends the source's content after the destination's, with
      a new terminator; the caller guarantees the room. */
  method Strcat(dest: seq<char>, src: seq<char>) returns (d: seq<char>)
    requires IsCString(dest) && IsCString(src)
    requires Strlen(dest) + Strlen(src) < |dest|
    ensures |d| == |dest| && IsCString(d)
    ensures Content(d) == Content(dest) + Content(src)
    ensures d[Strlen(dest) + Strlen(src) + 1..] == dest[Strlen(dest) + Strlen(src) + 1..]
  {
    var len := Strlen(dest);
    d := dest;
    var i := 0;
    assert CopiedAt(d, dest, src, len, 0);
    while src[i] != NUL
      invariant i <= Strlen(src) && |d| == |dest|
      invariant CopiedAt(d, dest, src, len, i)
      decreases Strlen(src) - i
    {
      CopyStep(dest, src, len, i, d);
      d := d[len + i := src[i]];
      i := i + 1;
    }
    CatDone(dest, src, len, i, d);
    d := d[len + i := NUL];
  }

  /** `d` is `dest` with the first `i` characters of `src` copied over it
      from index `at` on. */
  ghost predicate CopiedAt(d: seq<char>, dest: seq<char>, src: seq<char>, at: nat, i: nat)
    requires at + i <= |dest| && i <= |src|
  {
    d == dest[..at] + src[..i] + dest[at + i..]
  }

  /** One more character of `src` copied over `dest`. */
  lemma CopyStep(dest: seq<char>, src: seq<char>, at: nat, i: nat, d: seq<char>)
    requires at + i < |dest| && i < |src| && CopiedAt(d, dest, src, at, i)
    ensures CopiedAt(d[at + i := src[i]], dest, src, at, i + 1)
  {
    OverwriteAt(dest[..at], src[..i], dest, at + i, src[i]);
    PrefixStep(src, i);
  }

  /** The terminator written after the copied content closes the string. */
  lemma CatDone(dest: seq<char>, src: seq<char>, len: nat, i: nat, d: seq<char>)
    requires IsCString(dest) && IsCString(src) && len == Strlen(dest) && i == Strlen(src)
    requires len + i < |dest| && CopiedAt(d, dest, src, len, i)
    ensures var e := d[len + i := NUL];
      && IsCString(e) && Content(e) == Content(dest) + Content(src)
      && e[len + i + 1..] == dest[len + i + 1..]
  {
    var e := d[len + i := NUL];
    var t := dest[..len] + src[..i];
    var rest := dest[len + i + 1..];
    assert e == t + [NUL] + rest by {
      OverwriteAt(dest[..len], src[..i], dest, len + i, NUL);
    }
    assert NulFree(t) by {
      assert NulFree(dest[..len]) && NulFree(src[..i]);
    }
    ContentOfTerminated(t, rest);
    assert e[len + i + 1..] == rest by {
      assert |t| == len + i;
    }
  }

  /** Whitespace as `trim` sees it. */
  predicate IsTrimSpace(c: char) { c == ' ' || c == '\t' || c == '\n' || c == '\r' }

  /** `trim`: skips leading whitespace, then backs up from the end over
      trailing whitespace; the trimmed string is `s[lo..hi]`. */
  method Trim(s: string) returns (lo: nat, hi: nat)
    requires NulFree(s)
    ensures lo <= hi <= |s|
    ensures forall k :: 0 <= k < lo ==> IsTrimSpace(s[k])
    ensures forall k :: hi <= k < |s| ==> IsTrimSpace(s[k])
    ensures lo < hi ==> !IsTrimSpace(s[lo]) && !IsTrimSpace(s[hi - 1])
  {
    lo := 0;
    while lo < |s| && IsTrimSpace(s[lo])
      invariant lo <= |s|
      invariant forall k :: 0 <= k < lo ==> IsTrimSpace(s[k])
    {
      lo := lo + 1;
    }
    if lo == |s| {
      return lo, lo;
    }
    var end := |s| - 1;
    while end > lo && IsTrimSpace(s[end])
      invariant lo <= end < |s|
      invariant forall k :: end < k < |s| ==> IsTrimSpace(s[k])
    {
      end := end - 1;
    }
    hi := end + 1;
  }

  /** Every character of `t` is outside `delims`. */
  predicate DelimFree(t: string, delims: string)
  {
    forall j :: 0 <= j < |t| ==> t[j] !in delims
  }

  /** Every character of `t` is one of `delims`. */
  predicate OnlyDelims(t: string, delims: string)
  {
    forall j :: 0 <= j < |t| ==> t[j] in delims
  }

  /** Where `strtok` starts a token: the first non-delimiter at or after `i`. */
  function SkipDelims(s: string, delims: string, i: nat): (k: nat)
    requires i <= |s|
    ensures i <= k <= |s|
    ensures OnlyDelims(s[i..k], delims)
    ensures k < |s| ==> s[k] !in delims
    decreases |s| - i
  {
    if i == |s| || s[i] !in delims then i else SkipDelims(s, delims, i + 1)
  }

  /** Where `strtok` ends a token: the first delimiter at or after `i`. */
  function TokenEnd(s: string, delims: string, i: nat): (k: nat)
    requires i <= |s|
    ensures i <= k <= |s|
    ensures DelimFree(s[i..k], delims)
    ensures k < |s| ==> s[k] in delims
    decreases |s| - i
  {
    if i == |s| || s[i] in delims then i else TokenEnd(s, delims, i + 1)
  }

  /** The tokens that successive `strtok` calls return on the string `s`:
      skip delimiters, take the run up to the next delimiter, overwrite that
      one delimiter and resume after it. */
  function Tokens(s: string, delims: string): (ts: seq<string>)
    ensures forall k :: 0 <= k < |ts| ==> |ts[k]| > 0 && DelimFree(ts[k], delims)
    decreases |s|
  {
    var i := SkipDelims(s, delims, 0);
    if i == |s| then []
    else
      var j := TokenEnd(s, delims, i);
      [s[i..j]] + (if j == |s| then [] else Tokens(s[j + 1..], delims))
  }

  /** `split_string`: the first `maxTokens` tokens at most. */
  function SplitString(s: string, delims: string, maxTokens: int): (ts: seq<string>)
    ensures |ts| == Min(|Tokens(s, delims)|, if maxTokens < 0 then 0 else maxTokens)
    ensures ts <= Tokens(s, delims)
    ensures maxTokens >= |Tokens(s, delims)| ==> ts == Tokens(s, delims)
  {
    Clip(Tokens(s, delims), if maxTokens < 0 then 0 else maxTokens)
  }

  // ---------------------------------------------------------------------
  // An independent description of tokenisation: cut the string at every
  // delimiter, then throw away the empty fields.

  /** The fields between delimiters, empty ones included. */
  function Fields(s: string, delims: string): (fs: seq<string>)
    ensures |fs| > 0
  {
    if |s| == 0 then [[]]
    else
      var rest := Fields(s[1..], delims);
      if s[0] in delims then [[]] + rest
      else [[s[0]] + rest[0]] + rest[1..]
  }

  function NonEmpty(xs: seq<string>): (ys: seq<string>)
  {
    if |xs| == 0 then []
    else if |xs[0]| == 0 then NonEmpty(xs[1..])
    else [xs[0]] + NonEmpty(xs[1..])
  }

  lemma NonEmptyAppend(xs: seq<string>, ys: seq<string>)
    ensures NonEmpty(xs + ys) == NonEmpty(xs) + NonEmpty(ys)
  {
    if |xs| > 0 {
      assert (xs + ys)[0] == xs[0];
      assert (xs + ys)[1..] == xs[1..] + ys;
      NonEmptyAppend(xs[1..], ys);
    } else {
      assert xs + ys == ys;
    }
  }

  /** A leading delimiter only opens an empty field. */
  lemma {:induction false} FieldsOfLeadingRun(s: string, delims: string, i: nat)
    requires i <= |s| && forall j :: 0 <= j < i ==> s[j] in delims
    ensures NonEmpty(Fields(s, delims)) == NonEmpty(Fields(s[i..], delims))
  {
    if i > 0 {
      assert NonEmpty(Fields(s, delims)) == NonEmpty(Fields(s[1..], delims));
      FieldsOfLeadingRun(s[1..], delims, i - 1);
      assert s[1..][i - 1..] == s[i..];
    }
  }

  /** A delimiter-free run in front of `t` joins the first field of `t`. */
  lemma {:induction false} FieldsOfRun(run: string, t: string, delims: string)
    requires DelimFree(run, delims)
    ensures var fs := Fields(t, delims);
            Fields(run + t, delims) == [run + fs[0]] + fs[1..]
    decreases |run|
  {
    var fs := Fields(t, delims);
    if run == [] {
      assert run + t == t && run + fs[0] == fs[0];
    } else {
      var rest := Fields(run[1..] + t, delims);
      assert rest == [run[1..] + fs[0]] + fs[1..] by {
        assert DelimFree(run[1..], delims) by {
          assert forall k :: 0 <= k < |run| - 1 ==> run[1..][k] == run[k + 1];
        }
        FieldsOfRun(run[1..], t, delims);
      }
      assert Fields(run + t, delims) == [[run[0]] + rest[0]] + rest[1..] by {
        ConsAppend(run, t);
        assert run[0] !in delims;
      }
      assert [run[0]] + (run[1..] + fs[0]) == run + fs[0];
    }
  }

  /** `strtok`'s tokens are exactly the non-empty fields. */
  lemma {:induction false} TokensAreNonEmptyFields(s: string, delims: string)
    ensures Tokens(s, delims) == NonEmpty(Fields(s, delims))
    decreases |s|
  {
    var i := SkipDelims(s, delims, 0);
    assert NonEmpty(Fields(s, delims)) == NonEmpty(Fields(s[i..], delims)) by {
      FieldsOfLeadingRun(s, delims, i);
    }
    if i == |s| {
      assert s[i..] == [];
      assert NonEmpty([[]]) == [];
    } else {
      var j := TokenEnd(s, delims, i);
      var tok := s[i..j];
      var rest := if j == |s| then [] else Fields(s[j + 1..], delims);
      var later := if j == |s| then [] else Tokens(s[j + 1..], delims);
      assert Tokens(s, delims) == [tok] + later by {
        TokensStep(s, delims, i, j);
      }
      assert NonEmpty(rest) == later by {
        if j < |s| {
          TokensAreNonEmptyFields(s[j + 1..], delims);
        }
      }
      assert NonEmpty(Fields(s[i..], delims)) == [tok] + NonEmpty(rest) by {
        FieldsAfterToken(s, delims, i, j);
        NonEmptyCons(tok, rest);
      }
    }
  }

  /** One `strtok` call: the first token, then the tokens after the
      delimiter that ends it. */
  lemma TokensStep(s: string, delims: string, i: nat, j: nat)
    requires i == SkipDelims(s, delims, 0) < |s| && j == TokenEnd(s, delims, i)
    ensures Tokens(s, delims) == [s[i..j]] + (if j == |s| then [] else Tokens(s[j + 1..], delims))
  {
  }

  /** The fields from the start of a token on: the token itself, then the
      fields after the delimiter that ends it (none at the end of `s`). */
  lemma FieldsAfterToken(s: string, delims: string, i: nat, j: nat)
    requires i <= j <= |s| && DelimFree(s[i..j], delims)
    requires j < |s| ==> s[j] in delims
    ensures Fields(s[i..], delims) == [s[i..j]] + (if j == |s| then [] else Fields(s[j + 1..], delims))
  {
    assert s[i..] == s[i..j] + s[j..];
    FieldsOfRun(s[i..j], s[j..], delims);
    var fs := Fields(s[j..], delims);
    if j == |s| {
      assert s[j..] == [];
      assert s[i..j] + [] == s[i..j];
    } else {
      assert s[j..][1..] == s[j + 1..];
      assert fs == [[]] + Fields(s[j + 1..], delims);
      assert s[i..j] + fs[0] == s[i..j];
    }
  }

  lemma NonEmptyCons(x: string, rest: seq<string>)
    requires x != []
    ensures NonEmpty([x] + rest) == [x] + NonEmpty(rest)
  {
    assert ([x] + rest)[1..] == rest;
  }
}

=== FILE: filesystem.dfy ===
/** The in-memory filesystem: a table of at most 256 entries, each keyed by
    its full path string, and one 4 MiB byte arena that file contents are
    appended to.  The state is an immutable record and every operation a
    function returning the new state with the C return code. */
module FileSystem {
  import opened Common
  import opened Paths

  const MAX_FILES: nat := 256
  const MAX_FILE_SIZE: nat := 16384
  /** FS_TOTAL_DATA_SIZE = MAX_FILES * MAX_FILE_SIZE. */
  const TOTAL_DATA_SIZE: nat := 4194304
  /** 0755 in octal. */
  const DEFAULT_PERMISSIONS: nat := 0x1ED
  const ZERO: char := 0 as char

  /** One table row; the C record's parent_index is always 0 and is dropped. */
  datatype Entry = Entry(
    name: string,
    size: nat,
    offset: nat,
    isDirectory: bool,
    created: nat,
    modified: nat,
    permissions: nat)

  /** The table, the arena, the arena cursor data_used and the counter
      behind get_time. */
  datatype FileSystem = FileSystem(entries: seq<Entry>, data: seq<char>, dataUsed: nat, clock: nat)

  /** A new state together with the C function's return value. */
  datatype Outcome = Outcome(fs: FileSystem, code: int)

  /** Bounds every operation keeps: the table and arena sizes, and every
      file's bytes lying inside the arena at or below the cursor's start. */
  predicate Valid(fs: FileSystem)
  {
    && |fs.entries| <= MAX_FILES
    && |fs.data| == TOTAL_DATA_SIZE
    && fs.dataUsed <= TOTAL_DATA_SIZE
    && fs.clock < UINT_MOD
    && forall i :: 0 <= i < |fs.entries| ==> EntryFits(fs.entries[i], fs.dataUsed)
  }

  predicate EntryFits(e: Entry, dataUsed: nat)
  {
    && |e.name| < MAX_NAME
    && e.size <= MAX_FILE_SIZE
    && e.offset <= dataUsed
    && e.offset + e.size <= TOTAL_DATA_SIZE
  }

  /** No two entries share a name. */
  predicate Unique(entries: seq<Entry>)
  {
    forall i, j :: 0 <= i < j < |entries| ==> entries[i].name != entries[j].name
  }

  /** `get_time`: the uint32 counter, incremented before it is read. */
  function Tick(clock: nat): (t: nat)
    ensures t < UINT_MOD
  {
    (clock + 1) % UINT_MOD
  }

  /** The loop every lookup shares: the first entry whose stored name
      equals `name` (the whole of `name`, not a 127-character prefix). */
  function Find(entries: seq<Entry>, name: string): (r: Option<nat>)
    ensures r.Some? ==> r.value < |entries| && entries[r.value].name == name
    ensures r.Some? ==> forall j :: 0 <= j < r.value ==> entries[j].name != name
    ensures r.None? ==> forall j :: 0 <= j < |entries| ==> entries[j].name != name
  {
    if entries == [] then None
    else if entries[0].name == name then Some(0)
    else match Find(entries[1..], name)
      case None => None
      case Some(k) => Some(k + 1)
  }

  /** In a table without duplicates, the entry holding a name is the one found. */
  lemma FindUnique(entries: seq<Entry>, j: nat)
    requires Unique(entries) && j < |entries|
    ensures Find(entries, entries[j].name) == Some(j)
  {
  }

  /** The bytes of a file. */
  function Content(fs: FileSystem, e: Entry): seq<char>
    requires |fs.data| == TOTAL_DATA_SIZE && e.offset + e.size <= TOTAL_DATA_SIZE
  {
    fs.data[e.offset..e.offset + e.size]
  }

  /** Every arena byte outside the `n` bytes from `offset` is as it was. */
  predicate Untouched(data: seq<char>, data': seq<char>, offset: nat, n: nat)
  {
    |data'| == |data|
    && forall k :: 0 <= k < |data| && !(offset <= k < offset + n) ==> data'[k] == data[k]
  }

  /** `memcpy` of `b` into the arena at `offset`. */
  function Splice(data: seq<char>, offset: nat, b: seq<char>): (r: seq<char>)
    requires offset + |b| <= |data|
    ensures |r| == |data| && r[offset..offset + |b|] == b
    ensures forall k :: 0 <= k < |data| && !(offset <= k < offset + |b|) ==> r[k] == data[k]
  {
    data[..offset] + b + data[offset + |b|..]
  }

  // ---------------------------------------------------------------------
  // Creating, writing, reading, deleting
  // ---------------------------------------------------------------------

  /** `fs_create_file`: -1 when the table is full (checked first), -2 when
      the name is taken, otherwise a new empty entry at the end of the table
      whose offset is the current cursor, without reserving any space. */
  function Create(fs: FileSystem, name: string, isDirectory: bool): (r: Outcome)
    requires Valid(fs)
    ensures Valid(r.fs)
    ensures |fs.entries| >= MAX_FILES ==> r == Outcome(fs, -1)
    ensures |fs.entries| < MAX_FILES && Find(fs.entries, name).Some? ==> r == Outcome(fs, -2)
    ensures |fs.entries| < MAX_FILES && Find(fs.entries, name).None? ==>
      && r.code == 0
      && |r.fs.entries| == |fs.entries| + 1 && r.fs.entries[..|fs.entries|] == fs.entries
      && r.fs.data == fs.data && r.fs.dataUsed == fs.dataUsed && r.fs.clock == Tick(fs.clock)
      && var e := r.fs.entries[|fs.entries|];
         && e.name == Clip(name, MAX_NAME - 1) && e.size == 0 && e.offset == fs.dataUsed
         && e.isDirectory == isDirectory && e.permissions == DEFAULT_PERMISSIONS
         && e.created == e.modified == Tick(fs.clock)
    ensures r.code in {0, -1, -2}
  {
    if |fs.entries| >= MAX_FILES then Outcome(fs, -1)
    else if Find(fs.entries, name).Some? then Outcome(fs, -2)
    else
      var t := Tick(fs.clock);
      var e := Entry(Clip(name, MAX_NAME - 1), 0, fs.dataUsed, isDirectory, t, t, DEFAULT_PERMISSIONS);
      Outcome(fs.(entries := fs.entries + [e], clock := t), 0)
  }

  /** `fs_write_file`: -1 for more than MAX_FILE_SIZE bytes, -2 when the
      cursor plus the size would pass the end of the arena (even for an
      overwrite), -3 for a directory; each leaves the state as it was.  An
      existing file is overwritten in place at its old offset and the cursor
      does not move; a new file is created (-4 if that fails) and its bytes
      appended at the cursor, which advances by the size. */
  function Write(fs: FileSystem, name: string, b: seq<char>): (r: Outcome)
    requires Valid(fs)
    ensures Valid(r.fs)
    ensures r.code != 0 ==> r.fs == fs
    ensures |b| > MAX_FILE_SIZE ==> r.code == -1
    ensures |b| <= MAX_FILE_SIZE && fs.dataUsed + |b| > TOTAL_DATA_SIZE ==> r.code == -2
    ensures |b| <= MAX_FILE_SIZE && fs.dataUsed + |b| <= TOTAL_DATA_SIZE ==> match Find(fs.entries, name)
      case Some(i) =>
        && (fs.entries[i].isDirectory ==> r.code == -3)
        && (!fs.entries[i].isDirectory ==>
              && r.code == 0 && r.fs.dataUsed == fs.dataUsed
              && |r.fs.entries| == |fs.entries|
              && r.fs.entries[i] == fs.entries[i].(size := |b|, modified := Tick(fs.clock))
              && Content(r.fs, r.fs.entries[i]) == b
              && (forall j :: 0 <= j < |fs.entries| && j != i ==> r.fs.entries[j] == fs.entries[j])
              && Untouched(fs.data, r.fs.data, fs.entries[i].offset, |b|))
      case None =>
        && (|fs.entries| >= MAX_FILES ==> r.code == -4)
        && (|fs.entries| < MAX_FILES ==>
              && r.code == 0 && r.fs.dataUsed == fs.dataUsed + |b|
              && |r.fs.entries| == |fs.entries| + 1 && r.fs.entries[..|fs.entries|] == fs.entries
              && r.fs.data[..fs.dataUsed] == fs.data[..fs.dataUsed]
              && Untouched(fs.data, r.fs.data, fs.dataUsed, |b|)
              && var e := r.fs.entries[|fs.entries|];
                 e.name == Clip(name, MAX_NAME - 1) && e.offset == fs.dataUsed && !e.isDirectory
                 && Content(r.fs, e) == b)
  {
    if |b| > MAX_FILE_SIZE then Outcome(fs, -1)
    else if fs.dataUsed + |b| > TOTAL_DATA_SIZE then Outcome(fs, -2)
    else match Find(fs.entries, name)
      case Some(i) =>
        if fs.entries[i].isDirectory then Outcome(fs, -3)
        else Overwrite(fs, i, b)
      case None =>
        var c := Create(fs, name, false);
        if c.code != 0 then Outcome(fs, -4)
        else Append(c.fs, b)
  }

  /** The overwrite branch of `fs_write_file`. */
  function Overwrite(fs: FileSystem, i: nat, b: seq<char>): (r: Outcome)
    requires Valid(fs) && i < |fs.entries| && fs.dataUsed + |b| <= TOTAL_DATA_SIZE && |b| <= MAX_FILE_SIZE
    ensures Valid(r.fs) && r.code == 0 && r.fs.dataUsed == fs.dataUsed
    ensures |r.fs.entries| == |fs.entries|
    ensures r.fs.entries[i] == fs.entries[i].(size := |b|, modified := Tick(fs.clock))
    ensures Content(r.fs, r.fs.entries[i]) == b
    ensures forall j :: 0 <= j < |fs.entries| && j != i ==> r.fs.entries[j] == fs.entries[j]
    ensures Untouched(fs.data, r.fs.data, fs.entries[i].offset, |b|)
  {
    var t := Tick(fs.clock);
    var e := fs.entries[i].(size := |b|, modified := t);
    Outcome(FileSystem(fs.entries[i := e], Splice(fs.data, e.offset, b), fs.dataUsed, t), 0)
  }

  /** The new-file branch of `fs_write_file`, after the entry was created
      as the last row. */
  function Append(fs: FileSystem, b: seq<char>): (r: Outcome)
    requires |fs.entries| >= 1 && |fs.entries| <= MAX_FILES && |fs.data| == TOTAL_DATA_SIZE
    requires fs.dataUsed + |b| <= TOTAL_DATA_SIZE && |b| <= MAX_FILE_SIZE && fs.clock < UINT_MOD
    requires forall i :: 0 <= i < |fs.entries| - 1 ==> EntryFits(fs.entries[i], fs.dataUsed)
    requires |fs.entries[|fs.entries| - 1].name| < MAX_NAME
    ensures Valid(r.fs) && r.code == 0 && r.fs.dataUsed == fs.dataUsed + |b|
    ensures |r.fs.entries| == |fs.entries|
    ensures r.fs.entries[..|fs.entries| - 1] == fs.entries[..|fs.entries| - 1]
    ensures var e := r.fs.entries[|fs.entries| - 1];
      && e == fs.entries[|fs.entries| - 1].(size := |b|, offset := fs.dataUsed, modified := Tick(fs.clock))
      && Content(r.fs, e) == b
    ensures r.fs.data[..fs.dataUsed] == fs.data[..fs.dataUsed]
    ensures Untouched(fs.data, r.fs.data, fs.dataUsed, |b|)
  {
    var last := |fs.entries| - 1;
    var t := Tick(fs.clock);
    var e := fs.entries[last].(size := |b|, offset := fs.dataUsed, modified := t);
    var es := fs.entries[last := e];
    assert forall i :: 0 <= i < |es| ==> EntryFits(es[i], fs.dataUsed + |b|) by {
      forall i | 0 <= i < |es| ensures EntryFits(es[i], fs.dataUsed + |b|) {
        if i < last { assert EntryFits(fs.entries[i], fs.dataUsed); }
      }
    }
    Outcome(FileSystem(fs.entries[last := e], Splice(fs.data, fs.dataUsed, b), fs.dataUsed + |b|, t), 0)
  }

  datatype ReadResult = ReadResult(code: int, bytes: seq<char>)

  /** `fs_read_file`: -2 for a missing name, -1 for a directory, otherwise
      the first min(size, bufferSize) bytes of the file and their count. */
  function Read(fs: FileSystem, name: string, bufferSize: nat): (r: ReadResult)
    requires Valid(fs)
    ensures Find(fs.entries, name).None? ==> r == ReadResult(-2, [])
    ensures Find(fs.entries, name).Some? && fs.entries[Find(fs.entries, name).value].isDirectory ==> r == ReadResult(-1, [])
    ensures r.code >= 0 ==> r.code == |r.bytes| <= bufferSize
    ensures Find(fs.entries, name).Some? && !fs.entries[Find(fs.entries, name).value].isDirectory ==>
      var e := fs.entries[Find(fs.entries, name).value];
      r.code == Min(e.size, bufferSize) && r.bytes == Content(fs, e)[..r.code]
  {
    match Find(fs.entries, name)
    case None => ReadResult(-2, [])
    case Some(i) =>
      var e := fs.entries[i];
      if e.isDirectory then ReadResult(-1, [])
      else
        var n := Min(e.size, bufferSize);
        PrefixOfSlice(fs.data, e.offset, n, e.size);
        ReadResult(n, fs.data[e.offset..e.offset + n])
  }

  /** `fs_delete_file`: -1 for a missing name, -2 for "/", otherwise the
      last row moves into the freed slot; the arena and its cursor are left
      alone. */
  function Delete(fs: FileSystem, name: string): (r: Outcome)
    requires Valid(fs)
    ensures Valid(r.fs) && r.fs.data == fs.data && r.fs.dataUsed == fs.dataUsed && r.fs.clock == fs.clock
    ensures Find(fs.entries, name).None? ==> r == Outcome(fs, -1)
    ensures Find(fs.entries, name).Some? && name == ROOT ==> r == Outcome(fs, -2)
    ensures Find(fs.entries, name).Some? && name != ROOT ==>
      var i := Find(fs.entries, name).value;
      var last := |fs.entries| - 1;
      && r.code == 0 && |r.fs.entries| == last
      && (i < last ==> r.fs.entries[i] == fs.entries[last])
      && forall j :: 0 <= j < last && j != i ==> r.fs.entries[j] == fs.entries[j]
  {
    match Find(fs.entries, name)
    case None => Outcome(fs, -1)
    case Some(i) =>
      if name == ROOT then Outcome(fs, -2)
      else
        var last := |fs.entries| - 1;
        var moved := if i < last then fs.entries[i := fs.entries[last]] else fs.entries;
        Outcome(fs.(entries := moved[..last]), 0)
  }

  /** `fs_file_exists`. */
  predicate Exists(fs: FileSystem, name: string)
  {
    Find(fs.entries, name).Some?
  }

  /** `fs_file_size`: 0 for a missing name. */
  function FileSize(fs: FileSystem, name: string): (n: nat)
    ensures Find(fs.entries, name).None? ==> n == 0
    ensures Find(fs.entries, name).Some? ==> n == fs.entries[Find(fs.entries, name).value].size
  {
    match Find(fs.entries, name)
    case None => 0
    case Some(i) => fs.entries[i].size
  }

  datatype Stats = Stats(files: nat, used: nat, free: nat)

  /** `fs_get_stats`: entry count, arena bytes handed out, and the rest. */
  function GetStats(fs: FileSystem): (s: Stats)
    requires Valid(fs)
    ensures s.files <= MAX_FILES && s.used + s.free == TOTAL_DATA_SIZE
    ensures s.files == |fs.entries| && s.used == fs.dataUsed
  {
    Stats(|fs.entries|, fs.dataUsed, TOTAL_DATA_SIZE - fs.dataUsed)
  }

  /** `fs_get_file_type_string`. */
  function TypeString(fs: FileSystem, name: string): (s: string)
    ensures s == "unknown" <==> !Exists(fs, name)
    ensures s == "directory" <==> Exists(fs, name) && fs.entries[Find(fs.entries, name).value].isDirectory
    ensures s == "file" <==> Exists(fs, name) && !fs.entries[Find(fs.entries, name).value].isDirectory
  {
    match Find(fs.entries, name)
    case None => "unknown"
    case Some(i) => if fs.entries[i].isDirectory then "directory" else "file"
  }

  // ---------------------------------------------------------------------
  // Permission strings
  // ---------------------------------------------------------------------

  /** Bit `k` of `p`, bit 0 the least significant. */
  function Bit(p: nat, k: nat): (b: bool)
  {
    if k == 0 then p % 2 == 1 else Bit(p / 2, k - 1)
  }

  /** The character for permission bit `k`. */
  function Flag(p: nat, k: nat, c: char): char
  {
    if Bit(p, k) then c else '-'
  }

  /** The nine characters `fs_get_permissions_string` formats: the type,
      then the bits 0400 down to 0002.  Bit 0001 has no character. */
  function PermissionText(isDirectory: bool, p: nat): (s: string)
    ensures |s| == 9 && (s[0] == 'd' <==> isDirectory)
    ensures forall k :: 1 <= k <= 8 ==> (s[9 - k] != '-' <==> Bit(p, k))
    ensures forall k :: 1 <= k <= 8 ==> s[9 - k] == (if Bit(p, k) then "xwr"[k % 3] else '-')
  {
    [if isDirectory then 'd' else '-',
     Flag(p, 8, 'r'), Flag(p, 7, 'w'), Flag(p, 6, 'x'),
     Flag(p, 5, 'r'), Flag(p, 4, 'w'), Flag(p, 3, 'x'),
     Flag(p, 2, 'r'), Flag(p, 1, 'w')]
  }

  /** `fs_get_permissions_string` for a caller buffer of `size` bytes:
      "---------" for a missing name.  Both paths write ten bytes, so the
      buffer must hold at least that many. */
  function PermissionString(fs: FileSystem, name: string, size: nat): (s: string)
    requires size >= 10
    ensures !Exists(fs, name) ==> s == "---------"
    ensures Exists(fs, name) ==> var e := fs.entries[Find(fs.entries, name).value];
      s == Clip(PermissionText(e.isDirectory, e.permissions), size - 1)
  {
    match Find(fs.entries, name)
    case None => "---------"
    case Some(i) => Clip(PermissionText(fs.entries[i].isDirectory, fs.entries[i].permissions), size - 1)
  }

  /** The other-execute bit never shows: permissions that differ only in
      bit 0001 render the same. */
  lemma OtherExecuteHidden(isDirectory: bool, p: nat)
    requires p % 2 == 0
    ensures PermissionText(isDirectory, p + 1) == PermissionText(isDirectory, p)
  {
    assert (p + 1) / 2 == p / 2;
    forall k | 1 <= k <= 8 ensures Bit(p + 1, k) == Bit(p, k) {
      assert Bit(p + 1, k) == Bit((p + 1) / 2, k - 1);
    }
  }

  /** Every new entry gets 0755, which shows as "rwxr-xr-". */
  lemma DefaultPermissionText()
    ensures PermissionText(true, DEFAULT_PERMISSIONS) == "drwxr-xr-"
    ensures PermissionText(false, DEFAULT_PERMISSIONS) == "-rwxr-xr-"
  {
  }

  // ---------------------------------------------------------------------
  // Listing a directory
  // ---------------------------------------------------------------------

  /** The prefix children must carry: the normalised name with a slash
      added when there is room for it. */
  function DirectoryPrefix(dirname: string): (prefix: string)
    ensures |prefix| >= 1 && prefix[0] == '/'
  {
    var n := Normalize(dirname);
    if n[|n| - 1] != '/' && |n| < MAX_NAME - 1 then n + SEPARATOR else n
  }

  /** A direct child: starts with the prefix, is not the prefix itself, and
      what remains is non-empty and holds no slash. */
  predicate IsChild(e: Entry, prefix: string)
  {
    && e.name != prefix
    && prefix <= e.name
    && |e.name| > |prefix|
    && '/' !in e.name[|prefix|..]
  }

  /** The line a child contributes, before its newline. */
  function Line(e: Entry, prefix: string): string
    requires prefix <= e.name
  {
    e.name[|prefix|..] + (if e.isDirectory then SEPARATOR else [])
  }

  /** Reference: every direct child, in table order. */
  function Children(entries: seq<Entry>, prefix: string): (cs: seq<Entry>)
    ensures forall k :: 0 <= k < |cs| ==> IsChild(cs[k], prefix)
  {
    if entries == [] then []
    else if IsChild(entries[0], prefix) then [entries[0]] + Children(entries[1..], prefix)
    else Children(entries[1..], prefix)
  }

  /** The children the loop copies with `room` bytes of buffer left: it
      stops at the first child whose name plus two bytes does not fit. */
  function Listed(entries: seq<Entry>, prefix: string, room: int): (ls: seq<Entry>)
    ensures ls <= Children(entries, prefix)
    ensures room >= 0 ==> Cost(ls, prefix) <= room
    ensures EachPassed(ls, prefix, room)
    ensures |ls| < |Children(entries, prefix)| ==> !Passes(Children(entries, prefix)[|ls|], prefix, room - Cost(ls, prefix))
  {
    if entries == [] then []
    else
      var e := entries[0];
      ChildrenUnfold(entries, prefix);
      if !IsChild(e, prefix) then Listed(entries[1..], prefix, room)
      else if !Passes(e, prefix, room) then []
      else
        var rest := Listed(entries[1..], prefix, room - (|Line(e, prefix)| + 1));
        ListedCons(entries, prefix, room, rest);
        [e] + rest
  }

  /** One step of Children on a non-empty table. */
  lemma {:induction false} ChildrenUnfold(entries: seq<Entry>, prefix: string)
    requires entries != []
    ensures !IsChild(entries[0], prefix) ==> Children(entries, prefix) == Children(entries[1..], prefix)
    ensures IsChild(entries[0], prefix) ==> Children(entries, prefix) == [entries[0]] + Children(entries[1..], prefix)
  {
  }

  /** The loop's check: the child's name past the prefix, plus two bytes,
      fits in the `room` left. */
  predicate Passes(e: Entry, prefix: string, room: int)
  {
    |e.name| - |prefix| + 2 <= room
  }

  /** Each child passed the check in the room its predecessors left. */
  predicate EachPassed(ls: seq<Entry>, prefix: string, room: int)
    requires forall k :: 0 <= k < |ls| ==> IsChild(ls[k], prefix)
  {
    forall k :: 0 <= k < |ls| ==> Passes(ls[k], prefix, room - Cost(ls[..k], prefix))
  }

  /** The step of Listed that keeps a child: its contract for the rest
      extends to the child followed by the rest. */
  lemma {:induction false} ListedCons(entries: seq<Entry>, prefix: string, room: int, rest: seq<Entry>)
    requires entries != [] && IsChild(entries[0], prefix) && Passes(entries[0], prefix, room)
    requires rest <= Children(entries[1..], prefix)
    requires EachPassed(rest, prefix, room - (|Line(entries[0], prefix)| + 1))
    requires room - (|Line(entries[0], prefix)| + 1) >= 0 ==> Cost(rest, prefix) <= room - (|Line(entries[0], prefix)| + 1)
    requires |rest| < |Children(entries[1..], prefix)| ==>
      !Passes(Children(entries[1..], prefix)[|rest|], prefix, room - (|Line(entries[0], prefix)| + 1) - Cost(rest, prefix))
    ensures [entries[0]] + rest <= Children(entries, prefix)
    ensures room >= 0 ==> Cost([entries[0]] + rest, prefix) <= room
    ensures EachPassed([entries[0]] + rest, prefix, room)
    ensures |[entries[0]] + rest| < |Children(entries, prefix)| ==>
      !Passes(Children(entries, prefix)[|[entries[0]] + rest|], prefix, room - Cost([entries[0]] + rest, prefix))
  {
    var e := entries[0];
    var cs := Children(entries[1..], prefix);
    assert Children(entries, prefix) == [e] + cs;
    ConsCost(e, rest, prefix);
    EachPassedCons(e, rest, prefix, room);
    ConsStops(e, cs, rest, prefix, room);
  }

  /** Keeping a child keeps the prefix relation, and the first child not
      listed is the same one, checked in the same room. */
  lemma {:induction false} ConsStops(e: Entry, cs: seq<Entry>, rest: seq<Entry>, prefix: string, room: int)
    requires IsChild(e, prefix) && forall k :: 0 <= k < |cs| ==> IsChild(cs[k], prefix)
    requires rest <= cs
    requires |rest| < |cs| ==> !Passes(cs[|rest|], prefix, room - (|Line(e, prefix)| + 1) - Cost(rest, prefix))
    ensures [e] + rest <= [e] + cs
    ensures |[e] + rest| < |[e] + cs| ==> !Passes(([e] + cs)[|[e] + rest|], prefix, room - Cost([e] + rest, prefix))
  {
    ConsCost(e, rest, prefix);
    if |rest| < |cs| {
      assert ([e] + cs)[|[e] + rest|] == cs[|rest|];
    }
  }

  lemma {:induction false} ConsCost(e: Entry, rest: seq<Entry>, prefix: string)
    requires IsChild(e, prefix) && forall k :: 0 <= k < |rest| ==> IsChild(rest[k], prefix)
    ensures Cost([e] + rest, prefix) == |Line(e, prefix)| + 1 + Cost(rest, prefix)
  {
    assert ([e] + rest)[1..] == rest;
  }

  /** A child that passed the check, followed by children that each passed
      it in the room left after it, all passed it in turn. */
  lemma {:induction false} EachPassedCons(e: Entry, rest: seq<Entry>, prefix: string, room: int)
    requires IsChild(e, prefix) && forall k :: 0 <= k < |rest| ==> IsChild(rest[k], prefix)
    requires Passes(e, prefix, room) && EachPassed(rest, prefix, room - (|Line(e, prefix)| + 1))
    ensures EachPassed([e] + rest, prefix, room)
  {
    var xs := [e] + rest;
    forall k | 0 <= k < |xs| ensures Passes(xs[k], prefix, room - Cost(xs[..k], prefix)) {
      if k > 0 {
        assert xs[..k] == [e] + rest[..k - 1];
        ConsCost(e, rest[..k - 1], prefix);
        assert xs[k] == rest[k - 1];
      }
    }
  }

  /** Bytes the lines take, one newline each. */
  function Cost(ls: seq<Entry>, prefix: string): nat
    requires forall k :: 0 <= k < |ls| ==> IsChild(ls[k], prefix)
  {
    if ls == [] then 0
    else
      assert IsChild(ls[0], prefix);
      |Line(ls[0], prefix)| + 1 + Cost(ls[1..], prefix)
  }

  /** The worst case the loop budgets for: name plus two bytes a child. */
  function Budget(ls: seq<Entry>, prefix: string): nat
    requires forall k :: 0 <= k < |ls| ==> IsChild(ls[k], prefix)
  {
    if ls == [] then 0
    else
      assert IsChild(ls[0], prefix);
      |ls[0].name| - |prefix| + 2 + Budget(ls[1..], prefix)
  }

  /** When the buffer can hold every child at two bytes over its name, all
      of them are listed. */
  lemma {:induction false} ListedAll(entries: seq<Entry>, prefix: string, room: int)
    requires Budget(Children(entries, prefix), prefix) <= room
    ensures Listed(entries, prefix, room) == Children(entries, prefix)
    decreases |entries|
  {
    if entries != [] {
      var e := entries[0];
      ListedUnfold(entries, prefix, room);
      if IsChild(e, prefix) {
        var cs := Children(entries, prefix);
        assert cs[1..] == Children(entries[1..], prefix);
        ListedAll(entries[1..], prefix, room - (|Line(e, prefix)| + 1));
      } else {
        ListedAll(entries[1..], prefix, room);
      }
    }
  }

  /** One step of Listed and Children on a non-empty table. */
  lemma {:induction false} ListedUnfold(entries: seq<Entry>, prefix: string, room: int)
    requires entries != []
    ensures !IsChild(entries[0], prefix) ==>
      && Listed(entries, prefix, room) == Listed(entries[1..], prefix, room)
      && Children(entries, prefix) == Children(entries[1..], prefix)
    ensures IsChild(entries[0], prefix) ==>
      && Children(entries, prefix) == [entries[0]] + Children(entries[1..], prefix)
      && Budget(Children(entries, prefix), prefix) == |entries[0].name| - |prefix| + 2 + Budget(Children(entries[1..], prefix), prefix)
    ensures IsChild(entries[0], prefix) && Passes(entries[0], prefix, room) ==>
      Listed(entries, prefix, room) == [entries[0]] + Listed(entries[1..], prefix, room - (|Line(entries[0], prefix)| + 1))
  {
    if IsChild(entries[0], prefix) {
      assert ([entries[0]] + Children(entries[1..], prefix))[1..] == Children(entries[1..], prefix);
    }
  }

  /** The lines with their newlines. */
  function Text(ls: seq<Entry>, prefix: string): (t: string)
    requires forall k :: 0 <= k < |ls| ==> IsChild(ls[k], prefix)
    ensures |t| == Cost(ls, prefix)
  {
    if ls == [] then []
    else
      assert IsChild(ls[0], prefix);
      Line(ls[0], prefix) + "\n" + Text(ls[1..], prefix)
  }

  datatype Listing = Listing(text: string, count: nat)

  /** `fs_list_directory`: the listed lines joined by newlines (the last
      newline becomes the terminator) and the byte count including it. */
  function ListDirectory(fs: FileSystem, dirname: string, bufferSize: nat): (r: Listing)
    requires bufferSize >= 1
    ensures var ls := Listed(fs.entries, DirectoryPrefix(dirname), bufferSize);
      && ls <= Children(fs.entries, DirectoryPrefix(dirname))
      && r.count == |Text(ls, DirectoryPrefix(dirname))| <= bufferSize
      && (r.count == 0 ==> r.text == [])
      && (r.count > 0 ==> r.text + "\n" == Text(ls, DirectoryPrefix(dirname)))
    ensures |r.text| < bufferSize
  {
    var prefix := DirectoryPrefix(dirname);
    var t := Text(Listed(fs.entries, prefix, bufferSize), prefix);
    if t == [] then Listing([], 0)
    else
      assert t == t[..|t| - 1] + "\n" by {
        TextEndsInNewline(Listed(fs.entries, prefix, bufferSize), prefix);
        SplitLast(t);
      }
      Listing(t[..|t| - 1], |t|)
  }

  lemma TextEndsInNewline(ls: seq<Entry>, prefix: string)
    requires forall k :: 0 <= k < |ls| ==> IsChild(ls[k], prefix)
    requires Text(ls, prefix) != []
    ensures Text(ls, prefix)[|Text(ls, prefix)| - 1] == '\n'
  {
    if ls[1..] == [] {
      assert Text(ls[1..], prefix) == [];
    } else {
      TextEndsInNewline(ls[1..], prefix);
    }
  }

  /** Names that end in a slash (what `mkdir` stores) are never listed
      under their parent: the remainder holds that slash. */
  lemma SlashNamesHidden(e: Entry, prefix: string)
    requires |e.name| >= 1 && e.name[|e.name| - 1] == '/'
    ensures !IsChild(e, prefix)
  {
    if prefix <= e.name && |e.name| > |prefix| {
      assert e.name[|prefix|..][|e.name| - 1 - |prefix|] == '/';
    }
  }

  // ---------------------------------------------------------------------
  // Changing directory
  // ---------------------------------------------------------------------

  datatype Moved = Moved(code: int, cwd: string)

  /** `fs_change_directory`: ".." goes to the parent, "." stays; any other
      target is made absolute and a slash appended when there is room, and
      the move happens only if an entry with exactly that name exists. */
  function ChangeDirectory(fs: FileSystem, dirname: string, cwd: string, dirSize: nat): (r: Moved)
    requires dirSize >= 1
    requires dirname != ".." && dirname != "." ==> JoinFits(cwd, dirname)
    ensures dirname == ".." ==> r == Moved(0, Parent(cwd, dirSize))
    ensures dirname == "." ==> r == Moved(0, cwd)
    ensures dirname != ".." && dirname != "." ==>
      var target := DirectoryName(Absolute(dirname, cwd));
      && (Exists(fs, target) ==> r == Moved(0, Clip(target, dirSize - 1)))
      && (!Exists(fs, target) ==> r == Moved(-1, cwd))
  {
    if dirname == ".." then Moved(0, Parent(cwd, dirSize))
    else if dirname == "." then Moved(0, cwd)
    else
      var target := DirectoryName(Absolute(dirname, cwd));
      if Exists(fs, target) then Moved(0, Clip(target, dirSize - 1)) else Moved(-1, cwd)
  }

  /** The path with a trailing slash added, when it has none and there is
      room in the 128-byte buffer. */
  function DirectoryName(p: string): (d: string)
    requires |p| >= 1
    ensures d == p || d == p + SEPARATOR
    ensures d[|d| - 1] == '/' || |p| >= MAX_NAME - 1
  {
    if p[|p| - 1] != '/' && |p| < MAX_NAME - 1 then p + SEPARATOR else p
  }

  // ---------------------------------------------------------------------
  // Properties across operations
  // ---------------------------------------------------------------------

  /** A short name, once written, reads back as written (up to the buffer). */
  lemma {:induction false} WriteThenRead(fs: FileSystem, name: string, b: seq<char>, bufferSize: nat)
    requires Valid(fs) && |name| < MAX_NAME
    requires Write(fs, name, b).code == 0
    ensures var r := Read(Write(fs, name, b).fs, name, bufferSize);
      r.code == Min(|b|, bufferSize) && r.bytes == b[..r.code]
  {
    var w := Write(fs, name, b).fs;
    match Find(fs.entries, name)
    case Some(i) =>
      assert w.entries[i].name == name;
      assert forall j :: 0 <= j < i ==> w.entries[j] == fs.entries[j];
      assert Find(w.entries, name) == Some(i);
    case None =>
      var n := |fs.entries|;
      assert w.entries[n].name == name;
      assert forall j :: 0 <= j < n ==> w.entries[j] == fs.entries[j];
      assert Find(w.entries, name) == Some(n);
  }

  /** Where `fs_write_file` copies the bytes for `name`: the file's own
      offset when it exists, the cursor otherwise. */
  function WriteOffset(fs: FileSystem, name: string): nat
  {
    match Find(fs.entries, name)
    case Some(i) => fs.entries[i].offset
    case None => fs.dataUsed
  }

  /** A write changes no other file: every other entry is kept, and so are
      its bytes unless they overlap the range just written (which only a
      touched file sharing the offset can). */
  lemma WriteKeepsOthers(fs: FileSystem, name: string, b: seq<char>, j: nat)
    requires Valid(fs) && Write(fs, name, b).code == 0
    requires j < |fs.entries| && fs.entries[j].name != name
    requires var e := fs.entries[j];
      e.offset + e.size <= WriteOffset(fs, name) || WriteOffset(fs, name) + |b| <= e.offset
    ensures j < |Write(fs, name, b).fs.entries| && Write(fs, name, b).fs.entries[j] == fs.entries[j]
    ensures Content(Write(fs, name, b).fs, fs.entries[j]) == Content(fs, fs.entries[j])
  {
    var w := Write(fs, name, b).fs;
    var e := fs.entries[j];
    if Find(fs.entries, name).None? {
      assert w.entries[..|fs.entries|][j] == w.entries[j];
    }
    assert Untouched(fs.data, w.data, WriteOffset(fs, name), |b|);
    assert forall k :: e.offset <= k < e.offset + e.size ==> w.data[k] == fs.data[k];
  }

  /** A successful write is what `fs_file_size` then reports. */
  lemma {:induction false} WriteThenSize(fs: FileSystem, name: string, b: seq<char>)
    requires Valid(fs) && |name| < MAX_NAME
    requires Write(fs, name, b).code == 0
    ensures FileSize(Write(fs, name, b).fs, name) == |b|
  {
    var w := Write(fs, name, b).fs;
    match Find(fs.entries, name)
    case Some(i) =>
      assert w.entries[i].name == name;
      assert forall j :: 0 <= j < i ==> w.entries[j] == fs.entries[j];
      assert Find(w.entries, name) == Some(i);
    case None =>
      var n := |fs.entries|;
      assert w.entries[n].name == name;
      assert forall j :: 0 <= j < n ==> w.entries[j] == fs.entries[j];
      assert Find(w.entries, name) == Some(n);
  }

  /** A name no longer resolves once deleted, when names are unique. */
  lemma DeleteRemoves(fs: FileSystem, name: string)
    requires Valid(fs) && Unique(fs.entries) && name != ROOT
    ensures !Exists(Delete(fs, name).fs, name)
  {
    var d := Delete(fs, name).fs;
    if Find(fs.entries, name).Some? {
      var i := Find(fs.entries, name).value;
      forall j | 0 <= j < |d.entries| ensures d.entries[j].name != name {
        if j == i {
          assert d.entries[j] == fs.entries[|fs.entries| - 1];
        }
      }
    }
  }

  /** Deleting one name leaves every other name's entry where lookups find
      it. */
  lemma {:induction false} DeleteKeepsOthers(fs: FileSystem, name: string, other: string)
    requires Valid(fs) && Unique(fs.entries) && other != name
    ensures var d := Delete(fs, name).fs;
      && Exists(d, other) == Exists(fs, other)
      && (Exists(fs, other) ==> d.entries[Find(d.entries, other).value] == fs.entries[Find(fs.entries, other).value])
  {
    var d := Delete(fs, name).fs;
    DeleteKeepsUnique(fs, name);
    if Delete(fs, name).code == 0 {
      var i := Find(fs.entries, name).value;
      var last := |fs.entries| - 1;
      if Exists(fs, other) {
        var o := Find(fs.entries, other).value;
        assert o != i;
        var p := if o == last then i else o;
        assert d.entries[p] == fs.entries[o];
        FindUnique(d.entries, p);
      } else {
        forall j | 0 <= j < |d.entries| ensures d.entries[j].name != other {
          assert d.entries[j] == fs.entries[Source(i, last, j)];
        }
      }
    }
  }

  /** Where row `j` of the table came from after row `i` was deleted and
      row `last` moved into its place. */
  function Source(i: nat, last: nat, j: nat): nat
  {
    if j == i then last else j
  }

  /** Deleting keeps names unique: every surviving row is a distinct row of
      the old table. */
  lemma DeleteKeepsUnique(fs: FileSystem, name: string)
    requires Valid(fs) && Unique(fs.entries)
    ensures Unique(Delete(fs, name).fs.entries)
  {
    var d := Delete(fs, name).fs;
    if Delete(fs, name).code == 0 {
      var i := Find(fs.entries, name).value;
      var last := |fs.entries| - 1;
      assert forall j :: 0 <= j < |d.entries| ==>
        Source(i, last, j) < |fs.entries| && d.entries[j] == fs.entries[Source(i, last, j)];
      forall j, k | 0 <= j < k < |d.entries| ensures d.entries[j].name != d.entries[k].name {
        assert Source(i, last, j) != Source(i, last, k);
      }
    }
  }

  /** A short name, once created, is reported with the kind it was
      created as. */
  lemma CreateThenType(fs: FileSystem, name: string, isDirectory: bool)
    requires Valid(fs) && |name| < MAX_NAME && Create(fs, name, isDirectory).code == 0
    ensures TypeString(Create(fs, name, isDirectory).fs, name) == if isDirectory then "directory" else "file"
  {
    var c := Create(fs, name, isDirectory).fs;
    var n := |fs.entries|;
    assert c.entries == fs.entries + [c.entries[n]];
    FindAppended(fs.entries, c.entries[n], name);
  }

  /** Creating a short name keeps names unique. */
  lemma CreateKeepsUnique(fs: FileSystem, name: string, isDirectory: bool)
    requires Valid(fs) && Unique(fs.entries) && |name| < MAX_NAME
    ensures Unique(Create(fs, name, isDirectory).fs.entries)
  {
  }

  /** Writing a short name keeps names unique. */
  lemma WriteKeepsUnique(fs: FileSystem, name: string, b: seq<char>)
    requires Valid(fs) && Unique(fs.entries) && |name| < MAX_NAME
    ensures Unique(Write(fs, name, b).fs.entries)
  {
    var w := Write(fs, name, b).fs;
    if Write(fs, name, b).code == 0 && Find(fs.entries, name).None? {
      var n := |fs.entries|;
      assert forall j :: 0 <= j < n ==> w.entries[j] == fs.entries[j];
    }
  }

  /** The arena is shared by offset, not owned: an empty file made by
      `touch` records the cursor, the next new file is stored at that same
      cursor, and a later write to the empty file lands on the second
      file's bytes. */
  lemma {:induction false} TouchedFileSharesOffset(fs: FileSystem, f: string, g: string, b: seq<char>, c: seq<char>)
    requires Valid(fs) && |fs.entries| + 2 <= MAX_FILES
    requires fs.dataUsed + 2 * MAX_FILE_SIZE <= TOTAL_DATA_SIZE
    requires |f| < MAX_NAME && |g| < MAX_NAME && f != g
    requires !Exists(fs, f) && !Exists(fs, g)
    requires |b| == |c| <= MAX_FILE_SIZE
    ensures var s1 := Create(fs, f, false).fs;
      var s2 := Write(s1, g, b).fs;
      var s3 := Write(s2, f, c).fs;
      Read(s3, g, MAX_FILE_SIZE) == ReadResult(|c|, c)
  {
    var n := |fs.entries|;
    var s1 := Create(fs, f, false).fs;
    FindAppended(fs.entries, s1.entries[n], g);
    assert s1.entries == fs.entries + [s1.entries[n]];
    var s2 := Write(s1, g, b).fs;
    assert s2.entries == s1.entries + [s2.entries[n + 1]];
    FindAppended(s1.entries, s2.entries[n + 1], f);
    FindAppended(fs.entries, s1.entries[n], f);
    var s3 := Write(s2, f, c).fs;
    FindSameNames(s2.entries, s3.entries, g);
    FindAppended(s1.entries, s2.entries[n + 1], g);
    assert s3.entries[n + 1] == s2.entries[n + 1];
    assert s3.entries[n].offset == s3.entries[n + 1].offset == fs.dataUsed;
  }

  /** Looking a name up after a row is appended. */
  lemma FindAppended(es: seq<Entry>, e: Entry, name: string)
    ensures Find(es + [e], name) ==
      if Find(es, name).Some? then Find(es, name)
      else if e.name == name then Some(|es|) else None
  {
    var r := Find(es + [e], name);
    assert forall j :: 0 <= j < |es| ==> (es + [e])[j] == es[j];
    if Find(es, name).Some? {
      assert (es + [e])[Find(es, name).value] == es[Find(es, name).value];
    } else if e.name == name {
      assert (es + [e])[|es|] == e;
    }
  }

  /** Lookups see only names. */
  lemma FindSameNames(a: seq<Entry>, b: seq<Entry>, name: string)
    requires |a| == |b| && forall j :: 0 <= j < |a| ==> a[j].name == b[j].name
    ensures Find(a, name) == Find(b, name)
  {
    if Find(a, name).Some? {
      assert b[Find(a, name).value].name == name;
    }
  }

  // ---------------------------------------------------------------------
  // The booted filesystem
  // ---------------------------------------------------------------------

  /** The directories `fs_init` creates, in order; none ends in a slash. */
  const SEED_DIRECTORIES: seq<string> :=
    ["/", "/bin", "/home", "/etc", "/tmp", "/usr", "/var", "/dev", "/proc", "/root", "/home/user"]

  /** The files `fs_init` writes, in order. */
  const SEED_FILES: seq<string> :=
    ["/welcome.txt", "/readme.txt", "/etc/version", "/etc/motd", "/etc/passwd", "/etc/shadow"]

  /** The state `memset` leaves, over an arena of zero bytes. */
  function Empty(arena: seq<char>): (fs: FileSystem)
    requires Zeroed(arena)
    ensures Valid(fs) && Unique(fs.entries) && fs.entries == [] && fs.dataUsed == 0 && fs.clock == 0
  {
    FileSystem([], arena, 0, 0)
  }

  predicate Zeroed(arena: seq<char>)
  {
    |arena| == TOTAL_DATA_SIZE && forall k :: 0 <= k < |arena| ==> arena[k] == ZERO
  }

  /** The entry names in table order. */
  function Names(entries: seq<Entry>): (ns: seq<string>)
    ensures |ns| == |entries| && forall k :: 0 <= k < |ns| ==> ns[k] == entries[k].name
  {
    if entries == [] then [] else [entries[0].name] + Names(entries[1..])
  }

  predicate Distinct(ns: seq<string>)
  {
    forall i, j :: 0 <= i < j < |ns| ==> ns[i] != ns[j]
  }

  /** `fs_create_file(name, 1)` for each name in turn. */
  function CreateDirectories(fs: FileSystem, names: seq<string>): (r: FileSystem)
    requires Valid(fs)
    ensures Valid(r)
    decreases |names|
  {
    if names == [] then fs else CreateDirectories(Create(fs, names[0], true).fs, names[1..])
  }

  /** `fs_write_file` for each (name, contents) pair in turn. */
  function WriteFiles(fs: FileSystem, names: seq<string>, contents: seq<seq<char>>): (r: FileSystem)
    requires Valid(fs) && |names| == |contents|
    ensures Valid(r)
    decreases |names|
  {
    if names == [] then fs else WriteFiles(Write(fs, names[0], contents[0]).fs, names[1..], contents[1..])
  }

  /** Fresh, distinct, short names are appended to the table in order. */
  lemma {:induction false} CreateDirectoriesAppends(fs: FileSystem, names: seq<string>)
    requires Valid(fs) && |fs.entries| + |names| <= MAX_FILES
    requires Distinct(Names(fs.entries) + names)
    requires forall k :: 0 <= k < |names| ==> |names[k]| < MAX_NAME
    ensures Names(CreateDirectories(fs, names).entries) == Names(fs.entries) + names
    decreases |names|
  {
    if names != [] {
      FirstNameFresh(fs.entries, names);
      var c := Create(fs, names[0], true).fs;
      NamesGrow(fs.entries, c.entries, names[0]);
      ShiftFirst(Names(fs.entries), names);
      CreateDirectoriesAppends(c, names[1..]);
    }
  }

  /** Fresh, distinct, short names written with contents that fit are
      appended to the table in order. */
  lemma {:induction false} WriteFilesAppends(fs: FileSystem, names: seq<string>, contents: seq<seq<char>>)
    requires Valid(fs) && |names| == |contents| && |fs.entries| + |names| <= MAX_FILES
    requires fs.dataUsed + |names| * MAX_FILE_SIZE <= TOTAL_DATA_SIZE
    requires Distinct(Names(fs.entries) + names)
    requires forall k :: 0 <= k < |names| ==> |names[k]| < MAX_NAME && |contents[k]| <= MAX_FILE_SIZE
    ensures Names(WriteFiles(fs, names, contents).entries) == Names(fs.entries) + names
    decreases |names|
  {
    if names != [] {
      FirstNameFresh(fs.entries, names);
      var w := Write(fs, names[0], contents[0]).fs;
      NamesGrow(fs.entries, w.entries, names[0]);
      ShiftFirst(Names(fs.entries), names);
      WriteFilesAppends(w, names[1..], contents[1..]);
    }
  }

  /** The first of a run of names that are distinct from the table's and
      from each other is not in the table. */
  lemma FirstNameFresh(es: seq<Entry>, names: seq<string>)
    requires names != [] && Distinct(Names(es) + names)
    ensures Find(es, names[0]).None?
  {
    var all := Names(es) + names;
    forall j | 0 <= j < |es| ensures es[j].name != names[0] {
      assert all[j] == es[j].name && all[|es|] == names[0];
    }
  }

  /** One entry named `name` added at the end of the table. */
  lemma NamesGrow(es: seq<Entry>, grown: seq<Entry>, name: string)
    requires |grown| == |es| + 1 && grown[..|es|] == es && grown[|es|].name == name
    ensures Names(grown) == Names(es) + [name]
  {
    assert forall k :: 0 <= k < |es| ==> grown[k] == es[k];
  }

  /** No seeded path is created twice. */
  lemma SeedNamesDistinct()
    ensures Distinct(SEED_DIRECTORIES + SEED_FILES)
  {
  }

  /** Every seeded path fits a table entry untruncated. */
  lemma SeedNamesShort()
    ensures forall k :: 0 <= k < |SEED_DIRECTORIES| ==> |SEED_DIRECTORIES[k]| < MAX_NAME
    ensures forall k :: 0 <= k < |SEED_FILES| ==> |SEED_FILES[k]| < MAX_NAME
  {
  }

  /** `fs_init`, with the six files' texts as parameters. */
  function Boot(arena: seq<char>, contents: seq<seq<char>>): (fs: FileSystem)
    requires Zeroed(arena)
    requires |contents| == |SEED_FILES|
    requires forall k :: 0 <= k < |contents| ==> |contents[k]| <= MAX_FILE_SIZE
    ensures Valid(fs)
    ensures Names(fs.entries) == SEED_DIRECTORIES + SEED_FILES
    ensures |fs.entries| == |SEED_DIRECTORIES| + |SEED_FILES|
    ensures forall k :: 0 <= k < |SEED_DIRECTORIES| ==> fs.entries[k].isDirectory
    ensures forall k :: 0 <= k < |SEED_FILES| ==> FileHolds(fs, fs.entries[|SEED_DIRECTORIES| + k], contents[k])
  {
    BootShape(arena, contents);
    WriteFiles(CreateDirectories(Empty(arena), SEED_DIRECTORIES), SEED_FILES, contents)
  }

  /** The facts behind Boot's contract, proved one at a time. */
  lemma BootShape(arena: seq<char>, contents: seq<seq<char>>)
    requires Zeroed(arena)
    requires |contents| == |SEED_FILES|
    requires forall k :: 0 <= k < |contents| ==> |contents[k]| <= MAX_FILE_SIZE
    ensures var fs := WriteFiles(CreateDirectories(Empty(arena), SEED_DIRECTORIES), SEED_FILES, contents);
      && Names(fs.entries) == SEED_DIRECTORIES + SEED_FILES
      && |fs.entries| == |SEED_DIRECTORIES| + |SEED_FILES|
      && (forall k :: 0 <= k < |SEED_DIRECTORIES| ==> fs.entries[k].isDirectory)
      && (forall k :: 0 <= k < |SEED_FILES| ==> FileHolds(fs, fs.entries[|SEED_DIRECTORIES| + k], contents[k]))
  {
    var dirs := CreateDirectories(Empty(arena), SEED_DIRECTORIES);
    var fs := WriteFiles(dirs, SEED_FILES, contents);
    SeedDirectoriesAppended(arena);
    SeedFilesAppended(dirs, contents);
    assert |dirs.entries| == |SEED_DIRECTORIES| && |fs.entries| == |SEED_DIRECTORIES| + |SEED_FILES| by {
      assert |Names(dirs.entries)| == |dirs.entries|;
      assert Stored(dirs, fs, contents);
    }
    SeededShape(dirs, fs, contents);
  }

  /** The first half of `fs_init`: the eleven directories, in order, and no data. */
  lemma SeedDirectoriesAppended(arena: seq<char>)
    requires Zeroed(arena)
    ensures Names(CreateDirectories(Empty(arena), SEED_DIRECTORIES).entries) == SEED_DIRECTORIES
    ensures CreateDirectories(Empty(arena), SEED_DIRECTORIES).dataUsed == 0
    ensures var es := CreateDirectories(Empty(arena), SEED_DIRECTORIES).entries;
      forall k :: 0 <= k < |es| ==> es[k].isDirectory
  {
    var fs := Empty(arena);
    SeedNamesDistinct();
    SeedNamesShort();
    assert Names(fs.entries) + SEED_DIRECTORIES == (SEED_DIRECTORIES + SEED_FILES)[..|SEED_DIRECTORIES|];
    CreateDirectoriesAppends(fs, SEED_DIRECTORIES);
    CreateDirectoriesKeeps(fs, SEED_DIRECTORIES);
  }

  /** The second half of `fs_init`: the six files follow the directories. */
  lemma SeedFilesAppended(dirs: FileSystem, contents: seq<seq<char>>)
    requires Valid(dirs) && Names(dirs.entries) == SEED_DIRECTORIES && dirs.dataUsed == 0
    requires |contents| == |SEED_FILES|
    requires forall k :: 0 <= k < |contents| ==> |contents[k]| <= MAX_FILE_SIZE
    ensures Names(WriteFiles(dirs, SEED_FILES, contents).entries) == SEED_DIRECTORIES + SEED_FILES
    ensures Stored(dirs, WriteFiles(dirs, SEED_FILES, contents), contents)
  {
    SeedNamesDistinct();
    SeedNamesShort();
    assert |dirs.entries| == |SEED_DIRECTORIES|;
    WriteFilesAppends(dirs, SEED_FILES, contents);
    WriteFilesStore(dirs, SEED_FILES, contents);
  }

  /** Directories followed by stored files: the rows keep their kinds,
      and each file row holds its contents. */
  lemma SeededShape(dirs: FileSystem, fs: FileSystem, contents: seq<seq<char>>)
    requires forall k :: 0 <= k < |dirs.entries| ==> dirs.entries[k].isDirectory
    requires Stored(dirs, fs, contents) && |fs.data| == TOTAL_DATA_SIZE
    ensures forall k :: 0 <= k < |dirs.entries| ==> fs.entries[k].isDirectory
    ensures forall k :: 0 <= k < |contents| ==> FileHolds(fs, fs.entries[|dirs.entries| + k], contents[k])
  {
    assert forall k :: 0 <= k < |dirs.entries| ==> fs.entries[k] == fs.entries[..|dirs.entries|][k];
    forall k | 0 <= k < |contents| ensures FileHolds(fs, fs.entries[|dirs.entries| + k], contents[k]) {
      assert StoredAt(fs, fs.entries[|dirs.entries| + k], contents[k]);
    }
  }

  /** A file row that reads back as `b`. */
  predicate FileHolds(fs: FileSystem, e: Entry, b: seq<char>)
  {
    !e.isDirectory && |fs.data| == TOTAL_DATA_SIZE && e.offset + e.size <= TOTAL_DATA_SIZE && Content(fs, e) == b
  }

  /** Creating directories keeps the rows and the arena there were, and
      every row it adds is a directory. */
  lemma {:induction false} CreateDirectoriesKeeps(fs: FileSystem, names: seq<string>)
    requires Valid(fs)
    ensures var r := CreateDirectories(fs, names);
      && |r.entries| >= |fs.entries| && r.entries[..|fs.entries|] == fs.entries
      && r.data == fs.data && r.dataUsed == fs.dataUsed
      && forall k :: |fs.entries| <= k < |r.entries| ==> r.entries[k].isDirectory
    decreases |names|
  {
    if names != [] {
      var c := Create(fs, names[0], true).fs;
      CreateDirectoriesKeeps(c, names[1..]);
      var r := CreateDirectories(c, names[1..]);
      assert r.entries[..|fs.entries|] == r.entries[..|c.entries|][..|fs.entries|];
    }
  }

  /** `r` is `fs` with one new file row per element of `contents`, in
      order, each holding its contents below `r`'s cursor, while the rows
      and arena bytes below the cursor that `fs` had are kept. */
  ghost predicate Stored(fs: FileSystem, r: FileSystem, contents: seq<seq<char>>)
  {
    && |r.entries| == |fs.entries| + |contents| && r.entries[..|fs.entries|] == fs.entries
    && fs.dataUsed <= r.dataUsed <= |r.data| && fs.dataUsed <= |fs.data|
    && r.data[..fs.dataUsed] == fs.data[..fs.dataUsed]
    && forall k :: 0 <= k < |contents| ==> StoredAt(r, r.entries[|fs.entries| + k], contents[k])
  }

  /** A file row whose bytes, below the cursor, are `b`. */
  ghost predicate StoredAt(r: FileSystem, e: Entry, b: seq<char>)
  {
    !e.isDirectory && e.offset + e.size <= r.dataUsed <= |r.data| && r.data[e.offset..e.offset + e.size] == b
  }

  /** Stores compose: what survives the first and then the second. */
  lemma StoredTrans(a: FileSystem, b: FileSystem, c: FileSystem, xs: seq<seq<char>>, ys: seq<seq<char>>)
    requires Stored(a, b, xs) && Stored(b, c, ys)
    ensures Stored(a, c, xs + ys)
  {
    var n := |a.entries|;
    assert c.entries[..n] == c.entries[..|b.entries|][..n];
    assert c.data[..a.dataUsed] == c.data[..b.dataUsed][..a.dataUsed];
    assert b.data[..a.dataUsed] == b.data[..b.dataUsed][..a.dataUsed];
    forall k | 0 <= k < |xs + ys| ensures StoredAt(c, c.entries[n + k], (xs + ys)[k]) {
      if k < |xs| {
        var e := b.entries[n + k];
        assert StoredAt(b, e, xs[k]);
        assert n + k < |b.entries| && c.entries[..|b.entries|][n + k] == c.entries[n + k];
        StoredAtKept(b, c, e, xs[k]);
      } else {
        assert n + k == |b.entries| + (k - |xs|);
        assert StoredAt(c, c.entries[|b.entries| + (k - |xs|)], ys[k - |xs|]);
      }
    }
  }

  /** A stored row stays stored while the bytes below its cursor are kept. */
  lemma StoredAtKept(b: FileSystem, c: FileSystem, e: Entry, x: seq<char>)
    requires StoredAt(b, e, x)
    requires b.dataUsed <= c.dataUsed <= |c.data| && c.data[..b.dataUsed] == b.data[..b.dataUsed]
    ensures StoredAt(c, e, x)
  {
    SliceOfPrefix(c.data, b.dataUsed, e.offset, e.offset + e.size);
    SliceOfPrefix(b.data, b.dataUsed, e.offset, e.offset + e.size);
  }

  /** Writing a fresh name that fits stores one file. */
  lemma WriteStores(fs: FileSystem, name: string, b: seq<char>)
    requires Valid(fs) && |fs.entries| < MAX_FILES && Find(fs.entries, name).None?
    requires |b| <= MAX_FILE_SIZE && fs.dataUsed + |b| <= TOTAL_DATA_SIZE
    ensures Stored(fs, Write(fs, name, b).fs, [b])
  {
    var w := Write(fs, name, b).fs;
    assert StoredAt(w, w.entries[|fs.entries|], b);
  }

  /** Writing fresh, distinct, short names keeps the rows there were and
      the arena below the cursor; each added row is a file whose bytes are
      its contents. */
  lemma {:induction false} WriteFilesStore(fs: FileSystem, names: seq<string>, contents: seq<seq<char>>)
    requires Valid(fs) && |names| == |contents| && |fs.entries| + |names| <= MAX_FILES
    requires fs.dataUsed + |names| * MAX_FILE_SIZE <= TOTAL_DATA_SIZE
    requires Distinct(Names(fs.entries) + names)
    requires forall k :: 0 <= k < |names| ==> |names[k]| < MAX_NAME && |contents[k]| <= MAX_FILE_SIZE
    ensures Stored(fs, WriteFiles(fs, names, contents), contents)
    decreases |names|
  {
    if names == [] {
      assert WriteFiles(fs, names, contents).entries[..|fs.entries|] == fs.entries;
    } else {
      var w := Write(fs, names[0], contents[0]).fs;
      WriteFirst(fs, names, contents);
      WriteFilesStore(w, names[1..], contents[1..]);
      StoredTrans(fs, w, WriteFiles(w, names[1..], contents[1..]), [contents[0]], contents[1..]);
      assert [contents[0]] + contents[1..] == contents;
    }
  }

  /** The first write of a run of fresh names stores its file and leaves
      the rest of the run fresh and with room. */
  lemma WriteFirst(fs: FileSystem, names: seq<string>, contents: seq<seq<char>>)
    requires Valid(fs) && |names| == |contents| && 0 < |names| && |fs.entries| + |names| <= MAX_FILES
    requires fs.dataUsed + |names| * MAX_FILE_SIZE <= TOTAL_DATA_SIZE
    requires Distinct(Names(fs.entries) + names)
    requires forall k :: 0 <= k < |names| ==> |names[k]| < MAX_NAME && |contents[k]| <= MAX_FILE_SIZE
    ensures var w := Write(fs, names[0], contents[0]).fs;
      && Stored(fs, w, [contents[0]])
      && |w.entries| + |names[1..]| <= MAX_FILES
      && w.dataUsed + |names[1..]| * MAX_FILE_SIZE <= TOTAL_DATA_SIZE
      && Distinct(Names(w.entries) + names[1..])
  {
    var w := Write(fs, names[0], contents[0]).fs;
    FirstNameFresh(fs.entries, names);
    WriteStores(fs, names[0], contents[0]);
    NamesGrow(fs.entries, w.entries, names[0]);
    ShiftFirst(Names(fs.entries), names);
  }

  /** The booted table names each seeded path exactly once, and a lookup
      succeeds for exactly those names. */
  lemma BootLookups(arena: seq<char>, contents: seq<seq<char>>, name: string)
    requires Zeroed(arena)
    requires |contents| == |SEED_FILES|
    requires forall k :: 0 <= k < |contents| ==> |contents[k]| <= MAX_FILE_SIZE
    ensures Unique(Boot(arena, contents).entries)
    ensures Exists(Boot(arena, contents), name) <==> name in SEED_DIRECTORIES + SEED_FILES
  {
    var fs := Boot(arena, contents);
    SeedNamesDistinct();
    NamesLookup(fs, name);
  }

  /** Each seeded file reads back, whole, as the text it was written with. */
  lemma BootReadsBack(arena: seq<char>, contents: seq<seq<char>>, k: nat)
    requires Zeroed(arena)
    requires |contents| == |SEED_FILES|
    requires forall k :: 0 <= k < |contents| ==> |contents[k]| <= MAX_FILE_SIZE
    requires k < |SEED_FILES|
    ensures Read(Boot(arena, contents), SEED_FILES[k], MAX_FILE_SIZE) == ReadResult(|contents[k]|, contents[k])
  {
    SeededReadBack(Boot(arena, contents), contents[k], k);
  }

  /** The seeded name at file position `k` reads back the bytes its row holds. */
  lemma SeededReadBack(fs: FileSystem, b: seq<char>, k: nat)
    requires Valid(fs) && Names(fs.entries) == SEED_DIRECTORIES + SEED_FILES
    requires k < |SEED_FILES| && |b| <= MAX_FILE_SIZE
    requires FileHolds(fs, fs.entries[|SEED_DIRECTORIES| + k], b)
    ensures Read(fs, SEED_FILES[k], MAX_FILE_SIZE) == ReadResult(|b|, b)
  {
    var i := |SEED_DIRECTORIES| + k;
    var ns := SEED_DIRECTORIES + SEED_FILES;
    SeedNamesDistinct();
    ReadBackNamed(fs, ns, i, b);
    assert ns[i] == SEED_FILES[k];
  }

  /** In a table without duplicates, a file row holding `b` reads back
      as `b` under its name. */
  lemma ReadBackNamed(fs: FileSystem, ns: seq<string>, i: nat, b: seq<char>)
    requires Valid(fs) && Names(fs.entries) == ns && Distinct(ns) && i < |ns| && |b| <= MAX_FILE_SIZE
    requires FileHolds(fs, fs.entries[i], b)
    ensures Read(fs, ns[i], MAX_FILE_SIZE) == ReadResult(|b|, b)
  {
    NamesLookup(fs, ns[i]);
    FindUnique(fs.entries, i);
    ReadHeld(fs, ns[i], b);
  }

  /** A name found on a file row that holds `b` reads back as `b`. */
  lemma ReadHeld(fs: FileSystem, name: string, b: seq<char>)
    requires Valid(fs) && Find(fs.entries, name).Some? && |b| <= MAX_FILE_SIZE
    requires FileHolds(fs, fs.entries[Find(fs.entries, name).value], b)
    ensures Read(fs, name, MAX_FILE_SIZE) == ReadResult(|b|, b)
  {
    var e := fs.entries[Find(fs.entries, name).value];
    assert e.size == |b| && Content(fs, e)[..|b|] == b;
  }

  /** Each seeded file is reported as a file. */
  lemma BootFileKinds(arena: seq<char>, contents: seq<seq<char>>, k: nat)
    requires Zeroed(arena)
    requires |contents| == |SEED_FILES|
    requires forall k :: 0 <= k < |contents| ==> |contents[k]| <= MAX_FILE_SIZE
    requires k < |SEED_FILES|
    ensures TypeString(Boot(arena, contents), SEED_FILES[k]) == "file"
  {
    BootReadsBack(arena, contents, k);
    ReadableIsFile(Boot(arena, contents), SEED_FILES[k], MAX_FILE_SIZE);
  }

  /** What reads successfully is a file. */
  lemma ReadableIsFile(fs: FileSystem, name: string, bufferSize: nat)
    requires Valid(fs) && Read(fs, name, bufferSize).code >= 0
    ensures TypeString(fs, name) == "file"
  {
  }

  /** Each seeded directory is reported as a directory. */
  lemma BootDirectories(arena: seq<char>, contents: seq<seq<char>>, k: nat)
    requires Zeroed(arena)
    requires |contents| == |SEED_FILES|
    requires forall k :: 0 <= k < |contents| ==> |contents[k]| <= MAX_FILE_SIZE
    requires k < |SEED_DIRECTORIES|
    ensures TypeString(Boot(arena, contents), SEED_DIRECTORIES[k]) == "directory"
  {
    var fs := Boot(arena, contents);
    BootLookups(arena, contents, SEED_DIRECTORIES[k]);
    assert fs.entries[k].name == SEED_DIRECTORIES[k] by {
      assert Names(fs.entries)[k] == (SEED_DIRECTORIES + SEED_FILES)[k];
    }
    FindUnique(fs.entries, k);
  }

  /** Lookups through the table's name list. */
  lemma NamesLookup(fs: FileSystem, name: string)
    ensures Distinct(Names(fs.entries)) <==> Unique(fs.entries)
    ensures Exists(fs, name) <==> name in Names(fs.entries)
  {
    var ns := Names(fs.entries);
    if name in ns {
      var k :| 0 <= k < |ns| && ns[k] == name;
      assert fs.entries[k].name == name;
    }
  }

  /** The seeded directories are stored without a trailing slash while
      `cd` looks names up with one, so `cd home` (or any other single name)
      from the root fails on the booted filesystem, even though "/home"
      exists. */
  lemma SeededDirectoryUnreachable(arena: seq<char>, contents: seq<seq<char>>, name: string)
    requires Zeroed(arena)
    requires |contents| == |SEED_FILES|
    requires forall k :: 0 <= k < |contents| ==> |contents[k]| <= MAX_FILE_SIZE
    requires Plain(name) && |name| + 2 < MAX_NAME
    ensures JoinFits(ROOT, name)
    ensures ChangeDirectory(Boot(arena, contents), name, ROOT, 512) == Moved(-1, ROOT)
  {
    var target := ChildDirectoryName(name);
    assert target !in SEED_DIRECTORIES + SEED_FILES by { UnslashedMissing(target); }
    BootLookups(arena, contents, target);
  }

  /** `cd name` from the root looks up "/name/". */
  lemma ChildDirectoryName(name: string) returns (target: string)
    requires Plain(name) && |name| + 2 < MAX_NAME
    ensures JoinFits(ROOT, name)
    ensures target == DirectoryName(Absolute(name, ROOT)) == "/" + name + "/"
  {
    AbsoluteAtRoot(name);
    var p := Absolute(name, ROOT);
    assert p[|p| - 1] == name[|name| - 1] != '/' by { assert name[|name| - 1] !in SEPARATOR; }
    target := DirectoryName(p);
  }

  /** A slash-terminated name other than the root is not seeded. */
  lemma UnslashedMissing(target: string)
    requires |target| >= 2 && target[|target| - 1] == '/'
    ensures target !in SEED_DIRECTORIES + SEED_FILES
  {
    SeedNamesUnslashed();
  }

  /** Only the root's seeded name ends in a slash. */
  lemma SeedNamesUnslashed()
    ensures forall k :: 0 <= k < |SEED_DIRECTORIES + SEED_FILES| ==>
      var n := (SEED_DIRECTORIES + SEED_FILES)[k]; n == ROOT || n[|n| - 1] != '/'
  {
  }

  /** "/home" is among the seeded names. */
  lemma HomeSeeded(arena: seq<char>, contents: seq<seq<char>>)
    requires Zeroed(arena)
    requires |contents| == |SEED_FILES|
    requires forall k :: 0 <= k < |contents| ==> |contents[k]| <= MAX_FILE_SIZE
    ensures Exists(Boot(arena, contents), "/home")
  {
    BootLookups(arena, contents, "/home");
  }
}

=== FILE: heap.dfy ===
/** The kernel-mode heap allocator: one 1 MiB arena carved into a linked
    list of blocks, each behind a 16-byte header (magic, size, is_free,
    next on i386).  The list is modelled as the sequence of its blocks in
    address order, and a pointer as its byte offset from the start of the
    arena, so the address of a block is the sum of the blocks before it.
    Payload bytes are not modelled. */
module Heap {
  import opened Common

  /** sizeof(block_header_t) on i386. */
  const H: nat := 16
  const HEAP_SIZE: nat := 0x10_0000
  const BLOCK_MAGIC: int := 0x1234ABCD
  /** A block is split only when at least this much payload would remain
      beyond the request and the new header. */
  const SPLIT_SLACK: nat := 16

  /** One block header; `magic` is whatever the header's first word holds. */
  datatype Block = Block(size: nat, isFree: bool, magic: int)

  /** The block list and the free_memory counter (a size_t). */
  datatype Heap = Heap(blocks: seq<Block>, freeMemory: nat)

  // ---------------------------------------------------------------------
  // Layout
  // ---------------------------------------------------------------------

  /** Bytes covered by a run of blocks, headers included. */
  function Span(bs: seq<Block>): nat
  {
    if bs == [] then 0 else H + bs[0].size + Span(bs[1..])
  }

  lemma {:induction false} SpanAppend(a: seq<Block>, b: seq<Block>)
    ensures Span(a + b) == Span(a) + Span(b)
    decreases |a|
  {
    if a != [] {
      assert (a + b)[1..] == a[1..] + b;
      SpanAppend(a[1..], b);
    } else {
      assert a + b == b;
    }
  }

  /** Offset of the payload of block `i` from the start of the arena. */
  function Payload(bs: seq<Block>, i: nat): int
    requires i < |bs|
  {
    Span(bs[..i]) + H
  }

  /** Payload sizes of the blocks in use. */
  function UsedBytes(bs: seq<Block>): nat
  {
    if bs == [] then 0 else (if bs[0].isFree then 0 else bs[0].size) + UsedBytes(bs[1..])
  }

  lemma {:induction false} UsedAppend(a: seq<Block>, b: seq<Block>)
    ensures UsedBytes(a + b) == UsedBytes(a) + UsedBytes(b)
    decreases |a|
  {
    if a != [] {
      assert (a + b)[1..] == a[1..] + b;
      UsedAppend(a[1..], b);
    } else {
      assert a + b == b;
    }
  }

  /** Payloads in use never take more than the span minus the headers. */
  lemma UsedWithinSpan(bs: seq<Block>)
    ensures UsedBytes(bs) + H * |bs| <= Span(bs)
  {
  }

  /** The blocks tile the arena exactly and every size is a multiple of 8. */
  predicate Valid(h: Heap)
  {
    && |h.blocks| >= 1
    && Span(h.blocks) == HEAP_SIZE
    && Aligned(h.blocks)
    && h.freeMemory < UINT_MOD
  }

  /** Every payload size is a multiple of 8, so every payload address is
      8-aligned relative to the arena. */
  predicate Aligned(bs: seq<Block>)
  {
    forall i :: 0 <= i < |bs| ==> bs[i].size % 8 == 0
  }

  /** free_memory is the arena minus the first header minus the bytes in use.
      Every malloc and every free of a block in use keeps this. */
  predicate Accounted(h: Heap)
  {
    h.freeMemory + UsedBytes(h.blocks) == HEAP_SIZE - H
  }

  predicate Intact(bs: seq<Block>)
  {
    forall i :: 0 <= i < |bs| ==> bs[i].magic == BLOCK_MAGIC
  }

  /** No two neighbouring blocks are both free. */
  predicate Coalesced(bs: seq<Block>)
  {
    CoalescedBelow(bs, |bs|)
  }

  /** No block before index `c` is free together with its successor. */
  predicate CoalescedBelow(bs: seq<Block>, c: nat)
  {
    forall i :: 0 <= i < c && i + 1 < |bs| ==> !(bs[i].isFree && bs[i + 1].isFree)
  }

  /** `memory_init`: one free block spanning the arena after its header. */
  function Init(): (h: Heap)
    ensures Valid(h) && Accounted(h) && Intact(h.blocks) && Coalesced(h.blocks)
    ensures |h.blocks| == 1 && h.blocks[0].isFree && h.freeMemory == HEAP_SIZE - H
  {
    var h := Heap([Block(HEAP_SIZE - H, true, BLOCK_MAGIC)], HEAP_SIZE - H);
    assert h.blocks[1..] == [];
    h
  }

  // ---------------------------------------------------------------------
  // The list walks
  // ---------------------------------------------------------------------

  predicate Fits(b: Block, size: nat) { b.isFree && b.size >= size }

  /** Every header up to and including block `i` carries the magic. */
  predicate IntactUpTo(bs: seq<Block>, i: nat)
  {
    i < |bs| && forall j :: 0 <= j <= i ==> bs[j].magic == BLOCK_MAGIC
  }

  /** `find_free_block`: the first block that is free and big enough,
      giving up at the first header without the magic. */
  function FindFreeBlock(bs: seq<Block>, size: nat): (r: Option<nat>)
    ensures r.Some? ==> IntactUpTo(bs, r.value) && Fits(bs[r.value], size)
    ensures r.Some? ==> forall j :: 0 <= j < r.value ==> !Fits(bs[j], size)
    ensures r.None? ==> forall i :: 0 <= i < |bs| && IntactUpTo(bs, i) ==> !Fits(bs[i], size)
  {
    FindFrom(bs, size, 0)
  }

  function FindFrom(bs: seq<Block>, size: nat, i: nat): (r: Option<nat>)
    requires i <= |bs|
    requires forall j :: 0 <= j < i ==> bs[j].magic == BLOCK_MAGIC && !Fits(bs[j], size)
    ensures r.Some? ==> IntactUpTo(bs, r.value) && Fits(bs[r.value], size)
    ensures r.Some? ==> forall j :: 0 <= j < r.value ==> !Fits(bs[j], size)
    ensures r.None? ==> forall k :: 0 <= k < |bs| && IntactUpTo(bs, k) ==> !Fits(bs[k], size)
    decreases |bs| - i
  {
    if i == |bs| then None
    else if bs[i].magic != BLOCK_MAGIC then
      assert forall k :: i <= k < |bs| ==> !IntactUpTo(bs, k);
      None
    else if Fits(bs[i], size) then Some(i)
    else FindFrom(bs, size, i + 1)
  }

  /** `split_block`: a block with room for the request, a new header and
      SPLIT_SLACK more bytes is cut in two; the tail becomes a new free block. */
  function SplitBlock(bs: seq<Block>, i: nat, size: nat): (r: seq<Block>)
    requires i < |bs| && bs[i].size >= size
    ensures |r| == |bs| || |r| == |bs| + 1
    ensures r[..i] == bs[..i] && r[i].isFree == bs[i].isFree && r[i].magic == bs[i].magic
    ensures Span(r) == Span(bs) && UsedBytes(r) == UsedBytes(bs) - (if bs[i].isFree then 0 else bs[i].size - r[i].size)
    ensures Aligned(bs) && size % 8 == 0 ==> Aligned(r)
    ensures Intact(bs) ==> Intact(r)
    ensures bs[i].size > size + H + SPLIT_SLACK ==>
      (|r| == |bs| + 1 && r[i].size == size
       && r[i + 1] == Block(bs[i].size - size - H, true, BLOCK_MAGIC) && r[i + 2..] == bs[i + 1..])
    ensures bs[i].size <= size + H + SPLIT_SLACK ==> r == bs
  {
    var b := bs[i];
    if b.size > size + H + SPLIT_SLACK then
      var parts := SplitParts(b, size);
      SplitTotals(bs, i, size);
      SpliceIndex(bs, i, 1, parts);
      SpliceKeeps(bs, i, 1, parts);
      SumAligned(b.size, size);
      Splice(bs, i, 1, parts)
    else bs
  }

  lemma SplitTotals(bs: seq<Block>, i: nat, size: nat)
    requires i < |bs| && bs[i].size > size + H
    ensures var r := Splice(bs, i, 1, SplitParts(bs[i], size));
      && Span(r) == Span(bs)
      && UsedBytes(r) == UsedBytes(bs) - (if bs[i].isFree then 0 else bs[i].size - size)
  {
    var parts := SplitParts(bs[i], size);
    SpliceTotals(bs, i, 1, parts);
    assert bs[i..i + 1] == [bs[i]];
    SmallSpans(parts[0], parts[1]);
    SmallSpans(bs[i], bs[i]);
  }

  /** The two blocks a split leaves in place of `b`: the request, and a
      free tail behind a new header. */
  function SplitParts(b: Block, size: nat): (parts: seq<Block>)
    requires b.size > size + H
  {
    [b.(size := size), Block(b.size - size - H, true, BLOCK_MAGIC)]
  }

  // ---------------------------------------------------------------------
  // Replacing a run of blocks
  // ---------------------------------------------------------------------

  /** The list with the `k` blocks from index `i` on replaced by `parts`. */
  function Splice(bs: seq<Block>, i: nat, k: nat, parts: seq<Block>): seq<Block>
    requires i + k <= |bs|
  {
    bs[..i] + parts + bs[i + k..]
  }

  /** Span and used bytes move by exactly what was taken out and put in. */
  lemma SpliceTotals(bs: seq<Block>, i: nat, k: nat, parts: seq<Block>)
    requires i + k <= |bs|
    ensures Span(Splice(bs, i, k, parts)) + Span(bs[i..i + k]) == Span(bs) + Span(parts)
    ensures UsedBytes(Splice(bs, i, k, parts)) + UsedBytes(bs[i..i + k]) == UsedBytes(bs) + UsedBytes(parts)
  {
    var pre, mid, post := bs[..i], bs[i..i + k], bs[i + k..];
    assert bs == pre + mid + post;
    SpanAppend(pre + mid, post);
    SpanAppend(pre, mid);
    SpanAppend(pre + parts, post);
    SpanAppend(pre, parts);
    UsedAppend(pre + mid, post);
    UsedAppend(pre, mid);
    UsedAppend(pre + parts, post);
    UsedAppend(pre, parts);
  }

  /** Where each block of the spliced list comes from. */
  lemma SpliceIndex(bs: seq<Block>, i: nat, k: nat, parts: seq<Block>)
    requires i + k <= |bs|
    ensures var r := Splice(bs, i, k, parts);
      && |r| == |bs| - k + |parts|
      && r[..i] == bs[..i] && r[i..i + |parts|] == parts && r[i + |parts|..] == bs[i + k..]
      && (forall j :: 0 <= j < i ==> r[j] == bs[j])
      && (forall j :: 0 <= j < |parts| ==> r[i + j] == parts[j])
      && (forall j :: i + k <= j < |bs| ==> r[j - k + |parts|] == bs[j])
  {
  }

  /** Splicing in aligned (intact) blocks keeps the list aligned (intact). */
  lemma SpliceKeeps(bs: seq<Block>, i: nat, k: nat, parts: seq<Block>)
    requires i + k <= |bs|
    ensures Aligned(bs) && Aligned(parts) ==> Aligned(Splice(bs, i, k, parts))
    ensures Intact(bs) && Intact(parts) ==> Intact(Splice(bs, i, k, parts))
  {
    SpliceIndex(bs, i, k, parts);
    var r := Splice(bs, i, k, parts);
    forall j | 0 <= j < |r|
      ensures (Aligned(bs) && Aligned(parts) ==> r[j].size % 8 == 0)
      ensures (Intact(bs) && Intact(parts) ==> r[j].magic == BLOCK_MAGIC)
    {
      if j < i {
      } else if j < i + |parts| {
        assert r[i + (j - i)] == parts[j - i];
      } else {
        assert r[(j + k - |parts|) - k + |parts|] == bs[j + k - |parts|];
      }
    }
  }

  /** Span and used bytes of one and of two blocks. */
  lemma SmallSpans(a: Block, b: Block)
    ensures Span([a]) == H + a.size && Span([a, b]) == 2 * H + a.size + b.size
    ensures UsedBytes([a]) == Used(a) && UsedBytes([a, b]) == Used(a) + Used(b)
  {
    assert [a, b][1..] == [b] && [b][1..] == [] && [a][1..] == [];
  }

  /** Payload bytes a block holds in use. */
  function Used(b: Block): nat
  {
    if b.isFree then 0 else b.size
  }

  /** Overwriting one block is splicing in one block. */
  lemma UpdateIsSplice(bs: seq<Block>, i: nat, b: Block)
    requires i < |bs|
    ensures bs[i := b] == Splice(bs, i, 1, [b]) && bs[i..i + 1] == [bs[i]]
  {
  }

  /** `merge_free_blocks` from block `c` on: two free neighbours become one
      block (the second header's bytes join the payload) and the walk stays
      put; otherwise it moves on.  A header without the magic, at the
      current block or the next, stops the walk. */
  function MergeFrom(bs: seq<Block>, c: nat): (r: seq<Block>)
    requires c < |bs|
    ensures Span(r) == Span(bs) && UsedBytes(r) == UsedBytes(bs) && c < |r| <= |bs|
    ensures Aligned(bs) ==> Aligned(r)
    ensures Intact(bs) ==> Intact(r)
    ensures Intact(bs) && CoalescedBelow(bs, c) ==> Coalesced(r)
    decreases |bs|, |bs| - c
  {
    if c + 1 >= |bs| then bs
    else if bs[c].magic != BLOCK_MAGIC || bs[c + 1].magic != BLOCK_MAGIC then bs
    else if bs[c].isFree && bs[c + 1].isFree then
      MergeStep(bs, c);
      MergeFrom(Merged(bs, c), c)
    else
      MergeFrom(bs, c + 1)
  }

  /** Blocks `c` and `c + 1` as one block: the second header becomes payload. */
  function Merged(bs: seq<Block>, c: nat): seq<Block>
    requires c + 1 < |bs|
  {
    Splice(bs, c, 2, [bs[c].(size := bs[c].size + H + bs[c + 1].size)])
  }

  lemma MergeStep(bs: seq<Block>, c: nat)
    requires c + 1 < |bs| && bs[c].isFree && bs[c + 1].isFree
    ensures Span(Merged(bs, c)) == Span(bs) && UsedBytes(Merged(bs, c)) == UsedBytes(bs)
    ensures |Merged(bs, c)| == |bs| - 1
    ensures Aligned(bs) ==> Aligned(Merged(bs, c))
    ensures Intact(bs) ==> Intact(Merged(bs, c))
    ensures CoalescedBelow(bs, c) ==> CoalescedBelow(Merged(bs, c), c)
  {
    MergeTotals(bs, c);
    MergeKeeps(bs, c);
    var b := bs[c].(size := bs[c].size + H + bs[c + 1].size);
    SpliceIndex(bs, c, 2, [b]);
  }

  lemma MergeKeeps(bs: seq<Block>, c: nat)
    requires c + 1 < |bs|
    ensures Aligned(bs) ==> Aligned(Merged(bs, c))
    ensures Intact(bs) ==> Intact(Merged(bs, c))
  {
    var b := bs[c].(size := bs[c].size + H + bs[c + 1].size);
    SpliceKeeps(bs, c, 2, [b]);
    SumAligned(bs[c].size, bs[c + 1].size);
  }

  lemma MergeTotals(bs: seq<Block>, c: nat)
    requires c + 1 < |bs| && bs[c].isFree && bs[c + 1].isFree
    ensures Span(Merged(bs, c)) == Span(bs) && UsedBytes(Merged(bs, c)) == UsedBytes(bs)
  {
    var b := bs[c].(size := bs[c].size + H + bs[c + 1].size);
    assert bs[c..c + 2] == [bs[c], bs[c + 1]];
    SpliceTotals(bs, c, 2, [b]);
    SmallSpans(bs[c], bs[c + 1]);
    SmallSpans(b, b);
  }

  /** Sizes that are multiples of 8 stay so when a header joins them or
      is cut from them. */
  lemma SumAligned(x: nat, y: nat)
    ensures x % 8 == 0 && y % 8 == 0 ==> (x + H + y) % 8 == 0
    ensures x % 8 == 0 && y % 8 == 0 && x >= y + H ==> (x - y - H) % 8 == 0
  {
    if x % 8 == 0 && y % 8 == 0 {
      var a, b := x / 8, y / 8;
      assert x == 8 * a && y == 8 * b;
      assert x + H + y == 8 * (a + b + 2);
      if x >= y + H {
        assert x - y - H == 8 * (a - b - 2);
      }
    }
  }

  /** `merge_free_blocks`: the walk from the first block. */
  function MergeFreeBlocks(bs: seq<Block>): (r: seq<Block>)
    requires |bs| >= 1
    ensures Span(r) == Span(bs) && UsedBytes(r) == UsedBytes(bs) && 1 <= |r| <= |bs|
    ensures Aligned(bs) ==> Aligned(r)
    ensures Intact(bs) ==> Intact(r) && Coalesced(r)
  {
    MergeFrom(bs, 0)
  }

  /** A block in use is never merged: the walk keeps it, at its address. */
  lemma {:induction false} MergeKeepsInUse(bs: seq<Block>, c: nat, j: nat) returns (k: nat)
    requires c < |bs| && j < |bs| && !bs[j].isFree
    ensures k < |MergeFrom(bs, c)| && MergeFrom(bs, c)[k] == bs[j]
    ensures Payload(MergeFrom(bs, c), k) == Payload(bs, j)
    decreases |bs|, |bs| - c
  {
    if c + 1 >= |bs| || bs[c].magic != BLOCK_MAGIC || bs[c + 1].magic != BLOCK_MAGIC {
      k := j;
    } else if bs[c].isFree && bs[c + 1].isFree {
      MergeStep(bs, c);
      var j' := if j < c then j else j - 1;
      MergedKeeps(bs, c, j);
      k := MergeKeepsInUse(Merged(bs, c), c, j');
    } else {
      k := MergeKeepsInUse(bs, c + 1, j);
    }
  }

  /** Merging blocks `c` and `c + 1` leaves every other block at its
      address, one index down when it lies beyond them. */
  lemma MergedKeeps(bs: seq<Block>, c: nat, j: nat)
    requires c + 1 < |bs| && j < |bs| && j != c && j != c + 1
    ensures var m := Merged(bs, c); var j' := if j < c then j else j - 1;
      j' < |m| && m[j'] == bs[j] && Payload(m, j') == Payload(bs, j)
  {
    var b := bs[c].(size := bs[c].size + H + bs[c + 1].size);
    var m := Merged(bs, c);
    if j < c {
      assert m[..j] == bs[..j] && m[j] == bs[j] by {
        SpliceIndex(bs, c, 2, [b]);
        assert m[..j] == m[..c][..j] && bs[..j] == bs[..c][..j];
      }
    } else {
      assert m[j - 1] == bs[j] by {
        SpliceIndex(bs, c, 2, [b]);
        assert m[j - 2 + 1] == bs[j];
      }
      MergedShift(bs, c, j);
    }
  }

  /** After a merge, a later block keeps its payload address one index down. */
  lemma MergedShift(bs: seq<Block>, c: nat, j: nat)
    requires c + 1 < j < |bs|
    ensures Payload(Merged(bs, c), j - 1) == Payload(bs, j)
  {
    var b := bs[c].(size := bs[c].size + H + bs[c + 1].size);
    var pre := bs[..j];
    SplicePrefix(bs, c, 2, [b], j);
    SpliceTotals(pre, c, 2, [b]);
    assert pre[c..c + 2] == [bs[c], bs[c + 1]];
    SmallSpans(bs[c], bs[c + 1]);
    SmallSpans(b, b);
  }

  /** `merge_free_blocks` keeps every block in use, at its address. */
  lemma InUseSurvivesMerge(bs: seq<Block>, j: nat)
    requires j < |bs| && !bs[j].isFree
    ensures BlockAt(MergeFreeBlocks(bs), Payload(bs, j)).Some?
    ensures MergeFreeBlocks(bs)[BlockAt(MergeFreeBlocks(bs), Payload(bs, j)).value] == bs[j]
  {
    var k := MergeKeepsInUse(bs, 0, j);
    BlockAtPayload(MergeFreeBlocks(bs), k);
  }

  // ---------------------------------------------------------------------
  // Pointers
  // ---------------------------------------------------------------------

  /** The block whose payload starts at `p`, if any. */
  function BlockAt(bs: seq<Block>, p: int): (r: Option<nat>)
    ensures r.Some? ==> r.value < |bs| && Payload(bs, r.value) == p
    ensures r.None? ==> forall i :: 0 <= i < |bs| ==> Payload(bs, i) != p
    decreases |bs|
  {
    if bs == [] then None
    else if p == H then
      assert bs[..0] == [];
      Some(0)
    else
      var rest := BlockAt(bs[1..], p - H - bs[0].size);
      PayloadShift(bs);
      if rest.Some? then Some(rest.value + 1)
      else
        assert Payload(bs, 0) == H by { assert bs[..0] == []; }
        None
  }

  lemma PayloadShift(bs: seq<Block>)
    requires bs != []
    ensures forall i :: 0 < i < |bs| ==> Payload(bs, i) == H + bs[0].size + Payload(bs[1..], i - 1)
  {
    forall i | 0 < i < |bs|
      ensures Payload(bs, i) == H + bs[0].size + Payload(bs[1..], i - 1)
    {
      assert bs[..i][1..] == bs[1..][..i - 1];
    }
  }

  /** Payload addresses are spaced by header plus payload, so every block
      sits at its own address. */
  lemma {:induction false} PayloadsIncrease(bs: seq<Block>, i: nat, j: nat)
    requires i < j < |bs|
    ensures Payload(bs, i) + H + bs[i].size <= Payload(bs, j)
  {
    assert bs[..j] == bs[..i] + [bs[i]] + bs[i + 1..j];
    SpanAppend(bs[..i] + [bs[i]], bs[i + 1..j]);
    SpanAppend(bs[..i], [bs[i]]);
    assert [bs[i]][1..] == [];
  }

  // ---------------------------------------------------------------------
  // malloc, free, realloc
  // ---------------------------------------------------------------------

  /** The request rounded as `(size + 7) & ~7` in 32-bit size_t arithmetic. */
  function Align(size: nat): (a: nat)
    requires size < UINT_MOD
    ensures a % 8 == 0 && a < UINT_MOD
  {
    var s := (size + 7) % UINT_MOD;
    s - s % 8
  }

  /** Below the wrap-around, Align gives the least multiple of 8 not below
      the request; the last seven size_t values wrap to 0. */
  lemma AlignRoundsUp(size: nat)
    requires size < UINT_MOD
    ensures size <= UINT_MOD - 8 ==> size <= Align(size) < size + 8
    ensures size > UINT_MOD - 8 ==> Align(size) == 0
  {
  }

  datatype Allocation = Allocation(heap: Heap, ptr: Option<nat>)

  /** `malloc`: NULL for a zero request or when no block fits (the heap is
      then unchanged); otherwise the first fitting block is split if it has
      room to spare, marked in use, and its payload size is taken off
      free_memory. */
  function Malloc(h: Heap, size: nat): (r: Allocation)
    requires Valid(h) && size < UINT_MOD
    ensures Valid(r.heap)
    ensures r.ptr.None? ==> r.heap == h
    ensures size == 0 ==> r.ptr.None?
    ensures Accounted(h) ==> Accounted(r.heap)
    ensures Intact(h.blocks) ==> Intact(r.heap.blocks)
    ensures r.ptr.Some? <==> size > 0 && FindFreeBlock(h.blocks, Align(size)).Some?
    ensures r.ptr.Some? ==>
      var i := FindFreeBlock(h.blocks, Align(size)).value;
      && BlockAt(r.heap.blocks, r.ptr.value) == Some(i)
      && r.ptr.value == Payload(h.blocks, i)
      && !r.heap.blocks[i].isFree && r.heap.blocks[i].size >= Align(size)
      && r.heap.freeMemory == (h.freeMemory - r.heap.blocks[i].size) % UINT_MOD
      && UsedBytes(r.heap.blocks) == UsedBytes(h.blocks) + r.heap.blocks[i].size
  {
    if size == 0 then Allocation(h, None)
    else
      var req := Align(size);
      var found := FindFreeBlock(h.blocks, req);
      if found.None? then Allocation(h, None)
      else
        Allocation(TakeBlock(h, found.value, req), Some(Payload(h.blocks, found.value)))
  }

  /** The second half of `malloc` once block `i` has been found: split it,
      mark it in use and charge its final size to free_memory. */
  function TakeBlock(h: Heap, i: nat, req: nat): (h': Heap)
    requires Valid(h) && i < |h.blocks| && Fits(h.blocks[i], req) && req % 8 == 0
    ensures Valid(h') && (Accounted(h) ==> Accounted(h'))
    ensures Intact(h.blocks) && h.blocks[i].magic == BLOCK_MAGIC ==> Intact(h'.blocks)
    ensures BlockAt(h'.blocks, Payload(h.blocks, i)) == Some(i)
    ensures !h'.blocks[i].isFree && h'.blocks[i].size >= req
    ensures h'.freeMemory == (h.freeMemory - h'.blocks[i].size) % UINT_MOD
    ensures UsedBytes(h'.blocks) == UsedBytes(h.blocks) + h'.blocks[i].size
  {
    var split := SplitBlock(h.blocks, i, req);
    var bs := split[i := split[i].(isFree := false)];
    TakeAccounts(h, split, i);
    TakeAddress(h.blocks, split, i);
    Heap(bs, (h.freeMemory - split[i].size) % UINT_MOD)
  }

  /** Marking the (possibly split) block in use keeps the heap valid and
      the account balanced. */
  lemma TakeAccounts(h: Heap, split: seq<Block>, i: nat)
    requires Valid(h) && i < |split| && split[i].isFree && Span(split) == Span(h.blocks)
    requires Aligned(split) && UsedBytes(split) == UsedBytes(h.blocks)
    ensures var h' := Heap(split[i := split[i].(isFree := false)], (h.freeMemory - split[i].size) % UINT_MOD);
      && Valid(h') && (Accounted(h) ==> Accounted(h'))
      && UsedBytes(h'.blocks) == UsedBytes(h.blocks) + split[i].size
  {
    var bs := split[i := split[i].(isFree := false)];
    MarkUsed(split, i);
    UsedWithinSpan(bs);
    Charge(h.freeMemory, UsedBytes(split), split[i].size);
  }

  /** The block taken keeps the payload address it was found at. */
  lemma TakeAddress(bs: seq<Block>, split: seq<Block>, i: nat)
    requires i < |bs| && i < |split| && split[..i] == bs[..i]
    ensures BlockAt(split[i := split[i].(isFree := false)], Payload(bs, i)) == Some(i)
  {
    var marked := split[i := split[i].(isFree := false)];
    assert marked[..i] == split[..i];
    BlockAtPayload(marked, i);
  }

  /** Charging `s` bytes to free_memory keeps the account when they fit. */
  lemma Charge(f: nat, u: nat, s: nat)
    ensures f + u == HEAP_SIZE - H && u + s <= HEAP_SIZE - H ==> (f - s) % UINT_MOD + u + s == HEAP_SIZE - H
  {
  }

  /** Giving `s` used bytes back to free_memory keeps the account. */
  lemma Release(f: nat, u: nat, s: nat)
    ensures f + u == HEAP_SIZE - H && s <= u ==> (f + s) % UINT_MOD + (u - s) == HEAP_SIZE - H
  {
  }

  lemma MarkUsed(bs: seq<Block>, i: nat)
    requires i < |bs| && bs[i].isFree
    ensures var marked := bs[i := bs[i].(isFree := false)];
      && Span(marked) == Span(bs) && UsedBytes(marked) == UsedBytes(bs) + bs[i].size
      && (Aligned(bs) ==> Aligned(marked)) && (Intact(bs) ==> Intact(marked))
  {
    var b := bs[i].(isFree := false);
    UpdateIsSplice(bs, i, b);
    SpliceTotals(bs, i, 1, [b]);
    SmallSpans(bs[i], b);
    SmallSpans(b, b);
  }

  /** Marking a block free keeps the layout and releases what it held. */
  lemma MarkFree(bs: seq<Block>, i: nat)
    requires i < |bs|
    ensures var marked := bs[i := bs[i].(isFree := true)];
      && Span(marked) == Span(bs) && UsedBytes(marked) + Used(bs[i]) == UsedBytes(bs)
      && (Aligned(bs) ==> Aligned(marked)) && (Intact(bs) ==> Intact(marked))
  {
    var b := bs[i].(isFree := true);
    UpdateIsSplice(bs, i, b);
    SpliceTotals(bs, i, 1, [b]);
    SmallSpans(bs[i], b);
    SmallSpans(b, b);
  }

  lemma BlockAtPayload(bs: seq<Block>, i: nat)
    requires i < |bs|
    ensures BlockAt(bs, Payload(bs, i)) == Some(i)
  {
    var r := BlockAt(bs, Payload(bs, i));
    if r.Some? && r.value != i {
      if r.value < i {
        PayloadsIncrease(bs, r.value, i);
      } else {
        PayloadsIncrease(bs, i, r.value);
      }
    }
  }

  /** `free`: NULL and headers without the magic are ignored; otherwise
      the block is marked free, its size is added back to free_memory and
      free neighbours are merged.  A pointer that is neither NULL nor the
      payload of a current block would make C read an arbitrary header. */
  function Free(h: Heap, ptr: Option<nat>): (h': Heap)
    requires Valid(h)
    requires ptr.Some? ==> BlockAt(h.blocks, ptr.value).Some?
    ensures Valid(h')
    ensures ptr.None? ==> h' == h
    ensures ptr.Some? ==> var i := BlockAt(h.blocks, ptr.value).value;
      && (h.blocks[i].magic != BLOCK_MAGIC ==> h' == h)
      && (h.blocks[i].magic == BLOCK_MAGIC ==>
            h'.freeMemory == (h.freeMemory + h.blocks[i].size) % UINT_MOD
            && (!h.blocks[i].isFree ==> UsedBytes(h'.blocks) + h.blocks[i].size == UsedBytes(h.blocks))
            && (!h.blocks[i].isFree && Accounted(h) ==> Accounted(h'))
            && (Intact(h.blocks) ==> Intact(h'.blocks) && Coalesced(h'.blocks)))
  {
    if ptr.None? then h
    else
      var i := BlockAt(h.blocks, ptr.value).value;
      if h.blocks[i].magic != BLOCK_MAGIC then h
      else
        var marked := h.blocks[i := h.blocks[i].(isFree := true)];
        FreeAccounts(h, i);
        Heap(MergeFreeBlocks(marked), (h.freeMemory + h.blocks[i].size) % UINT_MOD)
  }

  /** Marking block `i` free and merging keeps the heap valid and gives
      back what the block held. */
  lemma FreeAccounts(h: Heap, i: nat)
    requires Valid(h) && i < |h.blocks|
    ensures var merged := MergeFreeBlocks(h.blocks[i := h.blocks[i].(isFree := true)]);
      var h' := Heap(merged, (h.freeMemory + h.blocks[i].size) % UINT_MOD);
      && Valid(h')
      && UsedBytes(merged) + Used(h.blocks[i]) == UsedBytes(h.blocks)
      && (!h.blocks[i].isFree && Accounted(h) ==> Accounted(h'))
      && (Intact(h.blocks) ==> Intact(merged) && Coalesced(merged))
  {
    MarkFree(h.blocks, i);
    Release(h.freeMemory, UsedBytes(h.blocks), h.blocks[i].size);
  }

  /** Freeing one block leaves every other block in use where it was:
      its payload address still names it. */
  lemma FreeKeepsLive(h: Heap, ptr: nat, j: nat)
    requires Valid(h) && BlockAt(h.blocks, ptr).Some?
    requires j < |h.blocks| && j != BlockAt(h.blocks, ptr).value && !h.blocks[j].isFree
    ensures BlockAt(Free(h, Some(ptr)).blocks, Payload(h.blocks, j)).Some?
    ensures Free(h, Some(ptr)).blocks[BlockAt(Free(h, Some(ptr)).blocks, Payload(h.blocks, j)).value] == h.blocks[j]
  {
    var i := BlockAt(h.blocks, ptr).value;
    if h.blocks[i].magic != BLOCK_MAGIC {
      BlockAtPayload(h.blocks, j);
    } else {
      var marked := h.blocks[i := h.blocks[i].(isFree := true)];
      assert Payload(marked, j) == Payload(h.blocks, j) by { SameSizes(h.blocks, marked); }
      InUseSurvivesMerge(marked, j);
    }
  }

  /** What realloc hands back: the heap, the pointer, and how many bytes
      it copied from the old block. */
  datatype Reallocation = Reallocation(heap: Heap, ptr: Option<nat>, copied: nat)

  /** `realloc`: NULL behaves as malloc, size 0 as free (returning NULL), a
      header without the magic gives NULL, a block already large enough is
      kept, and otherwise a new block is allocated, the old payload copied
      and the old block freed; if that allocation fails nothing changes. */
  function Realloc(h: Heap, ptr: Option<nat>, size: nat): (r: Reallocation)
    requires Valid(h) && size < UINT_MOD
    requires ptr.Some? ==> BlockAt(h.blocks, ptr.value).Some?
    ensures Valid(r.heap)
    ensures ptr.None? ==> r.heap == Malloc(h, size).heap && r.ptr == Malloc(h, size).ptr && r.copied == 0
    ensures ptr.Some? && size == 0 ==> r.heap == Free(h, ptr) && r.ptr.None?
    ensures ptr.Some? && size > 0 ==> var b := h.blocks[BlockAt(h.blocks, ptr.value).value];
      && (b.magic != BLOCK_MAGIC ==> r == Reallocation(h, None, 0))
      && (b.magic == BLOCK_MAGIC && b.size >= size ==> r == Reallocation(h, ptr, 0))
      && (b.magic == BLOCK_MAGIC && b.size < size && r.ptr.Some? ==>
            && r.copied == b.size && r.ptr == Malloc(h, size).ptr && (!b.isFree ==> r.ptr != ptr)
            && BlockAt(Malloc(h, size).heap.blocks, ptr.value).Some?
            && r.heap == Free(Malloc(h, size).heap, ptr))
      && (b.magic == BLOCK_MAGIC && b.size < size && r.ptr.None? ==> r.heap == h)
    ensures Accounted(h) && (ptr.Some? ==> !h.blocks[BlockAt(h.blocks, ptr.value).value].isFree) ==> Accounted(r.heap)
    ensures r.ptr.Some? && size <= UINT_MOD - 8 && (ptr.Some? ==> !h.blocks[BlockAt(h.blocks, ptr.value).value].isFree) ==>
      Live(r.heap, r.ptr.value, size)
  {
    if ptr.None? then
      var a := Malloc(h, size);
      AlignRoundsUp(size);
      Reallocation(a.heap, a.ptr, 0)
    else if size == 0 then
      Reallocation(Free(h, ptr), None, 0)
    else
      var i := BlockAt(h.blocks, ptr.value).value;
      var b := h.blocks[i];
      if b.magic != BLOCK_MAGIC then Reallocation(h, None, 0)
      else if b.size >= size then Reallocation(h, ptr, 0)
      else
        var a := Malloc(h, size);
        if a.ptr.None? then Reallocation(h, None, 0)
        else
          assert !b.isFree ==> a.ptr.value != ptr.value by {
            var j := FindFreeBlock(h.blocks, Align(size)).value;
            if !b.isFree {
              if j < i { PayloadsIncrease(h.blocks, j, i); } else if j > i { PayloadsIncrease(h.blocks, i, j); }
            }
          }
          OldBlockSurvives(h, FindFreeBlock(h.blocks, Align(size)).value, Align(size), i);
          assert !b.isFree && size <= UINT_MOD - 8 ==> Live(Free(a.heap, ptr), a.ptr.value, size) by {
            if !b.isFree && size <= UINT_MOD - 8 { ReallocMoves(h, ptr.value, size); }
          }
          Reallocation(Free(a.heap, ptr), a.ptr, b.size)
  }

  /** `p` is the payload address of a block in use with room for `size` bytes. */
  predicate Live(h: Heap, p: nat, size: nat)
  {
    var k := BlockAt(h.blocks, p); k.Some? && !h.blocks[k.value].isFree && h.blocks[k.value].size >= size
  }

  /** When realloc moves a live block, the pointer it returns names a
      block in use, large enough, after the old block has been freed. */
  lemma ReallocMoves(h: Heap, ptr: nat, size: nat)
    requires Valid(h) && 0 < size <= UINT_MOD - 8 && BlockAt(h.blocks, ptr).Some?
    requires !h.blocks[BlockAt(h.blocks, ptr).value].isFree
    requires Malloc(h, size).ptr.Some?
    requires BlockAt(Malloc(h, size).heap.blocks, ptr).Some?
    ensures Live(Free(Malloc(h, size).heap, Some(ptr)), Malloc(h, size).ptr.value, size)
  {
    var a := Malloc(h, size);
    var i := BlockAt(h.blocks, ptr).value;
    var j := FindFreeBlock(h.blocks, Align(size)).value;
    AlignRoundsUp(size);
    assert j != i;
    assert a.ptr.value != ptr by {
      if j < i { PayloadsIncrease(h.blocks, j, i); } else { PayloadsIncrease(h.blocks, i, j); }
    }
    FreeKeepsLive(a.heap, ptr, j);
  }

  /** Freeing the block malloc just handed out gives back exactly what it
      took from free_memory. */
  lemma MallocThenFree(h: Heap, size: nat)
    requires Valid(h) && Accounted(h) && Intact(h.blocks) && size < UINT_MOD
    requires Malloc(h, size).ptr.Some?
    ensures var a := Malloc(h, size);
      && BlockAt(a.heap.blocks, a.ptr.value).Some?
      && var h' := Free(a.heap, a.ptr);
      && h'.freeMemory == h.freeMemory
      && UsedBytes(h'.blocks) == UsedBytes(h.blocks)
      && Accounted(h') && Intact(h'.blocks) && Coalesced(h'.blocks)
  {
  }

  /** Allocating never moves a block's address, so the old pointer still
      names a block after the new allocation. */
  lemma OldBlockSurvives(h: Heap, j: nat, req: nat, i: nat)
    requires Valid(h) && j < |h.blocks| && Fits(h.blocks[j], req) && req % 8 == 0 && i < |h.blocks|
    ensures BlockAt(TakeBlock(h, j, req).blocks, Payload(h.blocks, i)).Some?
    ensures j != i ==>
      TakeBlock(h, j, req).blocks[BlockAt(TakeBlock(h, j, req).blocks, Payload(h.blocks, i)).value] == h.blocks[i]
  {
    var split := SplitBlock(h.blocks, j, req);
    var bs := split[j := split[j].(isFree := false)];
    assert TakeBlock(h, j, req).blocks == bs;
    var k := FoundAgain(h.blocks, split, bs, j, req, i);
  }

  /** Where block `i` of `bs` sits once block `j` has been split and
      marked in use. */
  lemma FoundAgain(bs: seq<Block>, split: seq<Block>, marked: seq<Block>, j: nat, req: nat, i: nat)
    returns (k: nat)
    requires j < |bs| && bs[j].size >= req && i < |bs|
    requires split == SplitBlock(bs, j, req) && marked == split[j := split[j].(isFree := false)]
    ensures BlockAt(marked, Payload(bs, i)) == Some(k)
    ensures j != i ==> k < |marked| && marked[k] == bs[i]
  {
    SameSizes(split, marked);
    if bs[j].size > req + H + SPLIT_SLACK && i > j {
      FoundAfterSplit(bs, split, marked, j, req, i);
      k := i + 1;
    } else {
      FoundInPlace(bs, split, marked, j, req, i);
      k := i;
    }
  }

  /** Blocks up to the one taken, or all of them when nothing was split,
      keep their index. */
  lemma FoundInPlace(bs: seq<Block>, split: seq<Block>, marked: seq<Block>, j: nat, req: nat, i: nat)
    requires j < |bs| && bs[j].size >= req && i < |bs|
    requires split == SplitBlock(bs, j, req) && marked == split[j := split[j].(isFree := false)]
    requires bs[j].size <= req + H + SPLIT_SLACK || i <= j
    requires forall n :: 0 <= n < |split| ==> Payload(split, n) == Payload(marked, n)
    ensures BlockAt(marked, Payload(bs, i)) == Some(i)
    ensures j != i ==> i < |marked| && marked[i] == bs[i]
  {
    if bs[j].size <= req + H + SPLIT_SLACK {
      assert split == bs;
    } else {
      assert split[..i] == bs[..i] by {
        assert split[..j][..i] == split[..i] && bs[..j][..i] == bs[..i];
      }
      if i < j {
        assert marked[i] == split[i] == split[..j][i];
      }
    }
    assert Payload(marked, i) == Payload(bs, i);
    BlockAtPayload(marked, i);
  }

  /** Blocks after a split one move one index on. */
  lemma FoundAfterSplit(bs: seq<Block>, split: seq<Block>, marked: seq<Block>, j: nat, req: nat, i: nat)
    requires j < i < |bs| && bs[j].size > req + H
    requires split == Splice(bs, j, 1, SplitParts(bs[j], req))
    requires |marked| == |split| && marked[i + 1] == split[i + 1]
    requires Payload(split, i + 1) == Payload(marked, i + 1)
    ensures BlockAt(marked, Payload(bs, i)) == Some(i + 1)
    ensures marked[i + 1] == bs[i]
  {
    assert Payload(marked, i + 1) == Payload(bs, i) by { SplitShift(bs, j, req, i); }
    BlockAtPayload(marked, i + 1);
    assert split[i - 1 + 2] == bs[i] by { SpliceIndex(bs, j, 1, SplitParts(bs[j], req)); }
  }

  /** Payload addresses depend on the sizes alone, not on the flags. */
  lemma {:induction false} SameSizes(a: seq<Block>, b: seq<Block>)
    requires |a| == |b| && forall k :: 0 <= k < |a| ==> a[k].size == b[k].size
    ensures Span(a) == Span(b)
    ensures forall i :: 0 <= i < |a| ==> Payload(a, i) == Payload(b, i)
    decreases |a|
  {
    if a != [] {
      SameSizes(a[1..], b[1..]);
    }
    forall i | 0 <= i < |a|
      ensures Span(a[..i]) == Span(b[..i])
    {
      SameSizesPrefix(a, b, i);
    }
  }

  lemma {:induction false} SameSizesPrefix(a: seq<Block>, b: seq<Block>, i: nat)
    requires |a| == |b| && i <= |a| && forall k :: 0 <= k < |a| ==> a[k].size == b[k].size
    ensures Span(a[..i]) == Span(b[..i])
    decreases i
  {
    if i > 0 {
      assert a[..i][1..] == a[1..][..i - 1];
      assert b[..i][1..] == b[1..][..i - 1];
      SameSizesPrefix(a[1..], b[1..], i - 1);
    }
  }

  /** After a split, a later block keeps its payload address one index on. */
  lemma SplitShift(bs: seq<Block>, j: nat, size: nat, i: nat)
    requires j < i < |bs| && bs[j].size > size + H
    ensures Payload(Splice(bs, j, 1, SplitParts(bs[j], size)), i + 1) == Payload(bs, i)
  {
    var parts := SplitParts(bs[j], size);
    var pre := bs[..i];
    SplicePrefix(bs, j, 1, parts, i);
    SpliceTotals(pre, j, 1, parts);
    assert pre[j..j + 1] == [bs[j]];
    SmallSpans(parts[0], parts[1]);
    SmallSpans(bs[j], bs[j]);
  }

  /** A prefix of a spliced list that reaches past the splice is the
      splice of the prefix. */
  lemma SplicePrefix(bs: seq<Block>, i: nat, k: nat, parts: seq<Block>, n: nat)
    requires i + k <= n <= |bs|
    ensures Splice(bs, i, k, parts)[..n - k + |parts|] == Splice(bs[..n], i, k, parts)
  {
    assert bs[..n][..i] == bs[..i] && bs[..n][i + k..] == bs[i + k..n];
  }

  // ---------------------------------------------------------------------
  // Statistics and integrity
  // ---------------------------------------------------------------------

  datatype Stats = Stats(total: nat, used: nat, free: nat)

  /** `memory_get_stats`: the total never changes, and "used" is the
      size_t difference total - free_memory (which counts the first header). */
  function GetStats(h: Heap): (s: Stats)
    requires Valid(h)
    ensures s.total == HEAP_SIZE && s.free == h.freeMemory
    ensures Accounted(h) ==> s.used == UsedBytes(h.blocks) + H
  {
    Stats(HEAP_SIZE, (HEAP_SIZE - h.freeMemory) % UINT_MOD, h.freeMemory)
  }

  /** `memory_check_integrity`: the walk over the whole list. */
  method CheckIntegrity(h: Heap) returns (ok: bool)
    ensures ok <==> Intact(h.blocks)
  {
    var i := 0;
    while i < |h.blocks|
      invariant i <= |h.blocks|
      invariant forall j :: 0 <= j < i ==> h.blocks[j].magic == BLOCK_MAGIC
    {
      if h.blocks[i].magic != BLOCK_MAGIC {
        return false;
      }
      i := i + 1;
    }
    return true;
  }
}

=== FILE: keyboard.dfy ===
/** The kernel-mode keyboard driver: a 256-slot ring buffer filled from
    scancodes by polling, read one character at a time, and a line editor
    on top of it.  Port reads are replaced by the scancode they return, and
    the characters echoed to the console are not modelled. */
module Keyboard {
  import opened Common

  const BUFFER_SIZE: nat := 256

  const NUL: char := 0 as char
  const BACKSPACE: char := 8 as char
  const ESCAPE: char := 27 as char

  /** The US layout: the character each press scancode below 128 produces,
      NUL for keys that produce none. */
  const LAYOUT: seq<char> := [
      NUL, ESCAPE, '1', '2', '3', '4', '5', '6', '7', '8', '9', '0', '-', '=', BACKSPACE,
      '\t', 'q', 'w', 'e', 'r', 't', 'y', 'u', 'i', 'o', 'p', '[', ']', '\n',
      NUL, 'a', 's', 'd', 'f', 'g', 'h', 'j', 'k', 'l', ';', '\'', '`',
      NUL, '\\', 'z', 'x', 'c', 'v', 'b', 'n', 'm', ',', '.', '/', NUL,
      '*', NUL, ' ', NUL, NUL, NUL, NUL, NUL, NUL, NUL, NUL, NUL, NUL, NUL, NUL, NUL, NUL, NUL, NUL,
      '-', NUL, NUL, NUL, '+', NUL, NUL, NUL, NUL, NUL, NUL, NUL, NUL, NUL, NUL, NUL,
      // the initializer stops at scancode 89; the remaining entries are zero
      NUL, NUL, NUL, NUL, NUL, NUL, NUL, NUL, NUL, NUL, NUL, NUL, NUL, NUL, NUL, NUL, NUL, NUL, NUL,
      NUL, NUL, NUL, NUL, NUL, NUL, NUL, NUL, NUL, NUL, NUL, NUL, NUL, NUL, NUL, NUL, NUL, NUL, NUL
    ]

  // ---------------------------------------------------------------------
  // The ring buffer
  // ---------------------------------------------------------------------

  /** Characters are stored at `head` and taken from `tail`; the buffer is
      empty when they meet, so one slot always stays unused. */
  datatype Ring = Ring(buffer: seq<char>, head: int, tail: int)

  predicate Valid(kb: Ring)
  {
    |kb.buffer| == BUFFER_SIZE && 0 <= kb.head < BUFFER_SIZE && 0 <= kb.tail < BUFFER_SIZE
  }

  /** Number of characters waiting. */
  function Count(kb: Ring): (n: nat)
    requires Valid(kb)
    ensures n < BUFFER_SIZE
  {
    (kb.head - kb.tail) % BUFFER_SIZE
  }

  /** The waiting characters, oldest first: the abstract queue the ring
      buffer represents. */
  function Queued(kb: Ring): (q: seq<char>)
    requires Valid(kb)
    ensures |q| == Count(kb) && |q| <= BUFFER_SIZE - 1
  {
    seq(Count(kb), k => kb.buffer[(kb.tail + k) % BUFFER_SIZE])
  }

  /** `keyboard_init`: both indices at zero; the slots keep whatever they hold. */
  function Init(buffer: seq<char>): (kb: Ring)
    requires |buffer| == BUFFER_SIZE
    ensures Valid(kb) && Queued(kb) == []
  {
    Ring(buffer, 0, 0)
  }

  /** `keyboard_available`. */
  function Available(kb: Ring): (b: bool)
    requires Valid(kb)
    ensures b <==> Queued(kb) != []
  {
    kb.head != kb.tail
  }

  datatype ReadResult = ReadResult(kb: Ring, c: char)

  /** `keyboard_read`: NUL and no change on an empty buffer, otherwise the
      oldest character, which leaves the queue. */
  function Read(kb: Ring): (r: ReadResult)
    requires Valid(kb)
    ensures Valid(r.kb)
    ensures Queued(kb) == [] ==> r == ReadResult(kb, NUL)
    ensures Queued(kb) != [] ==> r.c == Queued(kb)[0] && Queued(r.kb) == Queued(kb)[1..]
  {
    if kb.head == kb.tail then ReadResult(kb, NUL)
    else
      var kb' := kb.(tail := (kb.tail + 1) % BUFFER_SIZE);
      ReadShifts(kb, kb');
      ReadResult(kb', kb.buffer[kb.tail])
  }

  lemma ReadShifts(kb: Ring, kb': Ring)
    requires Valid(kb) && kb.head != kb.tail
    requires kb' == kb.(tail := (kb.tail + 1) % BUFFER_SIZE)
    ensures Valid(kb') && Count(kb') == Count(kb) - 1
    ensures Queued(kb') == Queued(kb)[1..]
  {
    if kb.tail == BUFFER_SIZE - 1 {
      assert kb'.tail == 0;
    } else {
      assert kb'.tail == kb.tail + 1;
    }
    assert Count(kb') == Count(kb) - 1;
    forall k | 0 <= k < Count(kb')
      ensures Queued(kb')[k] == Queued(kb)[k + 1]
    {
      assert (kb'.tail + k) % BUFFER_SIZE == (kb.tail + (k + 1)) % BUFFER_SIZE;
    }
  }

  /** `keyboard_clear_buffer`: drop everything waiting. */
  function ClearBuffer(kb: Ring): (kb': Ring)
    requires Valid(kb)
    ensures Valid(kb') && Queued(kb') == [] && kb'.buffer == kb.buffer
  {
    kb.(head := kb.tail)
  }

  /** The storing half of `keyboard_poll`: the character joins the queue
      unless that would make head catch up with tail. */
  function Enqueue(kb: Ring, c: char): (kb': Ring)
    requires Valid(kb)
    ensures Valid(kb')
    ensures Count(kb) < BUFFER_SIZE - 1 ==> Queued(kb') == Queued(kb) + [c]
    ensures Count(kb) == BUFFER_SIZE - 1 ==> kb' == kb
  {
    var next := (kb.head + 1) % BUFFER_SIZE;
    if next != kb.tail then
      var kb' := kb.(buffer := kb.buffer[kb.head := c], head := next);
      EnqueueAppends(kb, c, kb');
      kb'
    else
      assert Count(kb) == BUFFER_SIZE - 1;
      kb
  }

  lemma EnqueueAppends(kb: Ring, c: char, kb': Ring)
    requires Valid(kb) && (kb.head + 1) % BUFFER_SIZE != kb.tail
    requires kb' == kb.(buffer := kb.buffer[kb.head := c], head := (kb.head + 1) % BUFFER_SIZE)
    ensures Valid(kb') && Count(kb) < BUFFER_SIZE - 1
    ensures Queued(kb') == Queued(kb) + [c]
  {
    var n := Count(kb);
    var t := kb.tail;
    RingDistance(kb.head, t);
    RingDistance(kb'.head, t);
    RingStep(kb.head);
    assert Count(kb') == n + 1;
    RingOffset(t, n);
    forall k | 0 <= k < n
      ensures Queued(kb')[k] == Queued(kb)[k]
    {
      RingOffset(t, k);
    }
    assert Queued(kb')[n] == c;
  }

  /** The distance from `t` forward to `h` around the ring. */
  lemma RingDistance(h: int, t: int)
    requires 0 <= h < BUFFER_SIZE && 0 <= t < BUFFER_SIZE
    ensures (h - t) % BUFFER_SIZE == if h >= t then h - t else h - t + BUFFER_SIZE
  {
  }

  /** The slot `k` places after `t` around the ring. */
  lemma RingOffset(t: int, k: int)
    requires 0 <= t < BUFFER_SIZE && 0 <= k < BUFFER_SIZE
    ensures (t + k) % BUFFER_SIZE == if t + k < BUFFER_SIZE then t + k else t + k - BUFFER_SIZE
  {
  }

  /** The slot after `h` around the ring. */
  lemma RingStep(h: int)
    requires 0 <= h < BUFFER_SIZE
    ensures (h + 1) % BUFFER_SIZE == if h + 1 < BUFFER_SIZE then h + 1 else 0
  {
  }

  /** `keyboard_poll`: `scancode` is what the data port returned when the
      status port reported a byte, None when it reported none.  Releases
      (bit 0x80) and keys without a character are ignored. */
  function Poll(kb: Ring, scancode: Option<bv8>): (kb': Ring)
    requires Valid(kb)
    ensures Valid(kb')
    ensures scancode.None? || scancode.value >= 0x80 ==> kb' == kb
    ensures scancode.Some? && scancode.value < 0x80 ==>
      var c := LAYOUT[scancode.value as int];
      && (c == NUL || Count(kb) == BUFFER_SIZE - 1 ==> kb' == kb)
      && (c != NUL && Count(kb) < BUFFER_SIZE - 1 ==> Queued(kb') == Queued(kb) + [c])
  {
    if scancode.None? then kb
    else
      ReleaseBit(scancode.value);
      if scancode.value & 0x80 != 0 then kb
      else
        var c := LAYOUT[scancode.value as int];
        if c != NUL then Enqueue(kb, c) else kb
  }

  /** The release bit splits scancodes into presses below 128 and releases
      from 128 up. */
  lemma ReleaseBit(scancode: bv8)
    ensures scancode & 0x80 != 0 <==> scancode >= 0x80
  {
  }

  /** Characters come out in the order they went in: after a character is
      stored, the next read returns the oldest one waiting, which is the
      new character only when nothing was waiting, and the rest stay
      queued behind it. */
  lemma {:induction false} FirstInFirstOut(kb: Ring, c: char)
    requires Valid(kb)
    ensures Queued(kb) != [] ==> Read(Enqueue(kb, c)).c == Queued(kb)[0]
    ensures Queued(kb) == [] ==> Read(Enqueue(kb, c)).c == c && Queued(Read(Enqueue(kb, c)).kb) == []
    ensures Count(kb) < BUFFER_SIZE - 1 && Queued(kb) != [] ==>
      Queued(Read(Enqueue(kb, c)).kb) == Queued(kb)[1..] + [c]
  {
    var kb' := Enqueue(kb, c);
    if Count(kb) < BUFFER_SIZE - 1 {
      assert Queued(kb') == Queued(kb) + [c];
      if Queued(kb) != [] {
        assert (Queued(kb) + [c])[1..] == Queued(kb)[1..] + [c];
      }
    }
  }

  // ---------------------------------------------------------------------
  // The line editor
  // ---------------------------------------------------------------------

  predicate IsPrintable(c: char) { ' ' <= c <= '~' }

  predicate IsLineEnd(c: char) { c == '\n' || c == '\r' }

  /** The effect of one typed character on the line: backspace removes the
      last character (if any), printable characters are appended, anything
      else is ignored. */
  function EditStep(line: string, c: char): string
  {
    if c == BACKSPACE then (if line == [] then [] else line[..|line| - 1])
    else if IsPrintable(c) then line + [c]
    else line
  }

  /** Reference meaning of a sequence of keystrokes, without a length limit. */
  function Edit(typed: seq<char>): (line: string)
    ensures forall i :: 0 <= i < |line| ==> IsPrintable(line[i])
  {
    if typed == [] then [] else EditStep(Edit(typed[..|typed| - 1]), typed[|typed| - 1])
  }

  /** The outcome of `keyboard_get_line` on a stream of characters:
      `consumed` characters were read; `complete` is false when the stream
      ran out while the editor was still waiting for a key. */
  datatype LineResult = LineResult(text: string, consumed: nat, complete: bool)

  /** `keyboard_get_line` over the characters keyboard_read delivers in turn.
      The text returned is what the buffer holds before its terminator, and
      the C return value is its length. */
  method GetLine(input: seq<char>, bufferSize: nat) returns (r: LineResult)
    requires bufferSize >= 1
    ensures r.consumed <= |input| && |r.text| <= bufferSize - 1
    ensures forall i :: 0 <= i < |r.text| ==> IsPrintable(r.text[i])
    // no line end was read before the last character consumed
    ensures forall k :: 0 <= k < r.consumed - 1 ==> !IsLineEnd(input[k])
    // the limit was not reached before the last character consumed
    ensures forall k :: 0 <= k < r.consumed ==> |Edit(input[..k])| < bufferSize - 1
    ensures !r.complete ==> r.consumed == |input| && r.text == Edit(input) && |r.text| < bufferSize - 1
    ensures r.complete && r.consumed > 0 && IsLineEnd(input[r.consumed - 1]) ==>
      r.text == Edit(input[..r.consumed - 1])
    ensures r.complete && (r.consumed == 0 || !IsLineEnd(input[r.consumed - 1])) ==>
      r.text == Edit(input[..r.consumed]) && |r.text| == bufferSize - 1
  {
    var line: string := [];
    var i := 0;
    while |line| < bufferSize - 1
      invariant i <= |input| && line == Edit(input[..i]) && |line| <= bufferSize - 1
      invariant forall k :: 0 <= k < i ==> !IsLineEnd(input[k])
      invariant forall k :: 0 <= k < i ==> |Edit(input[..k])| < bufferSize - 1
      decreases |input| - i
    {
      if i == |input| {
        // the C polls until a key arrives
        assert input[..i] == input;
        return LineResult(line, i, false);
      }
      var c := input[i];
      assert input[..i + 1][..i] == input[..i];
      if IsLineEnd(c) {
        return LineResult(line, i + 1, true);
      }
      line := EditStep(line, c);
      i := i + 1;
    }
    r := LineResult(line, i, true);
  }

  /** A backspace right after a printable character undoes it. */
  lemma BackspaceUndoes(typed: seq<char>, c: char)
    requires IsPrintable(c)
    ensures Edit(typed + [c, BACKSPACE]) == Edit(typed)
  {
    var t := typed + [c, BACKSPACE];
    assert t[..|t| - 1] == typed + [c];
    assert (typed + [c])[..|typed|] == typed;
  }

  /** Backspace on an empty line leaves it empty. */
  lemma BackspaceAtStart(typed: seq<char>)
    requires Edit(typed) == []
    ensures Edit(typed + [BACKSPACE]) == []
  {
    assert (typed + [BACKSPACE])[..|typed|] == typed;
  }
}

=== FILE: paths.dfy ===
/** The path helpers of the in-memory filesystem: normalisation, making a
    path absolute against a working directory, and splitting a path at its
    last slash.  A path is a NUL-free `string`; the 128-byte buffers of the
    C code show up as clips to 127 characters. */
module Paths {
  import opened Common
  import opened CString

  /** FS_MAX_FILENAME_LENGTH: buffer size, terminator included. */
  const MAX_NAME: nat := 128
  /** FS_MAX_PATH_DEPTH: the most components normalisation keeps. */
  const MAX_DEPTH: nat := 32
  const SEPARATOR: string := "/"
  const ROOT: string := "/"

  /** What `strtok(…, "/")` can return: a non-empty run without '/'. */
  predicate Segment(c: string) { |c| > 0 && DelimFree(c, SEPARATOR) }

  /** A segment that names a directory entry rather than "." or "..". */
  predicate Plain(c: string) { Segment(c) && c != "." && c != ".." }

  predicate AllSegments(cs: seq<string>) { forall k :: 0 <= k < |cs| ==> Segment(cs[k]) }
  predicate AllPlain(cs: seq<string>) { forall k :: 0 <= k < |cs| ==> Plain(cs[k]) }

  // ---------------------------------------------------------------------
  // Joining components
  // ---------------------------------------------------------------------

  /** "/c0/c1/…": the rebuild loop of `fs_normalize_path`. */
  function Join(cs: seq<string>): string
  {
    if cs == [] then [] else SEPARATOR + cs[0] + Join(cs[1..])
  }

  /** The rebuilt path, with "/" for no components. */
  function Render(cs: seq<string>): string
  {
    if cs == [] then ROOT else Join(cs)
  }

  lemma {:induction false} JoinAppend(a: seq<string>, b: seq<string>)
    ensures Join(a + b) == Join(a) + Join(b)
    decreases |a|
  {
    if a == [] {
      assert a + b == b;
    } else {
      assert (a + b)[1..] == a[1..] + b;
      JoinAppend(a[1..], b);
    }
  }

  lemma JoinLast(cs: seq<string>)
    requires cs != []
    ensures Join(cs) == Join(cs[..|cs| - 1]) + SEPARATOR + cs[|cs| - 1]
  {
    var init, last := cs[..|cs| - 1], cs[|cs| - 1];
    SplitLast(cs);
    JoinAppend(init, [last]);
    JoinSingle(last);
  }

  lemma JoinSingle(c: string)
    ensures Join([c]) == SEPARATOR + c
  {
    assert [c][1..] == [];
  }

  /** No two slashes in a row: there is no empty component. */
  predicate NoEmptySegment(p: string)
  {
    forall i :: 0 <= i < |p| - 1 ==> !(p[i] == '/' && p[i + 1] == '/')
  }

  /** The shape of a joined path: a leading slash, no trailing slash, no
      empty component. */
  lemma {:induction false} JoinShape(cs: seq<string>)
    requires cs != [] && AllSegments(cs)
    ensures var p := Join(cs);
      |p| >= 2 && p[0] == '/' && p[|p| - 1] != '/' && NoEmptySegment(p)
    decreases |cs|
  {
    var c := cs[0];
    var p := Join(cs);
    var rest := Join(cs[1..]);
    assert p == SEPARATOR + c + rest;
    assert c[0] != '/' && c[|c| - 1] != '/' by { assert c[0] !in SEPARATOR && c[|c| - 1] !in SEPARATOR; }
    if cs[1..] != [] {
      JoinShape(cs[1..]);
      forall i | 0 <= i < |p| - 1
        ensures !(p[i] == '/' && p[i + 1] == '/')
      {
        if i <= |c| {
          if i >= 1 { assert p[i] == c[i - 1]; }
          if i + 1 <= |c| { assert p[i + 1] == c[i]; assert c[i] !in SEPARATOR; }
        } else {
          assert p[i] == rest[i - 1 - |c|] && p[i + 1] == rest[i - |c|];
        }
      }
    } else {
      assert p == SEPARATOR + c;
      forall i | 0 <= i < |p| - 1
        ensures !(p[i] == '/' && p[i + 1] == '/')
      {
        assert p[i + 1] == c[i] && c[i] !in SEPARATOR;
      }
    }
  }

  /** The two ends of a joined path. */
  lemma JoinEnds(cs: seq<string>)
    requires cs != [] && AllSegments(cs)
    ensures var p := Join(cs); |p| >= 2 && p[0] == '/' && p[|p| - 1] != '/'
  {
    JoinShape(cs);
  }

  /** Splitting "/c0/c1/…" at every slash gives an empty field, then the
      components. */
  lemma {:induction false} FieldsOfJoin(cs: seq<string>)
    requires AllSegments(cs)
    ensures Fields(Join(cs), SEPARATOR) == [[]] + cs
    decreases |cs|
  {
    if cs != [] {
      var c := cs[0];
      var t := Join(cs[1..]);
      var s := SEPARATOR + c + t;
      assert Join(cs) == s;
      FieldsOfJoin(cs[1..]);
      assert s[1..] == c + t;
      assert Fields(s, SEPARATOR) == [[]] + Fields(c + t, SEPARATOR);
      FieldsOfRun(c, t, SEPARATOR);
      var fs := Fields(t, SEPARATOR);
      assert fs[0] == [] && fs[1..] == cs[1..];
      assert c + fs[0] == c;
      assert Fields(c + t, SEPARATOR) == [c] + cs[1..];
      assert [c] + cs[1..] == cs;
    }
  }

  lemma {:induction false} NonEmptySegments(cs: seq<string>)
    requires AllSegments(cs)
    ensures NonEmpty(cs) == cs
    decreases |cs|
  {
    if cs != [] {
      NonEmptySegments(cs[1..]);
      assert [cs[0]] + cs[1..] == cs;
    }
  }

  /** `strtok` on a joined path gives back its components. */
  lemma TokensOfJoin(cs: seq<string>)
    requires AllSegments(cs)
    ensures Tokens(Join(cs), SEPARATOR) == cs
  {
    TokensAreNonEmptyFields(Join(cs), SEPARATOR);
    FieldsOfJoin(cs);
    NonEmptyAppend([[]], cs);
    NonEmptySegments(cs);
    var none: seq<string> := [[]];
    assert NonEmpty(none) == [] by { assert none[1..] == []; }
  }

  lemma TokensOfRoot()
    ensures Tokens(ROOT, SEPARATOR) == []
  {
    assert SkipDelims(ROOT, SEPARATOR, 0) == SkipDelims(ROOT, SEPARATOR, 1) == 1;
  }

  // ---------------------------------------------------------------------
  // fs_normalize_path
  // ---------------------------------------------------------------------

  /** The component stack after one token: "." is skipped, ".." pops
      unless the stack is empty, and anything else is pushed. */
  function Step(stack: seq<string>, t: string): seq<string>
  {
    if t == "." then stack
    else if t == ".." then (if stack == [] then [] else stack[..|stack| - 1])
    else stack + [t]
  }

  /** The tokenising loop, which stops taking tokens once the stack holds
      MAX_DEPTH components. */
  function Resolve(tokens: seq<string>, stack: seq<string>): (r: seq<string>)
    requires |stack| <= MAX_DEPTH
    ensures |r| <= MAX_DEPTH
    ensures AllPlain(stack) && AllSegments(tokens) ==> AllPlain(r)
    decreases |tokens|
  {
    if tokens == [] || |stack| == MAX_DEPTH then stack
    else Resolve(tokens[1..], Step(stack, tokens[0]))
  }

  /** `fs_normalize_path`: the path, clipped to the 127 characters its
      buffer holds, split at slashes, with "." and ".." resolved and the
      rest joined again. */
  function Normalize(path: string): (r: string)
    ensures |r| >= 1 && r[0] == '/'
    ensures r == ROOT || r[|r| - 1] != '/'
    ensures NoEmptySegment(r)
    ensures AllPlain(Tokens(r, SEPARATOR)) && |Tokens(r, SEPARATOR)| <= MAX_DEPTH
  {
    var cs := Resolve(Tokens(Clip(path, MAX_NAME - 1), SEPARATOR), []);
    if cs == [] then
      TokensOfRoot();
      ROOT
    else
      JoinShape(cs);
      TokensOfJoin(cs);
      Join(cs)
  }

  /** The components a path normalises to. */
  function Components(path: string): (cs: seq<string>)
    ensures AllPlain(cs) && |cs| <= MAX_DEPTH
    ensures Normalize(path) == Render(cs)
  {
    Resolve(Tokens(Clip(path, MAX_NAME - 1), SEPARATOR), [])
  }

  /** Plain tokens that fit in the depth limit are pushed one by one. */
  lemma {:induction false} ResolvePlain(tokens: seq<string>, stack: seq<string>)
    requires AllPlain(tokens) && |stack| + |tokens| <= MAX_DEPTH
    ensures Resolve(tokens, stack) == stack + tokens
    decreases |tokens|
  {
    if tokens == [] {
      assert stack + tokens == stack;
    } else {
      ResolvePlain(tokens[1..], stack + [tokens[0]]);
      assert stack + [tokens[0]] + tokens[1..] == stack + tokens;
    }
  }

  /** A normalised path is its own normal form when it fits the buffer. */
  lemma NormalizeIdempotent(path: string)
    requires |Normalize(path)| < MAX_NAME
    ensures Normalize(Normalize(path)) == Normalize(path)
  {
    var cs := Components(path);
    var r := Normalize(path);
    assert Clip(r, MAX_NAME - 1) == r;
    if cs == [] {
      TokensOfRoot();
    } else {
      TokensOfJoin(cs);
      ResolvePlain(cs, []);
      assert [] + cs == cs;
    }
  }

  /** Normalising never lengthens a path by more than the leading slash. */
  lemma NormalizeLength(path: string)
    ensures |Normalize(path)| <= Min(|path|, MAX_NAME - 1) + 1
  {
    var s := Clip(path, MAX_NAME - 1);
    var ts := Tokens(s, SEPARATOR);
    TokensLength(s);
    ResolveLength(ts, []);
  }

  lemma {:induction false} TokensLength(s: string)
    ensures |Join(Tokens(s, SEPARATOR))| <= |s| + 1
    decreases |s|
  {
    var i := SkipDelims(s, SEPARATOR, 0);
    if i < |s| {
      var j := TokenEnd(s, SEPARATOR, i);
      var ts := Tokens(s, SEPARATOR);
      assert ts[0] == s[i..j];
      if j < |s| {
        TokensLength(s[j + 1..]);
        assert ts[1..] == Tokens(s[j + 1..], SEPARATOR);
      } else {
        assert ts[1..] == [];
      }
    }
  }

  lemma {:induction false} ResolveLength(tokens: seq<string>, stack: seq<string>)
    requires |stack| <= MAX_DEPTH
    ensures |Join(Resolve(tokens, stack))| <= |Join(stack)| + |Join(tokens)|
    decreases |tokens|
  {
    if tokens != [] && |stack| < MAX_DEPTH {
      var t := tokens[0];
      ResolveLength(tokens[1..], Step(stack, t));
      if t == ".." && stack != [] {
        JoinAppend(stack[..|stack| - 1], [stack[|stack| - 1]]);
        assert stack[..|stack| - 1] + [stack[|stack| - 1]] == stack;
      } else if t != "." && t != ".." {
        JoinAppend(stack, [t]);
        assert [t][1..] == [];
      }
    }
  }

  /** Paths shorter than the buffer normalise idempotently. */
  lemma ShortPathIdempotent(path: string)
    requires |path| < MAX_NAME - 1
    ensures Normalize(Normalize(path)) == Normalize(path)
  {
    NormalizeLength(path);
    NormalizeIdempotent(path);
  }

  /** ".." above the root stays at the root. */
  lemma DotDotAtRoot()
    ensures Normalize("/..") == ROOT
  {
    var ts := Tokens("/..", SEPARATOR);
    assert ts == [".."] by {
      TokensOfJoin([".."]);
      assert Join([".."]) == "/..";
    }
  }

  // ---------------------------------------------------------------------
  // fs_get_absolute_path
  // ---------------------------------------------------------------------

  predicate IsAbsolute(p: string) { p != [] && p[0] == '/' }

  /** What fits the 128-byte buffer that "%s/%s" is formatted into. */
  predicate JoinFits(cwd: string, rel: string)
  {
    IsAbsolute(rel) || |cwd| + 1 + |rel| < MAX_NAME
  }

  /** `fs_get_absolute_path`: an absolute path is normalised as it is;
      otherwise "cwd/rel" is. */
  function Absolute(rel: string, cwd: string): (r: string)
    requires JoinFits(cwd, rel)
    ensures IsAbsolute(rel) ==> r == Normalize(rel)
    ensures |r| >= 1 && r[0] == '/' && NoEmptySegment(r)
  {
    if IsAbsolute(rel) then Normalize(rel) else Normalize(cwd + SEPARATOR + rel)
  }

  /** A plain name relative to a normalised working directory lands one
      level below it. */
  lemma AbsoluteChild(cs: seq<string>, name: string)
    requires AllPlain(cs) && |cs| < MAX_DEPTH && Plain(name)
    requires |Render(cs)| + 1 + |name| < MAX_NAME
    ensures Absolute(name, Render(cs)) == Join(cs + [name])
  {
    assert !IsAbsolute(name) by { assert name[0] !in SEPARATOR; }
    var p := Render(cs) + SEPARATOR + name;
    ChildTokens(cs, name);
    assert Clip(p, MAX_NAME - 1) == p;
    assert AllPlain(cs + [name]);
    ResolvePlain(cs + [name], []);
    assert [] + (cs + [name]) == cs + [name];
  }

  /** A plain name relative to the root is the root, a slash and the name. */
  lemma AbsoluteAtRoot(name: string)
    requires Plain(name) && |name| + 2 < MAX_NAME
    ensures JoinFits(ROOT, name) && Absolute(name, ROOT) == SEPARATOR + name
  {
    var none: seq<string> := [];
    AbsoluteChild(none, name);
    assert none + [name] == [name];
    JoinSingle(name);
  }

  /** "cwd/name" splits into the components of cwd and then name; at the
      root the doubled slash opens one more empty field. */
  lemma ChildTokens(cs: seq<string>, name: string)
    requires AllPlain(cs) && Plain(name)
    ensures Tokens(Render(cs) + SEPARATOR + name, SEPARATOR) == cs + [name]
    ensures Join(cs + [name]) == Join(cs) + SEPARATOR + name
  {
    JoinAppend(cs, [name]);
    assert [name][1..] == [];
    assert AllSegments(cs + [name]);
    var p := Render(cs) + SEPARATOR + name;
    if cs == [] {
      assert cs + [name] == [name];
      TokensAtRoot(name);
    } else {
      assert p == Join(cs + [name]);
      TokensOfJoin(cs + [name]);
    }
  }

  /** At the root "/" + "/" + name opens an empty field that strtok skips. */
  lemma TokensAtRoot(name: string)
    requires Plain(name)
    ensures Tokens(ROOT + SEPARATOR + name, SEPARATOR) == [name]
  {
    var p := ROOT + SEPARATOR + name;
    JoinSingle(name);
    assert p[1..] == Join([name]);
    assert AllSegments([name]);
    TokensAreNonEmptyFields(p, SEPARATOR);
    FieldsOfJoin([name]);
    assert Fields(p, SEPARATOR) == [[]] + Fields(Join([name]), SEPARATOR);
    var none: seq<string> := [[]];
    assert Fields(p, SEPARATOR) == none + ([[]] + [name]);
    NonEmptyAppend(none, [[]] + [name]);
    NonEmptyAppend(none, [name]);
    assert NonEmpty(none) == [] by { assert none[1..] == []; }
    NonEmptySegments([name]);
  }

  // ---------------------------------------------------------------------
  // Splitting at the last slash
  // ---------------------------------------------------------------------

  /** `fs_get_parent_directory`: "/" for the root, otherwise the path (at
      most 127 characters of it, one trailing slash dropped) cut at its last
      slash, "/" when that slash is the first character or there is none,
      and clipped to the caller's `dirSize - 1` characters. */
  function Parent(cwd: string, dirSize: nat): (r: string)
    requires dirSize >= 1
    ensures cwd == ROOT ==> r == ROOT
    ensures |r| <= Min(dirSize - 1, MAX_NAME - 1) || r == ROOT
  {
    if cwd == ROOT then ROOT
    else
      var t := Clip(cwd, MAX_NAME - 1);
      var u := if |t| > 1 && t[|t| - 1] == '/' then t[..|t| - 1] else t;
      CutAtLastSlash(u, dirSize)
  }

  /** The part of `u` before its last slash, "/" when there is none or it
      is the first character, clipped to `dirSize - 1` characters. */
  function CutAtLastSlash(u: string, dirSize: nat): (r: string)
    requires dirSize >= 1
    ensures |r| <= dirSize - 1 || r == ROOT
  {
    match LastIndex(u, '/')
    case None => ROOT
    case Some(k) => if k == 0 then ROOT else Clip(u[..k], dirSize - 1)
  }

  /** The last slash of a joined path is the one before its last component. */
  lemma LastSlashOfJoin(cs: seq<string>)
    requires cs != [] && AllSegments(cs)
    ensures LastIndex(Join(cs), '/') == Some(|Join(cs[..|cs| - 1])|)
  {
    JoinLast(cs);
    var init := Join(cs[..|cs| - 1]);
    var last := cs[|cs| - 1];
    var p := Join(cs);
    var r := LastIndex(p, '/');
    assert p[|init|] == '/';
  }

  /** Going up from a normalised directory drops its last component: the
      same answer normalising "dir/.." gives, with or without the trailing
      slash that `mkdir` leaves on directory names. */
  lemma ParentDropsLast(cs: seq<string>, dirSize: nat)
    requires cs != [] && AllPlain(cs) && |cs| < MAX_DEPTH && |Join(cs)| + 3 < MAX_NAME && dirSize >= MAX_NAME
    ensures Parent(Join(cs), dirSize) == Render(cs[..|cs| - 1])
    ensures Parent(Join(cs) + SEPARATOR, dirSize) == Render(cs[..|cs| - 1])
    ensures Normalize(Join(cs) + "/..") == Render(cs[..|cs| - 1])
  {
    ParentOfJoin(cs, Join(cs), dirSize);
    ParentOfJoin(cs, Join(cs) + SEPARATOR, dirSize);
    NormalizeDotDot(cs);
  }

  lemma ParentOfJoin(cs: seq<string>, q: string, dirSize: nat)
    requires cs != [] && AllSegments(cs) && dirSize >= MAX_NAME
    requires q == Join(cs) || q == Join(cs) + SEPARATOR
    requires |q| < MAX_NAME
    ensures Parent(q, dirSize) == Render(cs[..|cs| - 1])
  {
    var p := Join(cs);
    JoinEnds(cs);
    assert q != ROOT;
    assert Clip(q, MAX_NAME - 1) == q;
    if q == p + SEPARATOR {
      assert q[|q| - 1] == '/' && q[..|q| - 1] == p;
    } else {
      assert q[|q| - 1] != '/';
    }
    CutJoin(cs, dirSize);
  }

  lemma CutJoin(cs: seq<string>, dirSize: nat)
    requires cs != [] && AllSegments(cs) && dirSize >= 1 && |Join(cs)| < dirSize
    ensures CutAtLastSlash(Join(cs), dirSize) == Render(cs[..|cs| - 1])
  {
    var p := Join(cs);
    var init := cs[..|cs| - 1];
    LastSlashOfJoin(cs);
    JoinLast(cs);
    assert p[..|Join(init)|] == Join(init);
    if init != [] {
      JoinEnds(init);
    }
  }

  lemma NormalizeDotDot(cs: seq<string>)
    requires cs != [] && AllPlain(cs) && |cs| < MAX_DEPTH && |Join(cs)| + 3 < MAX_NAME
    ensures Normalize(Join(cs) + "/..") == Render(cs[..|cs| - 1])
  {
    var p := Join(cs) + "/..";
    assert Clip(p, MAX_NAME - 1) == p;
    assert Components(p) == cs[..|cs| - 1] by {
      JoinDotDot(cs);
      ResolveDotDot(cs);
    }
  }

  lemma JoinDotDot(cs: seq<string>)
    requires AllSegments(cs)
    ensures Tokens(Join(cs) + "/..", SEPARATOR) == cs + [".."]
  {
    JoinAppend(cs, [".."]);
    assert Join([".."]) == "/.." by { assert [".."][1..] == []; }
    assert AllSegments(cs + [".."]);
    TokensOfJoin(cs + [".."]);
  }

  lemma ResolveDotDot(cs: seq<string>)
    requires cs != [] && AllPlain(cs) && |cs| < MAX_DEPTH
    ensures Resolve(cs + [".."], []) == cs[..|cs| - 1]
  {
    var up: seq<string> := [".."];
    ResolveSplit(cs, up, []);
    assert [] + cs == cs;
    assert Step(cs, up[0]) == cs[..|cs| - 1];
    assert up[1..] == [];
    assert Resolve(up[1..], cs[..|cs| - 1]) == cs[..|cs| - 1];
  }

  lemma {:induction false} ResolveSplit(a: seq<string>, b: seq<string>, stack: seq<string>)
    requires AllPlain(a) && |stack| + |a| < MAX_DEPTH
    ensures Resolve(a + b, stack) == Resolve(b, stack + a)
    decreases |a|
  {
    if a == [] {
      assert a + b == b && stack + a == stack;
    } else {
      ConsAppend(a, b);
      ResolveSplit(a[1..], b, stack + [a[0]]);
      ShiftFirst(stack, a);
    }
  }

  /** `fs_get_filename`: everything after the last slash, or the whole path. */
  function Filename(path: string): (r: string)
    ensures '/' !in path ==> r == path
    ensures '/' in path ==> |r| < |path| && r == path[|path| - |r|..] && '/' !in r && path[|path| - |r| - 1] == '/'
  {
    match LastIndex(path, '/')
    case None => path
    case Some(k) => path[k + 1..]
  }

  /** `fs_get_directory`: "." without a slash, "/" for a slash at the
      front, otherwise what precedes the last slash clipped to `size - 1`
      characters. */
  function Directory(path: string, size: nat): (r: string)
    requires size >= 1
    ensures '/' !in path ==> r == "."
    ensures LastIndex(path, '/') == Some(0) ==> r == ROOT
    ensures LastIndex(path, '/').Some? && LastIndex(path, '/').value > 0 ==>
      var k := LastIndex(path, '/').value;
      r == Clip(path[..k], size - 1) && '/' !in path[k + 1..]
  {
    match LastIndex(path, '/')
    case None => "."
    case Some(k) => if k == 0 then ROOT else Clip(path[..k], size - 1)
  }

  /** Directory, a slash and Filename put the path back together when the
      last slash is not the first character and the directory fits. */
  lemma DirectoryAndFilename(path: string, size: nat)
    requires size >= 1 && LastIndex(path, '/').Some?
    requires 0 < LastIndex(path, '/').value < size
    ensures Directory(path, size) + SEPARATOR + Filename(path) == path
    ensures '/' !in Filename(path)
  {
    var k := LastIndex(path, '/').value;
    assert Directory(path, size) == path[..k];
    assert Filename(path) == path[k + 1..];
    SplitAround(path, k);
  }
}

=== FILE: shell.dfy ===
/** The command shell: the history ring, the command table with its
    tokeniser and dispatcher, the `calc` arithmetic, the prompt's shortened
    directory, and the directory commands that go through the filesystem. */
module Shell {
  import opened Common
  import opened CString
  import opened Stdlib
  import opened Paths
  import opened FileSystem

  const MAX_COMMAND_LENGTH: nat := 512
  const MAX_ARGS: nat := 32
  const HISTORY_SIZE: nat := 50
  const MAX_PATH_LENGTH: nat := 512
  const MAX_COMMANDS: nat := 64
  /** The separators the command line is split on. */
  const DELIMITERS: string := " \t\n"
  /** Beyond this many characters the prompt shows only the tail of the cwd. */
  const PROMPT_DIR_LIMIT: nat := 20
  const PROMPT_DIR_TAIL: nat := 17

  // ---------------------------------------------------------------------
  // History
  // ---------------------------------------------------------------------

  /** Fifty 512-byte slots and the number of commands ever recorded. */
  datatype History = History(slots: seq<string>, count: nat)

  predicate ValidHistory(h: History)
  {
    |h.slots| == HISTORY_SIZE && h.count <= INT_MAX
  }

  function EmptyHistory(): (h: History)
    ensures ValidHistory(h) && h.count == 0
  {
    History(seq(HISTORY_SIZE, _ => []), 0)
  }

  /** `shell_add_to_history`: an empty command is not recorded; any other
      goes, cut to 511 characters, into slot count mod 50.  The counter is a
      signed int, so its overflow is excluded. */
  function AddToHistory(h: History, command: string): (r: History)
    requires ValidHistory(h) && h.count < INT_MAX
    ensures ValidHistory(r)
    ensures command == [] ==> r == h
    ensures command != [] ==>
      && r.count == h.count + 1
      && r.slots[h.count % HISTORY_SIZE] == Clip(command, MAX_COMMAND_LENGTH - 1)
      && forall k :: 0 <= k < HISTORY_SIZE && k != h.count % HISTORY_SIZE ==> r.slots[k] == h.slots[k]
  {
    if command == [] then h
    else History(h.slots[h.count % HISTORY_SIZE := Clip(command, MAX_COMMAND_LENGTH - 1)], h.count + 1)
  }

  /** `shell_get_history`: the raw slot, for an index below both 50 and
      the count; nothing otherwise. */
  function GetHistory(h: History, index: int): (r: Option<string>)
    requires ValidHistory(h)
    ensures r.Some? <==> 0 <= index < HISTORY_SIZE && index < h.count
    ensures r.Some? ==> r.value == h.slots[index]
  {
    if 0 <= index < HISTORY_SIZE && index < h.count then Some(h.slots[index]) else None
  }

  /** `shell_get_history_count`. */
  function HistoryCount(h: History): (n: nat)
    ensures n <= HISTORY_SIZE && n <= h.count
    ensures n == h.count || n == HISTORY_SIZE
  {
    Min(h.count, HISTORY_SIZE)
  }

  /** Recording a command makes it the entry at slot count mod 50 and
      leaves what every other index returns unchanged. */
  lemma AddThenGet(h: History, command: string, index: int)
    requires ValidHistory(h) && h.count < INT_MAX && command != []
    ensures GetHistory(AddToHistory(h, command), h.count % HISTORY_SIZE) == Some(Clip(command, MAX_COMMAND_LENGTH - 1))
    ensures index != h.count % HISTORY_SIZE ==> GetHistory(AddToHistory(h, command), index) == GetHistory(h, index)
    ensures HistoryCount(AddToHistory(h, command)) == Min(HistoryCount(h) + 1, HISTORY_SIZE)
  {
  }

  /** The history after recording each command in turn. */
  function Record(h: History, commands: seq<string>): (r: History)
    requires ValidHistory(h) && h.count + |commands| <= INT_MAX
    ensures ValidHistory(r)
    decreases |commands|
  {
    if commands == [] then h else Record(AddToHistory(h, commands[0]), commands[1..])
  }

  /** From an empty history, the first fifty non-empty commands come back
      in order, each cut to 511 characters, and nothing beyond them. */
  lemma {:induction false} RecordThenGet(commands: seq<string>, index: int)
    requires |commands| <= HISTORY_SIZE
    requires forall k :: 0 <= k < |commands| ==> commands[k] != []
    ensures 0 <= index < |commands| ==> GetHistory(Record(EmptyHistory(), commands), index) == Some(Clip(commands[index], MAX_COMMAND_LENGTH - 1))
    ensures !(0 <= index < |commands|) ==> GetHistory(Record(EmptyHistory(), commands), index) == None
    ensures HistoryCount(Record(EmptyHistory(), commands)) == |commands|
  {
    RecordFrom(EmptyHistory(), commands);
    var r := Record(EmptyHistory(), commands);
    if 0 <= index < |commands| {
      assert r.slots[index] == Clip(commands[index], MAX_COMMAND_LENGTH - 1);
    }
  }

  /** Recording non-empty commands into a history that has not wrapped
      fills consecutive slots. */
  lemma {:induction false} RecordFrom(h: History, commands: seq<string>)
    requires ValidHistory(h) && h.count + |commands| <= HISTORY_SIZE
    requires forall k :: 0 <= k < |commands| ==> commands[k] != []
    ensures var r := Record(h, commands);
      && r.count == h.count + |commands|
      && (forall k :: 0 <= k < h.count ==> r.slots[k] == h.slots[k])
      && forall k :: 0 <= k < |commands| ==> r.slots[h.count + k] == Clip(commands[k], MAX_COMMAND_LENGTH - 1)
    decreases |commands|
  {
    if commands != [] {
      var a := AddToHistory(h, commands[0]);
      assert h.count % HISTORY_SIZE == h.count;
      RecordFrom(a, commands[1..]);
      var r := Record(h, commands);
      assert r == Record(a, commands[1..]);
      forall k | 0 <= k < |commands|
        ensures r.slots[h.count + k] == Clip(commands[k], MAX_COMMAND_LENGTH - 1)
      {
        if k > 0 {
          assert commands[1..][k - 1] == commands[k];
        }
      }
    }
  }

  // ---------------------------------------------------------------------
  // The command table, tokenising and dispatch
  // ---------------------------------------------------------------------

  /** A registered command: its name and the handler it runs, the handler
      standing for the function pointer. */
  datatype Command = Command(name: string, handler: nat, help: string, usage: string)

  /** `shell_register_command`: refused once 64 commands exist. */
  function Register(table: seq<Command>, c: Command): (r: seq<Command>)
    ensures |table| >= MAX_COMMANDS ==> r == table
    ensures |table| < MAX_COMMANDS ==> r == table + [c]
    ensures |r| <= Min(|table| + 1, if |table| < MAX_COMMANDS then MAX_COMMANDS else |table|)
  {
    if |table| >= MAX_COMMANDS then table else table + [c]
  }

  /** The first command whose name is `name` exactly. */
  function Lookup(table: seq<Command>, name: string): (r: Option<nat>)
    ensures r.Some? ==> r.value < |table| && table[r.value].name == name
    ensures r.Some? ==> forall j :: 0 <= j < r.value ==> table[j].name != name
    ensures r.None? ==> forall j :: 0 <= j < |table| ==> table[j].name != name
  {
    if table == [] then None
    else if table[0].name == name then Some(0)
    else match Lookup(table[1..], name)
      case None => None
      case Some(k) => Some(k + 1)
  }

  /** A command registered under a new name, while the table has room,
      is the one a lookup of that name finds; every name registered before
      is found where it was. */
  lemma RegisterThenLookup(table: seq<Command>, c: Command, name: string)
    requires |table| < MAX_COMMANDS && Lookup(table, c.name).None?
    ensures Lookup(Register(table, c), c.name) == Some(|table|)
    ensures Lookup(table, name).Some? ==> Lookup(Register(table, c), name) == Lookup(table, name)
  {
    LookupAppended(table, c, c.name);
    LookupAppended(table, c, name);
  }

  /** Looking a name up after a command is appended. */
  lemma LookupAppended(table: seq<Command>, c: Command, name: string)
    ensures Lookup(table + [c], name) ==
      if Lookup(table, name).Some? then Lookup(table, name)
      else if c.name == name then Some(|table|) else None
  {
    var t := table + [c];
    assert forall j :: 0 <= j < |table| ==> t[j] == table[j];
    if Lookup(table, name).Some? {
      assert t[Lookup(table, name).value] == table[Lookup(table, name).value];
    } else if c.name == name {
      assert t[|table|] == c;
    }
  }

  /** The argument vector a command line yields: the line cut to 511
      characters and split on blanks, at most 32 arguments. */
  function Arguments(command: string): (argv: seq<string>)
    ensures |argv| <= MAX_ARGS
    ensures forall k :: 0 <= k < |argv| ==> |argv[k]| > 0 && DelimFree(argv[k], DELIMITERS)
    ensures argv <= Tokens(Clip(command, MAX_COMMAND_LENGTH - 1), DELIMITERS)
    ensures |argv| == Min(|Tokens(Clip(command, MAX_COMMAND_LENGTH - 1), DELIMITERS)|, MAX_ARGS)
  {
    SplitString(Clip(command, MAX_COMMAND_LENGTH - 1), DELIMITERS, MAX_ARGS)
  }

  /** What a command line leads to. */
  datatype Dispatch = NothingToRun | NotFound(name: string) | Run(index: nat, argv: seq<string>)

  /** `shell_process_command`: record the line, tokenise it, and pick the
      first command named by the first token. */
  function ProcessCommand(h: History, table: seq<Command>, command: string): (r: (History, Dispatch))
    requires ValidHistory(h) && h.count < INT_MAX
    ensures r.0 == AddToHistory(h, command)
    ensures Arguments(command) == [] <==> r.1 == NothingToRun
    ensures r.1.NotFound? ==> r.1.name == Arguments(command)[0] && Lookup(table, r.1.name).None?
    ensures r.1.Run? ==>
      && r.1.argv == Arguments(command) && r.1.index < |table|
      && table[r.1.index].name == r.1.argv[0]
      && forall j :: 0 <= j < r.1.index ==> table[j].name != r.1.argv[0]
  {
    var argv := Arguments(command);
    var d := if argv == [] then NothingToRun
      else match Lookup(table, argv[0])
        case None => NotFound(argv[0])
        case Some(i) => Run(i, argv);
    (AddToHistory(h, command), d)
  }

  /** A line of blanks runs nothing. */
  lemma BlankLineRunsNothing(h: History, table: seq<Command>, command: string)
    requires ValidHistory(h) && h.count < INT_MAX
    requires forall k :: 0 <= k < |command| ==> command[k] in DELIMITERS
    ensures ProcessCommand(h, table, command).1 == NothingToRun
  {
    var c := Clip(command, MAX_COMMAND_LENGTH - 1);
    assert SkipDelims(c, DELIMITERS, 0) == |c| by { AllDelimiters(c, 0); }
  }

  lemma {:induction false} AllDelimiters(s: string, i: nat)
    requires i <= |s| && forall k :: i <= k < |s| ==> s[k] in DELIMITERS
    ensures SkipDelims(s, DELIMITERS, i) == |s|
    decreases |s| - i
  {
    if i < |s| {
      AllDelimiters(s, i + 1);
    }
  }

  /** Words separated by single spaces come back as the arguments. */
  lemma {:induction false} WordsAreArguments(words: seq<string>)
    requires 1 <= |words| <= MAX_ARGS
    requires forall k :: 0 <= k < |words| ==> |words[k]| > 0 && DelimFree(words[k], DELIMITERS)
    requires |Spaced(words)| < MAX_COMMAND_LENGTH
    ensures Arguments(Spaced(words)) == words
  {
    SpacedTokens(words);
  }

  /** Words joined by single spaces. */
  function Spaced(words: seq<string>): string
  {
    if words == [] then [] else if |words| == 1 then words[0] else words[0] + " " + Spaced(words[1..])
  }

  lemma {:induction false} SpacedTokens(words: seq<string>)
    requires forall k :: 0 <= k < |words| ==> |words[k]| > 0 && DelimFree(words[k], DELIMITERS)
    ensures Tokens(Spaced(words), DELIMITERS) == words
    decreases |words|
  {
    if words == [] {
      assert SkipDelims([], DELIMITERS, 0) == 0;
    } else {
      var w := words[0];
      var s := Spaced(words);
      assert SkipDelims(s, DELIMITERS, 0) == 0 by { assert s[0] == w[0]; }
      assert TokenEnd(s, DELIMITERS, 0) == |w| by { WordEnd(s, w, 0); }
      assert s[..|w|] == w;
      if |words| == 1 {
        assert s == w;
      } else {
        assert s[|w|] == ' ';
        assert s[|w| + 1..] == Spaced(words[1..]);
        SpacedTokens(words[1..]);
      }
    }
  }

  lemma {:induction false} WordEnd(s: string, w: string, i: nat)
    requires i <= |w| && w <= s && DelimFree(w, DELIMITERS)
    requires |s| > |w| ==> s[|w|] in DELIMITERS
    ensures TokenEnd(s, DELIMITERS, i) == |w|
    decreases |w| - i
  {
    if i < |w| {
      assert s[i] == w[i];
      WordEnd(s, w, i + 1);
    }
  }

  // ---------------------------------------------------------------------
  // calc
  // ---------------------------------------------------------------------

  /** What `atoi` returns for a token (the value of its optional sign and
      leading digits). */
  function AtoiValue(s: string): int
  {
    NumeralValue(ReadNumeral(s))
  }

  /** `atoi` is defined: its digit run fits the int accumulator. */
  predicate AtoiDefined(s: string)
  {
    Value(ReadNumeral(s).digits) <= INT_MAX
  }

  /** The exact (unbounded) value of `a op b`, if `op` is one calc knows
      and the division is by a non-zero number. */
  function Arithmetic(a: int, op: char, b: int): Option<int>
  {
    match op
    case '+' => Some(a + b)
    case '-' => Some(a - b)
    case '*' => Some(a * b)
    case '/' => if b != 0 then Some(TDiv(a, b)) else None
    case _ => None
  }

  /** What `cmd_calc` reports. */
  datatype Calculation =
    | Usage
    | InvalidExpression
    | DivisionByZero(a: int, b: int)
    | UnknownOperator(op: char)
    | Result(a: int, op: char, b: int, value: int)

  /** The int arithmetic cannot overflow (signed overflow is undefined). */
  predicate CalcDefined(argv: seq<string>)
  {
    && (forall k :: 0 <= k < |argv| ==> argv[k] != [])
    && (|argv| >= 4 ==>
          && AtoiDefined(argv[1]) && AtoiDefined(argv[3])
          && var v := Arithmetic(AtoiValue(argv[1]), argv[2][0], AtoiValue(argv[3]));
             v.Some? ==> IsInt32(v.value))
  }

  /** `cmd_calc`: fewer than two arguments print the usage, two or three
      an invalid-expression message; otherwise the first and third are read
      with atoi and combined by the second's first character. */
  function Calc(argv: seq<string>): (r: Calculation)
    requires CalcDefined(argv)
    ensures |argv| < 2 <==> r == Usage
    ensures 2 <= |argv| < 4 <==> r == InvalidExpression
    ensures r.Result? ==> IsInt32(r.value) && r.op in "+-*/" && (r.op == '/' ==> r.b != 0)
    ensures r.Result? ==> r.a == AtoiValue(argv[1]) && r.op == argv[2][0] && r.b == AtoiValue(argv[3])
    ensures r.Result? && r.op == '+' ==> r.value == r.a + r.b
    ensures r.Result? && r.op == '-' ==> r.value == r.a - r.b
    ensures r.Result? && r.op == '*' ==> r.value == r.a * r.b
    ensures r.Result? && r.op == '/' ==>
      && Magnitude(r.a - r.value * r.b) < Magnitude(r.b)
      && (r.a - r.value * r.b == 0 || (r.a - r.value * r.b < 0) == (r.a < 0))
    ensures |argv| >= 4 ==> r.Result? || r == DivisionByZero(AtoiValue(argv[1]), AtoiValue(argv[3])) || r == UnknownOperator(argv[2][0])
    ensures r.UnknownOperator? ==> r.op !in "+-*/"
    ensures r.DivisionByZero? ==> r.b == 0 && argv[2][0] == '/'
  {
    if |argv| < 2 then Usage
    else if |argv| < 4 then InvalidExpression
    else
      var a := AtoiValue(argv[1]);
      var op := argv[2][0];
      var b := AtoiValue(argv[3]);
      match Arithmetic(a, op, b)
      case Some(v) => Result(a, op, b, v)
      case None => if op == '/' then DivisionByZero(a, b) else UnknownOperator(op)
  }

  /** Numbers printed by itoa read back through calc: `calc x + y` on the
      decimal renderings of x and y computes x + y. */
  lemma CalcOfFormatted(x: int, y: int, op: char)
    requires IsInt32(x) && x != INT_MIN && IsInt32(y) && y != INT_MIN
    requires op in "+-*/" && (op == '/' ==> y != 0)
    requires IsInt32(Arithmetic(x, op, y).value)
    ensures var argv := ["calc", Formatted(x, 10), [op], Formatted(y, 10)];
      CalcDefined(argv) && Calc(argv) == Result(x, op, y, Arithmetic(x, op, y).value)
  {
    var fx, fy := Formatted(x, 10), Formatted(y, 10);
    var argv := ["calc", fx, [op], fy];
    NatDigitsNonEmpty(x);
    NatDigitsNonEmpty(y);
    forall k | 0 <= k < |argv| ensures argv[k] != [] {
      if k == 0 { assert argv[0] == "calc"; }
    }
    ReadFormatted(x);
    ReadFormatted(y);
    assert AtoiValue(argv[1]) == x && AtoiValue(argv[3]) == y && argv[2][0] == op;
  }

  lemma NatDigitsNonEmpty(x: int)
    ensures Formatted(x, 10) != []
  {
  }

  // ---------------------------------------------------------------------
  // The prompt
  // ---------------------------------------------------------------------

  /** The directory the prompt shows: a cwd longer than 20 characters
      becomes its last 17. */
  function ShortDir(cwd: string): (r: string)
    ensures |r| <= PROMPT_DIR_LIMIT
    ensures |cwd| <= PROMPT_DIR_LIMIT ==> r == cwd
    ensures |cwd| > PROMPT_DIR_LIMIT ==> |r| == PROMPT_DIR_TAIL && cwd == cwd[..|cwd| - |r|] + r
  {
    if |cwd| > PROMPT_DIR_LIMIT then cwd[|cwd| - PROMPT_DIR_TAIL..] else cwd
  }

  // ---------------------------------------------------------------------
  // Directory commands
  // ---------------------------------------------------------------------

  /** The home `cd` falls back to without an argument. */
  function Home(isRoot: bool): string
  {
    if isRoot then "/root" else "/home/user"
  }

  /** `cmd_cd`: no argument goes home; otherwise the filesystem's change of
      directory, with the shell's 512-byte buffer. */
  function Cd(fs: FileSystem, cwd: string, isRoot: bool, argv: seq<string>): (r: string)
    requires |argv| >= 2 && argv[1] != ".." && argv[1] != "." ==> JoinFits(cwd, argv[1])
    ensures |argv| < 2 ==> r == Home(isRoot)
    ensures |argv| >= 2 ==> r == ChangeDirectory(fs, argv[1], cwd, MAX_PATH_LENGTH).cwd
  {
    if |argv| < 2 then Home(isRoot)
    else ChangeDirectory(fs, argv[1], cwd, MAX_PATH_LENGTH).cwd
  }

  /** `cmd_mkdir`: the absolute path with a slash appended (when it fits)
      is created as a directory.  Without an argument nothing changes. */
  function Mkdir(fs: FileSystem, cwd: string, argv: seq<string>): (r: Outcome)
    requires Valid(fs)
    requires |argv| >= 2 ==> JoinFits(cwd, argv[1])
    ensures Valid(r.fs)
    ensures |argv| < 2 ==> r.fs == fs
    ensures |argv| >= 2 ==> r == Create(fs, DirectoryName(Absolute(argv[1], cwd)), true)
  {
    if |argv| < 2 then Outcome(fs, 0)
    else Create(fs, DirectoryName(Absolute(argv[1], cwd)), true)
  }

  /** `cmd_touch`: an empty file at the absolute path. */
  function Touch(fs: FileSystem, cwd: string, argv: seq<string>): (r: Outcome)
    requires Valid(fs)
    requires |argv| >= 2 ==> JoinFits(cwd, argv[1])
    ensures Valid(r.fs)
    ensures |argv| < 2 ==> r.fs == fs
    ensures |argv| >= 2 ==> r == Create(fs, Absolute(argv[1], cwd), false)
  {
    if |argv| < 2 then Outcome(fs, 0)
    else Create(fs, Absolute(argv[1], cwd), false)
  }

  /** `cmd_rm`: delete the absolute path. */
  function Rm(fs: FileSystem, cwd: string, argv: seq<string>): (r: Outcome)
    requires Valid(fs)
    requires |argv| >= 2 ==> JoinFits(cwd, argv[1])
    ensures Valid(r.fs)
    ensures |argv| < 2 ==> r.fs == fs
    ensures |argv| >= 2 ==> r == Delete(fs, Absolute(argv[1], cwd))
  {
    if |argv| < 2 then Outcome(fs, 0)
    else Delete(fs, Absolute(argv[1], cwd))
  }

  /** A directory made with `mkdir` can be entered with `cd`: both look up
      the same slash-terminated name, and the new cwd is that name. */
  lemma MkdirThenCd(fs: FileSystem, cwd: string, isRoot: bool, name: string)
    requires Valid(fs) && JoinFits(cwd, name) && name != ".." && name != "."
    requires Mkdir(fs, cwd, ["mkdir", name]).code == 0
    requires |DirectoryName(Absolute(name, cwd))| < MAX_NAME
    ensures var made := Mkdir(fs, cwd, ["mkdir", name]).fs;
      Cd(made, cwd, isRoot, ["cd", name]) == DirectoryName(Absolute(name, cwd))
  {
    var target := DirectoryName(Absolute(name, cwd));
    var made := Create(fs, target, true).fs;
    assert made.entries[|fs.entries|].name == target;
    FindAppended(fs.entries, made.entries[|fs.entries|], target);
    assert made.entries == fs.entries + [made.entries[|fs.entries|]];
  }

  /** A directory made with `mkdir` never shows in a listing: its stored
      name ends in a slash. */
  lemma MkdirHidden(fs: FileSystem, cwd: string, name: string, prefix: string)
    requires Valid(fs) && JoinFits(cwd, name)
    requires Mkdir(fs, cwd, ["mkdir", name]).code == 0
    requires |DirectoryName(Absolute(name, cwd))| < MAX_NAME - 1
    ensures var made := Mkdir(fs, cwd, ["mkdir", name]).fs;
      !IsChild(made.entries[|fs.entries|], prefix)
  {
    var made := Mkdir(fs, cwd, ["mkdir", name]).fs;
    SlashNamesHidden(made.entries[|fs.entries|], prefix);
  }
}

=== FILE: stdio.dfy ===
/** The formatter of the C library: vsprintf's conversion engine with its
    1023-character cap, and snprintf's after-the-fact truncation.

    A format is the content of a C string and each argument is one value of
    the variadic list.  Printing to the console (putchar, puts, printf,
    vprintf) only forwards the formatted buffer and is not part of this
    model. */
module Stdio {
  import opened Common
  import CString
  import Stdlib

  /** vsprintf stores at most this many characters before the terminator. */
  const LIMIT: nat := 1023

  /** One variadic argument: an int-sized value or a (possibly NULL) string. */
  datatype Arg = IntArg(i: int) | StrArg(s: Option<string>)

  const DECIMAL: string := "0123456789"
  const HEX_LOWER: string := "0123456789abcdef"
  const HEX_UPPER: string := "0123456789ABCDEF"

  // ---------------------------------------------------------------------
  // Numerals
  // ---------------------------------------------------------------------

  /** Reference notation of `n` in base |table|, most significant digit
      first, "0" for zero. */
  function Positional(n: nat, table: string): (d: string)
    requires |table| >= 2
    ensures |d| >= 1
    decreases n
  {
    if n < |table| then [table[n]] else Positional(n / |table|, table) + [table[n % |table|]]
  }

  /** The formatter's do-while loop: the lowest digit first, dividing until
      the value reaches zero. */
  function LowFirst(n: nat, table: string): (d: string)
    requires |table| >= 2
    ensures |d| >= 1
    decreases n
  {
    DivisionShrinks(n, |table|);
    [table[n % |table|]] + (if n / |table| > 0 then LowFirst(n / |table|, table) else [])
  }

  lemma DivisionShrinks(n: nat, b: nat)
    requires b >= 2
    ensures n / b <= n && (n / b > 0 <==> n >= b) && (n / b > 0 ==> n / b < n)
    ensures n < b ==> n % b == n
  {
    var q, r := n / b, n % b;
    assert n == q * b + r && 0 <= r < b;
    if q > 0 {
      ProductAtLeast(q, b);
    } else {
      assert n == r;
    }
  }

  lemma ProductAtLeast(q: nat, b: nat)
    requires q >= 1 && b >= 2
    ensures q * b >= b && q * b >= 2 * q
  {
  }

  /** Copying the loop's buffer back to front gives the reference numeral. */
  lemma {:induction false} LowFirstReversed(n: nat, table: string)
    requires |table| >= 2
    ensures Stdlib.Reverse(LowFirst(n, table)) == Positional(n, table)
    decreases n
  {
    var b := |table|;
    DivisionShrinks(n, b);
    if n / b > 0 {
      LowFirstReversed(n / b, table);
      Stdlib.ReverseCons(table[n % b], LowFirst(n / b, table));
    } else {
      assert LowFirst(n, table) == [table[n]];
      assert [table[n]][1..] == [];
    }
  }

  /** In base ten the numeral is the one itoa writes and atoi reads. */
  lemma {:induction false} DecimalIsNatDigits(n: nat)
    ensures Positional(n, DECIMAL) == Stdlib.NatDigits(n, 10)
    decreases n
  {
    DecimalTable();
    if n >= 10 {
      DecimalIsNatDigits(n / 10);
    }
  }

  lemma DecimalTable()
    ensures forall k :: 0 <= k < 10 ==> DECIMAL[k] == Stdlib.DigitChar(k)
  {
  }

  function UpperHex(c: char): char
  {
    if 'a' <= c <= 'f' then (c as int - 32) as char else c
  }

  /** %X differs from %x only in the case of the letters a..f. */
  lemma {:induction false} UpperHexDigits(n: nat)
    ensures |Positional(n, HEX_UPPER)| == |Positional(n, HEX_LOWER)|
    ensures forall k :: 0 <= k < |Positional(n, HEX_LOWER)| ==>
      Positional(n, HEX_UPPER)[k] == UpperHex(Positional(n, HEX_LOWER)[k])
    decreases n
  {
    HexTables();
    if n >= 16 {
      UpperHexDigits(n / 16);
    }
  }

  lemma HexTables()
    ensures forall k :: 0 <= k < 16 ==> HEX_UPPER[k] == UpperHex(HEX_LOWER[k])
  {
  }

  // ---------------------------------------------------------------------
  // Conversions
  // ---------------------------------------------------------------------

  /** The conversion characters that take an argument. */
  predicate TakesArg(conv: char)
  {
    conv == 'c' || conv == 's' || conv == 'd' || conv == 'i' || conv == 'u' || conv == 'x' || conv == 'X'
  }

  /** The argument has the type va_arg reads for `conv`.  %s takes a string
      (or NULL), %c, %d and %i an int (negating INT_MIN in %d overflows), and
      %u, %x and %X the 32 bits of an int or an unsigned int. */
  predicate Fits(conv: char, arg: Arg)
  {
    if conv == 's' then arg.StrArg? && (arg.s.Some? ==> CString.NulFree(arg.s.value))
    else if conv == 'u' || conv == 'x' || conv == 'X' then arg.IntArg? && INT_MIN <= arg.i < UINT_MOD
    else arg.IntArg? && IsInt32(arg.i) && (conv != 'c' ==> arg.i != INT_MIN)
  }

  /** The text one argument-taking conversion produces, before the cap. */
  function Converted(conv: char, arg: Arg): string
    requires TakesArg(conv) && Fits(conv, arg)
  {
    if conv == 'c' then [(arg.i % 256) as char]
    else if conv == 's' then (if arg.s.None? then "(null)" else arg.s.value)
    else if conv == 'd' || conv == 'i' then
      (if arg.i < 0 then "-" else "") + Stdlib.Reverse(LowFirst(Magnitude(arg.i), DECIMAL))
    else if conv == 'u' then Stdlib.Reverse(LowFirst(arg.i % UINT_MOD, DECIMAL))
    else if conv == 'x' then Stdlib.Reverse(LowFirst(arg.i % UINT_MOD, HEX_LOWER))
    else Stdlib.Reverse(LowFirst(arg.i % UINT_MOD, HEX_UPPER))
  }

  /** The text of a conversion that takes no argument: "%%" is one percent
      sign, anything else (a flag, a width, a length modifier) is echoed
      after a percent sign. */
  function Echoed(conv: char): string
  {
    if conv == '%' then "%" else ['%', conv]
  }

  /** Every conversion reached has an argument of its type, and no '%' is
      the last character (the engine would read past the terminator). */
  predicate WellFormed(fmt: string, args: seq<Arg>)
    decreases |fmt|
  {
    if fmt == [] then true
    else if fmt[0] != '%' then WellFormed(fmt[1..], args)
    else if |fmt| == 1 then false
    else if TakesArg(fmt[1]) then args != [] && Fits(fmt[1], args[0]) && WellFormed(fmt[2..], args[1..])
    else WellFormed(fmt[2..], args)
  }

  /** Reference meaning of a format: the conversions expanded, with no cap. */
  function Render(fmt: string, args: seq<Arg>): string
    requires WellFormed(fmt, args)
    decreases |fmt|
  {
    if fmt == [] then []
    else if fmt[0] != '%' then [fmt[0]] + Render(fmt[1..], args)
    else if TakesArg(fmt[1]) then Converted(fmt[1], args[0]) + Render(fmt[2..], args[1..])
    else Echoed(fmt[1]) + Render(fmt[2..], args)
  }

  // ---------------------------------------------------------------------
  // The capped engine
  // ---------------------------------------------------------------------

  /** vsprintf's main loop with `out` written so far: it runs while format
      characters remain and fewer than LIMIT have been written, and every
      store inside a conversion is guarded by the same bound. */
  function Emit(fmt: string, args: seq<Arg>, out: string): (r: string)
    requires WellFormed(fmt, args) && |out| <= LIMIT
    ensures r == Clip(out + Render(fmt, args), LIMIT)
    decreases |fmt|
  {
    if fmt == [] then
      assert out + [] == out;
      out
    else if |out| == LIMIT then
      assert (out + Render(fmt, args))[..LIMIT] == out;
      out
    else if fmt[0] != '%' then
      ClipAbsorb(out, [fmt[0]], Render(fmt[1..], args), LIMIT);
      Emit(fmt[1..], args, out + [fmt[0]])
    else if TakesArg(fmt[1]) then
      var piece := Converted(fmt[1], args[0]);
      ClipAbsorb(out, piece, Render(fmt[2..], args[1..]), LIMIT);
      Emit(fmt[2..], args[1..], out + Clip(piece, LIMIT - |out|))
    else
      var piece := Echoed(fmt[1]);
      ClipAbsorb(out, piece, Render(fmt[2..], args), LIMIT);
      Emit(fmt[2..], args, out + Clip(piece, LIMIT - |out|))
  }

  /** Cutting a piece at the room left and then at the cap is the same as
      cutting the whole at the cap. */
  lemma ClipAbsorb(out: string, piece: string, rest: string, k: nat)
    requires |out| <= k
    ensures Clip(out + Clip(piece, k - |out|) + rest, k) == Clip(out + (piece + rest), k)
  {
    if |piece| <= k - |out| {
      assert out + Clip(piece, k - |out|) + rest == out + (piece + rest);
    } else {
      var cut := out + piece[..k - |out|];
      assert (cut + rest)[..k] == cut;
      assert (out + (piece + rest))[..k] == cut;
    }
  }

  /** `vsprintf` (and `sprintf`, which forwards to it): the characters
      stored before the terminator; the C return value is their number. */
  function Vsprintf(fmt: string, args: seq<Arg>): (out: string)
    requires WellFormed(fmt, args)
    ensures |out| <= LIMIT
    ensures out == Clip(Render(fmt, args), LIMIT)
    ensures |Render(fmt, args)| <= LIMIT ==> out == Render(fmt, args)
  {
    Emit(fmt, args, [])
  }

  /** What snprintf leaves in the buffer and returns. */
  datatype Truncated = Truncated(text: string, result: int)

  /** `snprintf`: the whole vsprintf output is stored first and only then
      cut at `size - 1`.  vsprintf itself ignores `size`, so its output and
      terminator must fit the caller's buffer of `capacity` characters;
      `size` is compared as an int. */
  function Snprintf(fmt: string, args: seq<Arg>, size: nat, capacity: nat): (r: Truncated)
    requires WellFormed(fmt, args)
    requires |Vsprintf(fmt, args)| < capacity && size <= INT_MAX
    ensures r.result == |r.text|
    ensures r.text <= Vsprintf(fmt, args)
    ensures size > 0 ==> |r.text| < size
    ensures size > 0 ==> r.text == Clip(Render(fmt, args), Min(LIMIT, size - 1))
    ensures size == 0 ==> r.text == Vsprintf(fmt, args)
  {
    var out := Vsprintf(fmt, args);
    if |out| >= size && size > 0 then Truncated(out[..size - 1], size - 1)
    else Truncated(out, |out|)
  }

  // ---------------------------------------------------------------------
  // What each conversion renders
  // ---------------------------------------------------------------------

  /** %d and %i: a minus sign for negative values, then the magnitude's
      decimal digits, which atoi reads back as the value. */
  lemma SignedConversion(conv: char, v: int)
    requires (conv == 'd' || conv == 'i') && IsInt32(v) && v != INT_MIN
    ensures Converted(conv, IntArg(v)) == Stdlib.Formatted(v, 10)
    ensures Stdlib.NumeralValue(Stdlib.ReadNumeral(Converted(conv, IntArg(v)))) == v
  {
    DecimalText(Magnitude(v));
    assert Converted(conv, IntArg(v)) == Stdlib.Formatted(v, 10);
    Stdlib.ReadFormatted(v);
  }

  /** The decimal buffer, copied back to front, is the reference numeral. */
  lemma DecimalText(n: nat)
    ensures Stdlib.Reverse(LowFirst(n, DECIMAL)) == Stdlib.NatDigits(n, 10)
  {
    LowFirstReversed(n, DECIMAL);
    DecimalIsNatDigits(n);
  }

  /** %u: the decimal digits of the 32-bit unsigned value. */
  lemma UnsignedConversion(v: int)
    requires INT_MIN <= v < UINT_MOD
    ensures Converted('u', IntArg(v)) == Stdlib.NatDigits(v % UINT_MOD, 10)
    ensures 0 <= v ==> Converted('u', IntArg(v)) == Stdlib.NatDigits(v, 10)
  {
    var n := v % UINT_MOD;
    DecimalText(n);
    if 0 <= v {
      assert n == v;
    }
  }

  /** %x: lowercase hexadecimal, most significant digit first; %X the same
      digits with uppercase letters. */
  lemma HexConversion(v: int)
    requires INT_MIN <= v < UINT_MOD
    ensures Converted('x', IntArg(v)) == Positional(v % UINT_MOD, HEX_LOWER)
    ensures Converted('x', IntArg(v)) == Stdlib.NatDigits(v % UINT_MOD, 16)
    ensures var x, big := Converted('x', IntArg(v)), Converted('X', IntArg(v));
      |big| == |x| && forall k :: 0 <= k < |x| ==> big[k] == UpperHex(x[k])
  {
    LowFirstReversed(v % UINT_MOD, HEX_LOWER);
    LowFirstReversed(v % UINT_MOD, HEX_UPPER);
    HexIsNatDigits(v % UINT_MOD);
    UpperHexDigits(v % UINT_MOD);
  }

  lemma {:induction false} HexIsNatDigits(n: nat)
    ensures Positional(n, HEX_LOWER) == Stdlib.NatDigits(n, 16)
    decreases n
  {
    HexLowerTable();
    if n >= 16 {
      HexIsNatDigits(n / 16);
    }
  }

  lemma HexLowerTable()
    ensures forall k :: 0 <= k < 16 ==> HEX_LOWER[k] == Stdlib.DigitChar(k)
  {
  }

  /** A format without '%' is copied as it is (up to the cap). */
  lemma {:induction false} PlainText(fmt: string, args: seq<Arg>)
    requires '%' !in fmt
    ensures WellFormed(fmt, args) && Render(fmt, args) == fmt
    decreases |fmt|
  {
    if fmt != [] {
      assert fmt[0] in fmt;
      assert forall c :: c in fmt[1..] ==> c in fmt;
      PlainText(fmt[1..], args);
    }
  }

  /** A format of exactly one conversion and its argument renders that
      conversion: %s of NULL gives "(null)", %% gives "%", and an unknown
      conversion character (a flag, a width, a length modifier) is echoed
      after a percent sign and takes no argument. */
  lemma SingleConversion(conv: char, args: seq<Arg>)
    requires TakesArg(conv) ==> |args| == 1 && Fits(conv, args[0])
    requires !TakesArg(conv) ==> args == []
    ensures WellFormed(['%', conv], args)
    ensures TakesArg(conv) ==> Render(['%', conv], args) == Converted(conv, args[0])
    ensures !TakesArg(conv) ==> Render(['%', conv], args) == Echoed(conv)
    ensures conv == 's' && args[0].s.None? ==> Render(['%', conv], args) == "(null)"
    ensures conv == '%' ==> Render(['%', conv], args) == "%"
  {
    var fmt := ['%', conv];
    assert fmt[2..] == [];
    if TakesArg(conv) {
      assert args[1..] == [];
    }
  }

  /** "%-12s" has no conversion the engine knows at the '-', so it comes out
      literally and consumes nothing. */
  lemma LeftAlignedWidthIsLiteral()
    ensures WellFormed("%-12s", []) && Render("%-12s", []) == "%-12s"
  {
    var fmt := "%-12s";
    assert fmt[2..] == "12s";
    PlainText("12s", []);
  }
}

=== FILE: stdlib.dfy ===
/** The numeric part of the C library: decimal parsing (atoi, atol), formatting
    in a base (itoa, ltoa), absolute values and the linear-congruential
    generator behind rand/srand.  `long` is 32 bits on the i386 target, so the
    long variants have exactly the int variants' range. */
module Stdlib {
  import opened Common

  // ---------------------------------------------------------------------
  // Digits and their values
  // ---------------------------------------------------------------------

  predicate IsBlank(c: char) { c == ' ' || c == '\t' || c == '\n' }

  predicate IsDigit(c: char) { '0' <= c <= '9' }

  predicate AllDigits(d: string) { forall i :: 0 <= i < |d| ==> IsDigit(d[i]) }

  function DigitValue(c: char): nat
    requires IsDigit(c)
  {
    c as int - '0' as int
  }

  /** The number a decimal digit string denotes, most significant digit first. */
  function Value(d: string): nat
    requires AllDigits(d)
  {
    if d == [] then 0 else 10 * Value(d[..|d| - 1]) + DigitValue(d[|d| - 1])
  }

  lemma ValueExtend(d: string, c: char)
    requires AllDigits(d) && IsDigit(c)
    ensures AllDigits(d + [c]) && Value(d + [c]) == 10 * Value(d) + DigitValue(c)
  {
    assert (d + [c])[..|d|] == d;
  }

  lemma {:induction false} ValuePrefix(d: string, k: nat)
    requires AllDigits(d) && k <= |d|
    ensures Value(d[..k]) <= Value(d)
    decreases |d|
  {
    if k < |d| {
      var init := d[..|d| - 1];
      assert init[..k] == d[..k];
      assert AllDigits(init);
      ValuePrefix(init, k);
    } else {
      assert d[..k] == d;
    }
  }

  // ---------------------------------------------------------------------
  // Reading a number: the grammar atoi and atol accept
  // ---------------------------------------------------------------------

  /** Number of blanks (space, tab, newline) before the first other character. */
  function BlankCount(s: string): (n: nat)
    ensures n <= |s|
    ensures forall i :: 0 <= i < n ==> IsBlank(s[i])
    ensures n == |s| || !IsBlank(s[n])
  {
    if s != [] && IsBlank(s[0]) then 1 + BlankCount(s[1..]) else 0
  }

  /** The longest prefix of `s` made of decimal digits. */
  function DigitRun(s: string): (d: string)
    ensures d <= s && AllDigits(d)
    ensures |d| == |s| || !IsDigit(s[|d|])
  {
    if s != [] && IsDigit(s[0]) then [s[0]] + DigitRun(s[1..]) else []
  }

  /** What a numeral reads as: leading blanks, at most one sign, then the
      longest run of digits; anything after the run is ignored. */
  datatype Numeral = Numeral(negative: bool, digits: string)

  function ReadNumeral(s: string): (n: Numeral)
    ensures AllDigits(n.digits)
  {
    var t := s[BlankCount(s)..];
    Numeral(t != [] && t[0] == '-', DigitRun(t[SignLength(t)..]))
  }

  /** One character for a leading '-' or '+', none otherwise. */
  function SignLength(t: string): (k: nat)
    ensures k <= |t|
  {
    if t != [] && (t[0] == '-' || t[0] == '+') then 1 else 0
  }

  function NumeralValue(n: Numeral): int
    requires AllDigits(n.digits)
  {
    if n.negative then -(Value(n.digits) as int) else Value(n.digits)
  }

  /** `atoi`: the characters are the string's content (its terminating NUL is
      neither a blank, a sign nor a digit, so every scan stops there anyway).
      Signed overflow of the accumulator is undefined in C, so the digit run
      must denote an int. */
  method Atoi(s: string) returns (r: int)
    requires Value(ReadNumeral(s).digits) <= INT_MAX
    ensures r == NumeralValue(ReadNumeral(s))
    ensures IsInt32(r)
    ensures ReadNumeral(s).digits == [] ==> r == 0
  {
    ghost var n := ReadNumeral(s);
    var sign := 1;
    var i := SkipBlanks(s);
    AfterBlanks(s, i);
    ghost var k := i + SignLength(s[i..]);
    if i < |s| && s[i] == '-' {
      sign := -1;
      i := i + 1;
    } else if i < |s| && s[i] == '+' {
      i := i + 1;
    }
    assert i == k && (n.negative <==> sign == -1);
    var result := AccumulateDigits(s, i);
    SignApplied(result, sign);
    r := result * sign;
  }

  /** Multiplying by the sign either keeps or negates the magnitude. */
  lemma SignApplied(x: int, sign: int)
    ensures sign == 1 ==> x * sign == x
    ensures sign == -1 ==> x * sign == -x
  {
  }

  /** The first loop of atoi: step over blanks. */
  method SkipBlanks(s: string) returns (i: nat)
    ensures i == BlankCount(s)
  {
    i := 0;
    while i < |s| && IsBlank(s[i])
      invariant i <= |s| && forall k :: 0 <= k < i ==> IsBlank(s[k])
    {
      i := i + 1;
    }
    BlankCountUnique(s, i);
  }

  /** The last loop of atoi: fold the digit run into a number, which must
      stay within int. */
  method AccumulateDigits(s: string, start: nat) returns (result: int)
    requires start <= |s| && Value(DigitRun(s[start..])) <= INT_MAX
    ensures result == Value(DigitRun(s[start..]))
  {
    result := 0;
    var i := start;
    ghost var u := s[start..];
    assert u[..0] == [];
    while i < |s| && IsDigit(s[i])
      invariant start <= i <= |s|
      invariant AllDigits(u[..i - start])
      invariant result == Value(u[..i - start]) <= Value(DigitRun(u))
    {
      assert u[i - start] == s[i];
      AccumulateStep(u, i - start);
      assert 10 * result + DigitValue(s[i]) <= INT_MAX;
      result := 10 * result + DigitValue(s[i]);
      i := i + 1;
    }
    DigitRunEnds(u, i - start);
  }

  /** One round of the accumulation loop: the next digit extends the value
      read so far, which stays within the value of the whole digit run. */
  lemma AccumulateStep(u: string, k: nat)
    requires k < |u| && AllDigits(u[..k]) && IsDigit(u[k])
    ensures AllDigits(u[..k + 1])
    ensures Value(u[..k + 1]) == 10 * Value(u[..k]) + DigitValue(u[k])
    ensures Value(u[..k + 1]) <= Value(DigitRun(u))
  {
    PrefixStep(u, k);
    ValueExtend(u[..k], u[k]);
    PartialValueBound(u, k + 1);
  }

  /** The value read so far never exceeds the value of the whole digit run. */
  lemma PartialValueBound(u: string, k: nat)
    requires k <= |u| && AllDigits(u[..k])
    ensures Value(u[..k]) <= Value(DigitRun(u))
  {
    DigitRunCovers(u, k);
    ValuePrefix(DigitRun(u), k);
  }

  /** A digit-only prefix of `u` lies inside the digit run. */
  lemma DigitRunCovers(u: string, k: nat)
    requires k <= |u| && AllDigits(u[..k])
    ensures k <= |DigitRun(u)| && DigitRun(u)[..k] == u[..k]
  {
    if k > 0 {
      assert IsDigit(u[..k][0]);
      assert u[1..][..k - 1] == u[..k][1..];
      DigitRunCovers(u[1..], k - 1);
    }
  }

  /** A digit-only prefix followed by a non-digit (or the end) is the digit run. */
  lemma DigitRunEnds(u: string, k: nat)
    requires k <= |u| && AllDigits(u[..k])
    requires k == |u| || !IsDigit(u[k])
    ensures DigitRun(u) == u[..k]
  {
    DigitRunCovers(u, k);
  }

  /** The numeral as seen from the first non-blank character. */
  lemma AfterBlanks(s: string, i: nat)
    requires i == BlankCount(s)
    ensures ReadNumeral(s).negative == (i < |s| && s[i] == '-')
    ensures ReadNumeral(s).digits == DigitRun(s[i + SignLength(s[i..])..])
  {
    var t := s[i..];
    var k := SignLength(t);
    assert ReadNumeral(s) == Numeral(t != [] && t[0] == '-', DigitRun(t[k..]));
    assert t[k..] == s[i + k..];
  }

  lemma BlankCountUnique(s: string, i: nat)
    requires i <= |s| && forall k :: 0 <= k < i ==> IsBlank(s[k])
    requires i == |s| || !IsBlank(s[i])
    ensures i == BlankCount(s)
  {
    if i > 0 {
      BlankCountUnique(s[1..], i - 1);
    }
  }

  /** `atol`: the same text as atoi over `long`, which has int's width on i386. */
  method Atol(s: string) returns (r: int)
    requires Value(ReadNumeral(s).digits) <= INT_MAX
    ensures r == NumeralValue(ReadNumeral(s))
    ensures IsInt32(r)
  {
    r := Atoi(s);
  }

  // ---------------------------------------------------------------------
  // Writing a number: itoa and ltoa
  // ---------------------------------------------------------------------

  const DIGITS: string := "0123456789abcdefghijklmnopqrstuvwxyz"

  /** The mirrored digit table the formatter indexes with `35 + remainder`,
      "zyx...987654321" followed by "0123456789ab...xyz", so that negative
      remainders pick the same digit as positive ones. */
  const SIGNED_DIGITS: string := Reverse(DIGITS[1..]) + DIGITS

  predicate ValidBase(base: int) { 2 <= base <= 36 }

  function DigitChar(d: nat): char
    requires d < 36
  {
    DIGITS[d]
  }

  lemma SignedDigitsMirror(r: int)
    requires -35 <= r <= 35
    ensures SIGNED_DIGITS[35 + r] == DigitChar(Magnitude(r))
  {
    MirrorIndex(DIGITS, r);
  }

  /** A table followed by its own mirror image, minus the shared centre,
      reads the same at equal distances on both sides of the centre. */
  lemma MirrorIndex<T>(s: seq<T>, r: int)
    requires |s| > 0 && -(|s| - 1) <= r <= |s| - 1
    ensures (Reverse(s[1..]) + s)[|s| - 1 + r] == s[Magnitude(r)]
  {
    if r < 0 {
      ReverseIndex(s[1..], |s| - 1 + r);
    }
  }

  /** Reference notation of a natural number in `base`, most significant digit
      first, with no leading zeros ("0" for zero). */
  function NatDigits(n: nat, base: int): (d: string)
    requires ValidBase(base)
    ensures |d| >= 1
    decreases n
  {
    if n < base then [DigitChar(n)] else NatDigits(n / base, base) + [DigitChar(n % base)]
  }

  /** What itoa writes for `value`: a minus sign for negative values, then the
      magnitude's digits; an invalid base gives the empty string. */
  function Formatted(value: int, base: int): string
  {
    if !ValidBase(base) then []
    else (if value < 0 then "-" else "") + NatDigits(Magnitude(value), base)
  }

  function Reverse<T>(s: seq<T>): (r: seq<T>)
    ensures |r| == |s|
  {
    if s == [] then [] else Reverse(s[1..]) + [s[0]]
  }

  /** Position i of a reversal is position |s| - 1 - i of the original. */
  lemma {:induction false} ReverseIndex<T>(s: seq<T>, i: nat)
    requires i < |s|
    ensures Reverse(s)[i] == s[|s| - 1 - i]
  {
    if i < |s| - 1 {
      ReverseIndex(s[1..], i);
    }
  }

  lemma ReverseAppend<T>(s: seq<T>, x: T)
    ensures Reverse(s + [x]) == [x] + Reverse(s)
  {
    if s != [] {
      assert (s + [x])[1..] == s[1..] + [x];
    }
  }

  /** The table entry the formatter picks for the remainder `r`. */
  function SignedDigit(r: int): (c: char)
    requires -35 <= r <= 35
    ensures c == DigitChar(Magnitude(r))
  {
    SignedDigitsMirror(r);
    SIGNED_DIGITS[35 + r]
  }

  /** One round of the formatting loop: `x` is divided toward zero by `base`
      and the remainder's digit is the lowest digit of `|x|`. */
  lemma FormatStep(x: int, base: int)
    requires ValidBase(base)
    ensures var q := TDiv(x, base);
      && (q != 0 ==> (q < 0 <==> x < 0))
      && NatDigits(Magnitude(x), base)
         == (if q == 0 then [] else NatDigits(Magnitude(q), base)) + [SignedDigit(TRem(x, base))]
  {
    TruncatedByBase(x, base);
    NatDigitsLast(Magnitude(x), base);
  }

  /** Truncating division by a positive base splits the magnitude into the
      magnitudes of quotient and remainder, and keeps the sign. */
  lemma TruncatedByBase(x: int, base: int)
    requires base > 0
    ensures Magnitude(TDiv(x, base)) == Magnitude(x) / base
    ensures Magnitude(TRem(x, base)) == Magnitude(x) % base
    ensures TDiv(x, base) != 0 ==> (TDiv(x, base) < 0 <==> x < 0)
  {
    var m := Magnitude(x) / base;
    var q := TDiv(x, base);
    assert q == (if x < 0 then -m else m);
    TruncatedRemainder(x, base, m, q);
  }

  lemma NatDigitsLast(n: nat, base: int)
    requires ValidBase(base)
    ensures NatDigits(n, base) == (if n / base == 0 then [] else NatDigits(n / base, base)) + [DigitChar(n % base)]
  {
    if n < base {
      assert n / base == 0 && n % base == n;
    } else {
      assert n / base != 0;
    }
  }

  /** `itoa`: digits are produced lowest first by repeated truncating
      division, the sign is added when the last quotient taken was negative,
      and the buffer is then reversed. Every int, INT_MIN included, formats. */
  method Itoa(value: int, base: int) returns (r: string)
    requires IsInt32(value)
    ensures r == Formatted(value, base)
    ensures ValidBase(base) ==> |r| >= 1
  {
    if base < 2 || base > 36 {
      return [];
    }
    var rev, last := LowDigitsFirst(value, base);
    if last < 0 {
      ReverseAppend(rev, '-');
      rev := rev + ['-'];
    }
    r := ReverseCopy(rev);
  }

  /** The do-while loop of itoa: digits lowest first, and the last value
      divided, whose sign decides the minus sign. */
  method LowDigitsFirst(value: int, base: int) returns (rev: string, last: int)
    requires ValidBase(base)
    ensures Reverse(rev) == NatDigits(Magnitude(value), base)
    ensures last < 0 <==> value < 0
  {
    var v := value;
    last := v;
    // the body of the do-while, once before the test
    rev := [];
    assert NatDigits(Magnitude(value), base) == NatDigits(Magnitude(v), base) + Reverse(rev);
    PendingStep(value, v, rev, base);
    rev := rev + [SignedDigit(TRem(v, base))];
    v := TDiv(v, base);
    while v != 0
      invariant last != 0 ==> (last < 0 <==> value < 0)
      invariant value != 0 ==> last != 0
      invariant v != 0 ==> (v < 0 <==> value < 0)
      invariant Pending(value, v, rev, base)
      decreases Magnitude(v)
    {
      PendingStep(value, v, rev, base);
      last := v;
      rev := rev + [SignedDigit(TRem(v, base))];
      v := TDiv(v, base);
    }
  }

  /** The digits of `value` are those of `v`, still to be divided out,
      followed by the buffer read backwards. */
  ghost predicate Pending(value: int, v: int, rev: string, base: int)
    requires ValidBase(base)
  {
    NatDigits(Magnitude(value), base) == (if v == 0 then [] else NatDigits(Magnitude(v), base)) + Reverse(rev)
  }

  lemma PendingStep(value: int, v: int, rev: string, base: int)
    requires ValidBase(base)
    requires NatDigits(Magnitude(value), base) == NatDigits(Magnitude(v), base) + Reverse(rev)
    ensures Pending(value, TDiv(v, base), rev + [SignedDigit(TRem(v, base))], base)
    ensures TDiv(v, base) != 0 ==> (TDiv(v, base) < 0 <==> v < 0)
    ensures v != 0 ==> Magnitude(TDiv(v, base)) < Magnitude(v)
  {
    var q, c := TDiv(v, base), SignedDigit(TRem(v, base));
    FormatStep(v, base);
    ShiftDigit(NatDigits(Magnitude(value), base), NatDigits(Magnitude(v), base),
      if q == 0 then [] else NatDigits(Magnitude(q), base), c, rev);
  }

  /** Moving the lowest pending digit into the buffer keeps the whole. */
  lemma ShiftDigit(all: string, pending: string, high: string, c: char, rev: string)
    requires all == pending + Reverse(rev) && pending == high + [c]
    ensures all == high + Reverse(rev + [c])
  {
    ReverseAppend(rev, c);
    assert (high + [c]) + Reverse(rev) == high + ([c] + Reverse(rev));
  }

  /** The closing loop of itoa, which swaps the buffer end for end. */
  method ReverseCopy(rev: string) returns (r: string)
    ensures r == Reverse(rev)
  {
    r := [];
    var i: nat := |rev|;
    while i > 0
      invariant i <= |rev|
      invariant r == Reverse(rev[i..])
    {
      assert rev[i - 1..] == [rev[i - 1]] + rev[i..];
      ReverseCons(rev[i - 1], rev[i..]);
      r := r + [rev[i - 1]];
      i := i - 1;
    }
    assert rev[0..] == rev;
  }

  lemma ReverseCons<T>(x: T, s: seq<T>)
    ensures Reverse([x] + s) == Reverse(s) + [x]
  {
    assert ([x] + s)[1..] == s;
  }

  /** `ltoa`: the same text as itoa over `long`, which has int's width on i386. */
  method Ltoa(value: int, base: int) returns (r: string)
    requires IsInt32(value)
    ensures r == Formatted(value, base)
  {
    r := Itoa(value, base);
  }

  lemma {:induction false} ValueOfNatDigits(n: nat)
    ensures AllDigits(NatDigits(n, 10)) && Value(NatDigits(n, 10)) == n
    decreases n
  {
    if n >= 10 {
      var d := NatDigits(n / 10, 10);
      ValueOfNatDigits(n / 10);
      assert NatDigits(n, 10) == d + [DigitChar(n % 10)];
      AppendDecimalDigit(d, n % 10);
    } else {
      AppendDecimalDigit([], n);
      assert NatDigits(n, 10) == [] + [DigitChar(n)];
    }
  }

  /** Appending a decimal digit shifts the value one place and adds the digit. */
  lemma AppendDecimalDigit(d: string, r: nat)
    requires AllDigits(d) && r < 10
    ensures AllDigits(d + [DigitChar(r)]) && Value(d + [DigitChar(r)]) == 10 * Value(d) + r
  {
    ValueExtend(d, DigitChar(r));
  }

  lemma DigitRunOfDigits(d: string)
    requires AllDigits(d)
    ensures DigitRun(d) == d
  {
    if d != [] {
      DigitRunOfDigits(d[1..]);
    }
  }

  /** Reading back what itoa wrote in base 10 gives the value again, for every
      int whose magnitude atoi's accumulator can hold (all but INT_MIN). */
  lemma {:induction false} ReadFormatted(value: int)
    requires IsInt32(value) && value != INT_MIN
    ensures Value(ReadNumeral(Formatted(value, 10)).digits) <= INT_MAX
    ensures NumeralValue(ReadNumeral(Formatted(value, 10))) == value
  {
    var d := NatDigits(Magnitude(value), 10);
    ValueOfNatDigits(Magnitude(value));
    ReadSignedDigits(value < 0, d);
  }

  /** An optional minus sign followed by digits reads back as exactly that. */
  lemma ReadSignedDigits(negative: bool, d: string)
    requires d != [] && AllDigits(d)
    ensures ReadNumeral((if negative then "-" else "") + d) == Numeral(negative, d)
  {
    var sign: string := if negative then "-" else "";
    var s := sign + d;
    DigitRunOfDigits(d);
    assert IsDigit(d[0]);
    assert s[|sign|] == d[0] && !IsBlank(s[0]);
    assert s[0..] == s;
    if negative {
      assert s[0] == '-';
    } else {
      assert s == d;
      assert '0' <= s[0] <= '9';
      assert s[0] != '-' && s[0] != '+';
    }
    assert SignLength(s) == |sign|;
    assert s[|sign|..] == d;
  }

  // ---------------------------------------------------------------------
  // abs and labs
  // ---------------------------------------------------------------------

  /** `abs`: negating INT_MIN overflows, which C leaves undefined. */
  function Abs(j: int): (r: int)
    requires IsInt32(j) && j != INT_MIN
    ensures IsInt32(r) && r >= 0
    ensures r == j || r == -j
  {
    if j < 0 then -j else j
  }

  /** `labs`: abs over `long`, which has int's width on i386. */
  function Labs(j: int): (r: int)
    requires IsInt32(j) && j != INT_MIN
    ensures IsInt32(r) && r >= 0
    ensures r == j || r == -j
  {
    Abs(j)
  }

  lemma AbsIsMagnitude(j: int)
    requires IsInt32(j) && j != INT_MIN
    ensures Abs(j) == Magnitude(j) && Abs(j) == Abs(-j)
  {
  }

  // ---------------------------------------------------------------------
  // rand and srand
  // ---------------------------------------------------------------------

  const RAND_MAX: int := 32767
  const RAND_MULTIPLIER: int := 1103515245
  const RAND_INCREMENT: int := 12345
  /** The generator's state before any srand call. */
  const RAND_INITIAL_STATE: nat := 1
  /** The inverse of RAND_MULTIPLIER modulo 2^32. */
  const RAND_MULTIPLIER_INVERSE: int := 0xEEB9_EB65

  predicate IsState(s: int) { 0 <= s < UINT_MOD }

  /** The state update, in unsigned 32-bit arithmetic. */
  function NextState(s: nat): nat
  {
    (s * RAND_MULTIPLIER + RAND_INCREMENT) % UINT_MOD
  }

  datatype Draw = Draw(state: nat, value: int)

  /** `rand`: advance the state, then return bits 16..30 of the new state. */
  function Rand(state: nat): (d: Draw)
    requires IsState(state)
    ensures IsState(d.state) && d.state == NextState(state)
    ensures 0 <= d.value <= RAND_MAX
    ensures d.value == (d.state / 0x1_0000) % (RAND_MAX + 1)
  {
    var next := NextState(state);
    Draw(next, (next / 65536) % 32768)
  }

  /** `srand`: the seed becomes the state, so the draws that follow are
      the ones the seed determines. */
  function Srand(seed: int): (s: nat)
    requires IsState(seed)
    ensures IsState(s) && s == seed
  {
    seed
  }

  /** The first `n` values `rand` returns from `state`, in call order. */
  function Draws(state: nat, n: nat): (r: seq<int>)
    requires IsState(state)
    ensures |r| == n
    ensures forall i :: 0 <= i < n ==> 0 <= r[i] <= RAND_MAX
    ensures n > 0 ==> r[0] == Rand(state).value
    decreases n
  {
    if n == 0 then [] else [Rand(state).value] + Draws(Rand(state).state, n - 1)
  }

  /** A program that never calls `srand` draws what `srand(1)` would give:
      the generator starts in the state the seed 1 sets. */
  lemma UnseededIsSeedOne(n: nat)
    ensures IsState(RAND_INITIAL_STATE) && Draws(RAND_INITIAL_STATE, n) == Draws(Srand(1), n)
  {
  }

  /** Steps the generator back: the inverse of NextState. */
  function PrevState(s: nat): nat
  {
    ((s - RAND_INCREMENT) * RAND_MULTIPLIER_INVERSE) % UINT_MOD
  }

  lemma ModShift(x: int, j: int)
    requires 0 <= x < UINT_MOD
    ensures (x + j * UINT_MOD) % UINT_MOD == x
  {
  }

  /** The state update is a bijection on 32-bit states: stepping back undoes
      it, so distinct states never collide and every seed starts its own
      sequence. */
  lemma {:induction false} StepInvertible(s: nat)
    requires IsState(s)
    ensures IsState(NextState(s)) && PrevState(NextState(s)) == s
  {
    var t := s * RAND_MULTIPLIER + RAND_INCREMENT;
    var k := t / UINT_MOD;
    assert NextState(s) == t - k * UINT_MOD;
    var w := RAND_MULTIPLIER * RAND_MULTIPLIER_INVERSE;
    assert w == 1 + 1029054899 * UINT_MOD;
    calc {
      (NextState(s) - RAND_INCREMENT) * RAND_MULTIPLIER_INVERSE;
      (s * RAND_MULTIPLIER - k * UINT_MOD) * RAND_MULTIPLIER_INVERSE;
      s * w - k * UINT_MOD * RAND_MULTIPLIER_INVERSE;
      s + (s * 1029054899 - k * RAND_MULTIPLIER_INVERSE) * UINT_MOD;
    }
    ModShift(s, s * 1029054899 - k * RAND_MULTIPLIER_INVERSE);
  }

  lemma StepInjective(a: nat, b: nat)
    requires IsState(a) && IsState(b) && NextState(a) == NextState(b)
    ensures a == b
  {
    StepInvertible(a);
    StepInvertible(b);
  }
}
